=== FILE: README.md ===
# DGSM game-server manager: a Dafny model of its core

DGSM manages dedicated game servers on a Windows host. It installs and
updates each server with SteamCMD. It starts, stops and supervises the server
processes. It keeps a PID cache so that a restart can adopt the processes that
are still running. It stores the configuration in `config.json` and one
`server_settings.json` per server. It keeps the secrets of the Discord bot
encrypted in a `.env` file. The desktop panel shows the state of each server
and guards destructive actions.

This project models that core in Dafny, one module per source file:

- `RuntimeStatus`: the per-server operation tracker, with busy counters, a
  failure message and a failure that expires after 900 seconds.
- `PidCache`: the PID cache file.
- `ConfigStore`: the cached, normalised configuration and `get_config_value`.
- `Paths`: the install layout and the two server tables, paths and settings.
- `ExeSearch`: the glob-based executable search. The supervisor and the
  post-install check both use it.
- `ServerManager`: start, stop, recovery and the supervisor pass, which runs
  the crash watch and the daily stop, update and restart.
- `SteamIntegration`: `run_update`, `run_update_with_credentials` and the
  post-install check.
- `Security`: the `ENCRYPTION_KEY` lookup and `ensure_env_values`.
- `DesktopUI`: the pure helpers and the small loops of the panel. These are
  message cleaning, uptime text, status rows, stop-time validation, instance
  ids, the removal root and the shared-folder guard, and the button states.
- `Util` and `Json` hold shared text operations and JSON values (without
  floats) with Python's truthiness.

State that the source updates in place is modelled by classes with `modifies`
clauses:

- the operation table;
- the PID cache file;
- the config cache;
- the server tables;
- the supervisor's process table and daily-stop set;
- the `.env` file.

Each method is proved against a specification function, and the lemmas about
those functions state what the system promises.

The environment is passed in as parameters:

- the clock, as `now`;
- process liveness, as the set of live PIDs;
- what `Popen` returns, as the launched PID or none;
- the disk, as the set of regular files plus directory listings;
- the SteamCMD run outcome;
- the answers typed at the `input()` prompt;
- Fernet encryption and decryption, as functions.

Paths and letter case are simplified where the OS matters:

- the path separator is one constant, `Paths.Sep`, and a path is absolute
  when it starts with it; drive letters are not modelled;
- `str.lower()` and `os.path.normcase` fold ASCII letters only;
- glob matching ignores case.

One design point follows the code rather than the system's stated design.
Take nested operations: begin, begin, a failing inner end, then a successful
outer end. The outer success brings the counter to zero, and that resets the
whole record. The failure is erased (`RuntimeStatus.NestedFailureErasedByOuterSuccess`).

## Model

| member | source | states |
|---|---|---|
| RuntimeStatus.BeginSpec | src/runtime_status.py:10-17 | Begin creates the record if it is missing and raises its busy count by one. A non-empty label replaces the stored label. The failure fields and all other servers are untouched. |
| RuntimeStatus.EndSuccessSpec | src/runtime_status.py:20-28 | Success on an unknown server changes nothing. Otherwise the count goes down by one, never below zero. At zero the record becomes a fresh record, which drops the label and any failure. |
| RuntimeStatus.EndFailedSpec | src/runtime_status.py:31-40 | Failure decrements the count without going below zero. It stamps the failure time and the stripped message. The label is cleared only when the count reaches zero. |
| RuntimeStatus.QuerySpec | src/runtime_status.py:43-59 | A busy server reports busy with its label. An idle server whose failure is within the TTL reports failed with its message. Every other case is neutral, with no state and no detail. |
| RuntimeStatus.QueryEffect | src/runtime_status.py:51-56 | A query clears an expired failure of an idle server and changes nothing else. |
| RuntimeStatus.StatusTracker.Begin | src/runtime_status.py:10-17 | The table becomes `BeginSpec` of the old table. Counters stay non-negative. |
| RuntimeStatus.StatusTracker.EndSuccess | src/runtime_status.py:20-28 | The table becomes `EndSuccessSpec` of the old table. |
| RuntimeStatus.StatusTracker.EndFailed | src/runtime_status.py:31-40 | The table becomes `EndFailedSpec` of the old table. |
| RuntimeStatus.StatusTracker.Query | src/runtime_status.py:43-59 | The method returns `QuerySpec` and leaves the table as `QueryEffect`. |
| RuntimeStatus.StatusTracker.Clear | src/runtime_status.py:62-63 | The server's record is removed and nothing else changes. |
| RuntimeStatus.OperationsKeepCountersNonNegative | src/runtime_status.py:10-63 | Every operation preserves non-negative busy counters. |
| RuntimeStatus.BeginReportsBusy | src/runtime_status.py:10-17 | Right after a begin, the server reports busy, whatever it reported before. |
| RuntimeStatus.BusyDominatesFailure | src/runtime_status.py:46-48 | While the busy count is positive the state is busy, even with a recent failure, and the query changes nothing. |
| RuntimeStatus.BalancedSuccessIsNeutral | src/runtime_status.py:10-28 | On an idle server, begin followed by end_success leaves a fresh record that reports neutral. |
| RuntimeStatus.NestedFailureErasedByOuterSuccess | src/runtime_status.py:20-40 | Two begins, a failing inner end and a successful outer end leave a neutral report: the failure is lost. |
| RuntimeStatus.FailureVisibleWithinTtl | src/runtime_status.py:5 | A failure that ends the last running operation is reported as failed, with the stripped message, for the next 900 seconds. |
| RuntimeStatus.FailureExpiresForGood | src/runtime_status.py:49-56 | After the TTL an idle server reports neutral. The query that sees the expiry clears the failure, so every later query is neutral too. |
| RuntimeStatus.FailedIffWithinTtl | src/runtime_status.py:49-58 | An idle server reports failed if and only if its failure is within the TTL. |
| RuntimeStatus.ClearedIsNeutral | src/runtime_status.py:62-63 | After clear, the server reports neutral and a query changes nothing. |
| RuntimeStatus.EndSuccessWithoutRecordIsNoOp | src/runtime_status.py:20-22 | end_success on a server without a record leaves the table unchanged. |
| PidCache.RunningPids | src/pidcache.py:7-10 | The saved map holds exactly the tracked servers whose process is alive, each with its PID. |
| PidCache.LoadSpec | src/pidcache.py:13-18 | Loading yields the saved map, or `{}` when the file is missing or is not valid JSON. |
| PidCache.PidCacheFile.Save | src/pidcache.py:7-10 | The file is overwritten with the running PIDs. |
| PidCache.PidCacheFile.Load | src/pidcache.py:13-18 | The method returns `LoadSpec` of the file. |
| PidCache.SaveLoadRoundTrip | src/pidcache.py:7-18 | A load after a save returns the running PIDs. A dead process is absent and a live one keeps its PID. |
| PidCache.SaveOverwrites | src/pidcache.py:7-10 | A second save forgets a server that is no longer tracked. |
| ConfigStore.Normalize | src/config_store.py:47-53 | The result is normalised. A missing `log_retention_days` becomes 7. A missing or non-object `server_paths` becomes `{}`. Every other key is kept. |
| ConfigStore.NormalizeIdempotent | src/config_store.py:47-53 | Normalising twice is normalising once. |
| ConfigStore.NormalizeFixesNormalized | src/config_store.py:47-53 | A normalised configuration is left unchanged. |
| ConfigStore.ReadConfig | src/config_store.py:64-66 | A read succeeds if and only if the file parses to a JSON object, and then yields its normalisation. |
| ConfigStore.LoadEffect | src/config_store.py:56-74 | A missing file gives the default config. An unchanged mtime serves the cache. A newer readable file replaces the cache and its mtime. A failed read gives the default config and keeps the old mtime. |
| ConfigStore.LoadResultNormalized | src/config_store.py:56-74 | Whatever load_config returns is normalised. |
| ConfigStore.ServerEntry | src/config_store.py:91 | An unknown server, or an entry that is not an object, reads as an empty entry. |
| ConfigStore.LookupValue | src/config_store.py:89-94 | A missing key gives None. A non-empty string password is decrypted. Any other key's value is returned as stored. |
| ConfigStore.Store.Load | src/config_store.py:56-74 | Cache and mtime become `LoadEffect`, and the method returns the normalised cache. |
| ConfigStore.Store.Save | src/config_store.py:77-83 | The file and the cache both hold the normalised configuration with the new mtime. |
| ConfigStore.Store.GetValue | src/config_store.py:89-94 | The method loads first, then returns `LookupValue` of the loaded configuration. |
| ConfigStore.SaveThenLoad | src/config_store.py:56-83 | Loading right after a save returns the normalised configuration that was saved. |
| ConfigStore.UnchangedMtimeServesCache | src/config_store.py:61-62 | A file whose mtime has not advanced is not read again. |
| ConfigStore.FailedReadIsRetried | src/config_store.py:62-73 | A failed read yields the default config and does not advance the mtime. A repaired file with the same mtime is then read. |
| Paths.PathJoin | src/server_manager.py:52 | This is `os.path.join` for two parts. A second part starting with the separator replaces the first; otherwise one separator joins them. |
| Paths.ServerFilesShape | src/paths.py:12-19 | For a plain app id, the server root is `<servers>/<id>` and the files folder is `<servers>/<id>/serverfiles`. |
| Paths.ServerFilesInjective | src/paths.py:17-19 | Two plain app ids get the same install folder if and only if they are equal. |
| Paths.PathsFromEntries | src/paths.py:22-30 | The table has exactly the configured names, and each maps to `server_files(str(app_id))`. |
| Paths.SettingsFor | src/paths.py:37-45 | A server's settings are the parsed `server_settings.json`, or `{}` when the file is missing or unreadable. |
| Paths.ConfigsFor | src/paths.py:33-45 | The settings table has exactly the names of the path table. |
| Paths.ServerTables.LoadServerPaths | src/paths.py:22-30 | The method succeeds if and only if every entry has an `app_id`. It then replaces the path table with `PathsFromEntries`. Otherwise the table is untouched. |
| Paths.ServerTables.LoadServerConfigs | src/paths.py:33-45 | The loop refills the settings table with `ConfigsFor` of the path table. |
| Paths.ReloadDropsRemovedNames | src/paths.py:22-45 | After a reload, a name removed from the config is gone from both tables. |
| ExeSearch.NarrowPatternsMatchAnyExe | src/server_manager.py:64 | Whatever `*Server*.exe` or `*Dedicated*.exe` matches, `*.exe` matches too. |
| ExeSearch.Glob | src/server_manager.py:66 | The hits are exactly the joined listing entries that match the pattern. |
| ExeSearch.BaseName | src/steam_integration.py:58 | The base name is the longest suffix without a separator: all of the path, or what follows its last separator. |
| ExeSearch.BaseNameOfJoin | src/steam_integration.py:57-58 | The base name of a glob hit is the directory entry it came from. |
| ExeSearch.SortKeyedSorted | src/steam_integration.py:58 | The sort is a permutation and leaves the hits ordered by key. |
| ExeSearch.SortHitsSpec | src/steam_integration.py:58 | The sorted hits are the same paths as before, ordered by (no "server" in the name, length). |
| ExeSearch.FirstFile | src/steam_integration.py:59-61 | The result is the index of the first hit that is a regular file, or none when no hit is a file. |
| ExeSearch.PickFromMinimal | src/steam_integration.py:57-61 | One pattern yields a file if and only if one of its hits is a file. The file it yields has a key that no other file hit beats. |
| ExeSearch.SearchFindsExe | src/steam_integration.py:55-62 | The heuristic search finds something if and only if some `.exe` entry is a regular file. What it finds is such a file. |
| ExeSearch.SearchPrefersServerNamed | src/steam_integration.py:55-61 | If a `*Server*.exe` file exists, the search returns a `*Server*.exe` file. |
| ServerManager.NormalizeParams | src/server_manager.py:27-34 | None gives `[]`. A list gives its items' `str`. A string gives `s.split()`, its non-empty, whitespace-free tokens. Any other value gives `[str(p)]`. |
| ServerManager.ParamsStringRoundTrip | src/server_manager.py:33 | A parameter list joined with spaces splits back into itself. |
| ServerManager.ParamsSplitAtWhitespace | src/server_manager.py:33 | A parameter string is cut at every whitespace run: the arguments come back in order, whatever whitespace precedes, separates or follows them. |
| ServerManager.ResolvedIsFile | src/server_manager.py:37-73 | A resolved executable is always a regular file. Without a server folder nothing is resolved. Settings that are not an object make the lookup raise. With neither entry set, nothing is resolved if and only if no `.exe` entry of the folder is a file. |
| ServerManager.SettingsExecutableWins | src/server_manager.py:48-54 | A settings `executable` that names an existing file wins over the config entry and over the search. |
| ServerManager.ConfigExecutableWins | src/server_manager.py:56-61 | When the settings entry does not resolve, a config `executable` that names an existing file wins over the search. |
| ServerManager.FallsBackToSearch | src/server_manager.py:63-73 | When neither entry resolves, the executable is the first hit of the glob search, or none. |
| ServerManager.ServerCommandShape | src/server_manager.py:76-86 | The lookup raises exactly when resolving the executable raises. A command exists if and only if an executable resolves. The command is then the executable followed by the normalised parameters. |
| ServerManager.StartSpec | src/server_manager.py:89-130 | Only a real launch changes the table, and then it records the launched PID under the server's name. A call that raises neither succeeds nor launches. |
| ServerManager.StartIdempotent | src/server_manager.py:100-103 | Starting again while the launched process runs succeeds and changes nothing. |
| ServerManager.StartOutcome | src/server_manager.py:89-130 | A start succeeds if and only if the server is known and is either already running or gets launched. A running server is reported as started and left alone. The call raises exactly when the reload of the tables or the command lookup raises. Other servers' entries are untouched. |
| ServerManager.StopSpec | src/server_manager.py:133-158 | The PID file is rewritten exactly when the stop succeeds. |
| ServerManager.StopAlwaysDrops | src/server_manager.py:133-158 | A stop always leaves the old table minus that name, whatever the signal does. It succeeds if and only if the entry existed and the signal worked. |
| ServerManager.Adopted | src/server_manager.py:161-173 | Recovery adopts exactly the cached servers that are configured and whose PID is alive. |
| ServerManager.RecoveryOnlyAdoptsLive | src/server_manager.py:161-173 | Recovery never drops an entry. Every entry it adds or replaces points to a live, cached PID. |
| ServerManager.Setting | src/server_manager.py:199 | A server without a settings object reads as None for every key. |
| ServerManager.StartUntracked | src/server_manager.py:195-201 | A restart of an untracked server records exactly the relaunched process. |
| ServerManager.CrashWatchSpec | src/server_manager.py:195-203 | The crash watch adds no name, and drops a dead process whose settings do not allow a restart. |
| ServerManager.CrashWatchLeavesLiveOrRestarted | src/server_manager.py:195-203 | After the crash watch every tracked process either was alive before or has just been relaunched. Live processes are kept. |
| ServerManager.DailyStoppedSpec | src/server_manager.py:214-233 | Outside midnight marks are only added, at midnight only removed. A new mark is a server that fired. |
| ServerManager.DailyProcsSpec | src/server_manager.py:214-229 | A server that does not fire keeps its entry. A fired server is tracked afterwards only when it is restarted and launched. |
| ServerManager.DailyProcsEntry | src/server_manager.py:214-229 | The table after the daily step holds a fired server's verdict and every other server's old entry. |
| ServerManager.DailyHaltCauses | src/server_manager.py:207-229 | Settings that are not an object abort the daily step. So does a fired restart when the tables cannot be reloaded. A server with settings that does not fire never aborts it. |
| ServerManager.DailyStoppedMember | src/server_manager.py:206-233 | A server is marked after the daily step if and only if it fired now, or it was already marked and the time is not midnight. |
| ServerManager.DailyProcsByEntry | src/server_manager.py:206-233 | This gives the table after the daily step, server by server. |
| ServerManager.DailyAllDone | src/server_manager.py:206-233 | Once every server has been handled without a raise, the table, the marks and the updated set are exactly `DailyProcsSpec`, `DailyStoppedSpec` and `DailyUpdatesSpec`. |
| ServerManager.DailyStopFiresOnce | src/server_manager.py:214-218 | Outside midnight the daily stop fires at most once per armed server. |
| ServerManager.MidnightRearms | src/server_manager.py:231-233 | A pass at `00:00` unmarks every armed server. A server set to `00:00` fires again after the re-arm. |
| ServerManager.DailyStepEffect | src/server_manager.py:214-229 | A server that fires is tracked afterwards only by its relaunched process. |
| ServerManager.Supervisor.Start | src/server_manager.py:89-130 | The table becomes `StartSpec`, the method reports whether the call raised, and the PID file is saved on a launch. |
| ServerManager.Supervisor.Stop | src/server_manager.py:133-158 | The table becomes `StopSpec` and the PID file is saved on success. |
| ServerManager.Supervisor.Recover | src/server_manager.py:161-173 | The table becomes the old table overridden by `Adopted`. |
| ServerManager.Supervisor.CrashWatch | src/server_manager.py:195-203 | The loop turns the table into `CrashWatchSpec`. |
| ServerManager.Supervisor.DailyFor | src/server_manager.py:208-233 | This is one server's daily step: stop, update and restart when it fires, and mark or unmark it. It raises exactly when `DailyHalts` holds, and then skips the midnight unmarking. Other servers are untouched. |
| ServerManager.Supervisor.DailyStep | src/server_manager.py:206-233 | The step raises if and only if some server makes it raise. Otherwise table, marks and updated set become `DailyProcsSpec`, `DailyStoppedSpec` and `DailyUpdatesSpec`. After a raise, each entry is either untouched or as `DailyProcsSpec` has it, new marks are fired servers, and the updates are a subset. |
| ServerManager.Supervisor.Tick | src/server_manager.py:186-233 | One supervisor pass is the crash watch followed by the daily step, and it raises exactly when the daily step does. |
| ServerManager.Supervisor.GracefulStopAll | src/server_manager.py:236-241 | Every tracked server is stopped, leaving the table empty. |
| SteamIntegration.FindExecutableInDirSpec | src/steam_integration.py:49-62 | Whatever is found is a regular file. Nothing is found if and only if the preferred file is absent and the search finds nothing. |
| SteamIntegration.FindExecutableInDir | src/steam_integration.py:49-54 | A truthy preferred entry that is not a string raises. A preferred entry naming an existing file wins over the search. |
| SteamIntegration.SumPrefixBelow | src/steam_integration.py:68-69 | A partial file count never exceeds the total. |
| SteamIntegration.CountFiles | src/steam_integration.py:67-71 | The counting loop with its early break exceeds 10 if and only if the full count does, and is exact otherwise. |
| SteamIntegration.InstallLooksGood | src/steam_integration.py:64-78 | The method returns `LooksGood`: some file exists and an executable is found. |
| SteamIntegration.LooksGoodHasExecutable | src/steam_integration.py:72-76 | A folder that looks good holds files and an executable that is a regular file. |
| SteamIntegration.InstallDirAgreesWithPathTable | src/steam_integration.py:99-101 | The fallback install folder equals the path-table entry, so a loaded or an unloaded table gives the same folder. |
| SteamIntegration.BuildCommand | src/steam_integration.py:111-116 | The command is the install dir; then an account login when both user and password are set, else an anonymous login; then `+app_update <id> validate +quit`. |
| SteamIntegration.FirstMapping | src/steam_integration.py:146-162 | The result is the first error-table entry whose key occurs in the output, or none. |
| SteamIntegration.ScanMappings | src/steam_integration.py:158-162 | The loop with its `break` yields `ErrorReason`. |
| SteamIntegration.ErrorReasonPicksFirst | src/steam_integration.py:159-162 | The reason is the first matching entry's text in front of the exit code. |
| SteamIntegration.ErrorReasonFallsBack | src/steam_integration.py:158 | With no known key in the output, the reason is just the exit code. |
| SteamIntegration.Prefix | src/steam_integration.py:163 | `s[:n]` is a prefix of at most n characters, and all of `s` when it is short. |
| SteamIntegration.RoundMinutesNearest | src/steam_integration.py:132 | The minutes are the nearest whole number, with ties to even, as `:.0f` rounds. |
| SteamIntegration.WholeMinutesText | src/steam_integration.py:132-135 | A timeout of whole minutes is reported as exactly that number of minutes. The default of 7200 seconds gives 120. |
| SteamIntegration.RunUpdate | src/steam_integration.py:83-166 | The method returns `RunUpdateSpec` of its inputs, with the folder check it performs. |
| SteamIntegration.RunUpdateSpec | src/steam_integration.py:95-116 | SteamCMD is launched if and only if there is an app id and SteamCMD exists, and then with `UpdateCommand`. Success needs a launch. |
| SteamIntegration.UpdatePreconditionsFailEarly | src/steam_integration.py:95-109 | Nothing is launched without an app id or without SteamCMD, and each case has its own message. Otherwise the launched command is `UpdateCommand`. |
| SteamIntegration.UpdateOkIffExitZeroOrLooksGood | src/steam_integration.py:126-166 | Once SteamCMD ran, the update succeeds if and only if it exited with 0 or the folder looks good. This covers timeouts too. |
| SteamIntegration.UpdateCommandShape | src/steam_integration.py:99-116 | The launched command uses the path-table folder or the standard fallback, and the right login. |
| SteamIntegration.UpdateFailureMessage | src/steam_integration.py:141-163 | A failed exit reports `ErrorReason` followed by at most 1000 characters of the output. |
| SteamIntegration.CredentialsUpdateCommand | src/steam_integration.py:172-187 | Without an app id nothing is launched. Otherwise the command logs in with the given account and has no SteamCMD presence check. |
| SteamIntegration.RunUpdateWithCredentialsSpec | src/steam_integration.py:174-195 | Given the path table after the reload: SteamCMD is launched if and only if there is an app id, and then with `CredentialsCommand`. Success needs a launch. |
| SteamIntegration.RunUpdateWithCredentials | src/steam_integration.py:172-175 | The whole call raises if and only if the reload of the path table meets an entry without `app_id`. Otherwise it launches if and only if there is an app id, and succeeds only after a launch. |
| SteamIntegration.CredentialsInstallAfterReload | src/steam_integration.py:172-185 | After the reload, a launch for a configured server installs into the folder the reloaded table gives its entry. |
| SteamIntegration.CredentialsUpdateOk | src/steam_integration.py:197-223 | Success means exit 0 or a folder that looks good, as in `run_update`. |
| SteamIntegration.CredentialsSteamGuardMessage | src/steam_integration.py:212-220 | A failed run whose output mentions Steam Guard reports the 2FA hint followed by the output. |
| Security.KeyFromLines | src/security.py:20-34 | The reader finds no key if and only if no line is an `ENCRYPTION_KEY=` line. |
| Security.KeyFromFirstKeyLine | src/security.py:25-31 | The key is taken from the first key line. |
| Security.KeyIgnoresAppendedLines | src/security.py:25-31 | Appending lines to a file that has a key does not change the key that is read. |
| Security.FirstKeyLine | src/security.py:25-31 | The result is the index of the first key line. |
| Security.ParseEnvSnoc | src/security.py:76-81 | A skipped line changes nothing. Any other line sets its key. |
| Security.ParseEnvConcat | src/security.py:76-81 | Reading more lines overrides what was read before. |
| Security.ParseEnvKeys | src/security.py:76-81 | The reader holds exactly the keys that some line sets. |
| Security.FillKeys | src/security.py:81 | A key is read if and only if some line names it. |
| Security.LaterEntryWins | src/security.py:81 | The value read for a key is the value of its last line. |
| Security.Decide | src/security.py:86-107 | Whatever is appended is the encryption of the plain value returned. Nothing is appended if and only if the stored value is an encrypted token. A plain stored value is returned as it is, and an answer is stripped. |
| Security.EnvData | src/security.py:85-109 | The returned dictionary has exactly the handled keys. |
| Security.EnvFile.ReadEncryptionKey | src/security.py:20-34 | The loop returns `KeyFromLines` of the file, and none for a missing file. |
| Security.EnvFile.ReadExisting | src/security.py:72-83 | The loop returns what the file's lines parse to, or `{}` for a missing file. |
| Security.EnvFile.AppendEntry | src/security.py:91-92 | Appending adds the lines `""` and `key=token`, and creates a missing file. |
| Security.EnvFile.HandleKey | src/security.py:86-107 | The method returns the key's plain value and appends its token exactly when the key was prompted for or was plain text. |
| Security.EnvFile.HandleKeys | src/security.py:85-107 | Handling keys in order yields `EnvData` and appends `Appended`. |
| Security.EnvFile.EnsureEnvValues | src/security.py:63-109 | For the five sensitive keys: read, then decide per key, giving `EnvData` and the appended lines. |
| Security.SensitiveKeysArePlain | src/security.py:9-15 | Every sensitive key reads back as itself from a `key=value` line. |
| Security.EntryLinesReadBack | src/security.py:92 | A written entry reads back as exactly that key and token. |
| Security.AppendedReadsBack | src/security.py:85-107 | Reading the appended lines gives each appended key its encrypted token. |
| Security.ExistingAfterAppend | src/security.py:72-92 | After appending, the next read sees the appended entries overriding the old ones. |
| Security.RestartKey | src/security.py:86-107 | On the next start a key is found without a prompt and gets the same plain value. It is appended again exactly when its environment value is non-empty plain text, which is encrypted anew on every start. |
| Security.RestartIsStable | src/security.py:63-109 | The next start, with the same environment, prompts for nothing and returns the same data. It appends exactly the keys whose environment value is non-empty plain text. |
| DesktopUI.Clean | src/desktop_ui.py:120-122 | The result is collapsed whitespace and at most limit+3 long. A short text is returned whole. A long text becomes its first `limit` characters, right-stripped, plus `...`. |
| DesktopUI.CollapseIdempotent | src/desktop_ui.py:121 | Collapsing whitespace twice is collapsing it once. |
| DesktopUI.CleanShortIsStable | src/desktop_ui.py:120-122 | Cleaning a text that fits a second time changes nothing. |
| DesktopUI.UptimeParts | src/desktop_ui.py:241-245 | Days, hours below 24 and minutes below 60 account for the clamped seconds to within one minute. |
| DesktopUI.UptimePartsUnique | src/desktop_ui.py:241-245 | That split is the only one with those bounds. |
| DesktopUI.FormatUptime | src/desktop_ui.py:241-250 | The result is days and hours from one day up, hours and minutes from one hour up, and minutes otherwise. |
| DesktopUI.Pad2Digits | src/desktop_ui.py:248 | `:02d` of a number below 100 is its two ASCII digits. |
| DesktopUI.BusyRow | src/desktop_ui.py:357-368 | A busy row always has state `updating`. Each known operation gets its own badge, and any other operation gets `WORKING`. |
| DesktopUI.StatusFor | src/desktop_ui.py:355-376 | The state is updating, failed, running or stopped, each if and only if the report and liveness say so. A failure shows the cleaned message, at most 140 characters plus the dots. |
| DesktopUI.StartingWhileStartRuns | src/desktop_ui.py:357-360 | While a start operation runs, the panel shows `STARTING`. |
| DesktopUI.ClockTextAccepted | src/desktop_ui.py:81 | Every clock reading `HH:MM` is an accepted stop time. |
| DesktopUI.Pad2OfDigits | src/desktop_ui.py:81 | Two ASCII digits are the padded text of the number they spell. |
| DesktopUI.MatchesStopTime | src/desktop_ui.py:81 | A matched text is five characters with a colon in the middle and digits around it. The ASCII variant admits ASCII digits only. |
| DesktopUI.StopTimeAccepted | src/desktop_ui.py:593-595 | The corrected check accepts nothing that the check as written rejects. An empty or blank text is accepted. |
| DesktopUI.MatchedStopTimeIsClockText | src/desktop_ui.py:81 | A text the ASCII `HH:MM` pattern matches spells an hour below 24 and a minute below 60, and is their clock reading. |
| DesktopUI.AcceptedStopTimeIsClockText | src/desktop_ui.py:81 | Every accepted, non-empty stop time, corrected to ASCII digits, is the clock reading of some time of day, so the daily stop can fire. |
| DesktopUI.UnicodeDigitStopTimeNeverFires | src/desktop_ui.py:81 | A stop time with an Arabic-Indic digit passes the check as written. It is rejected by the corrected check and equals no clock reading. |
| DesktopUI.CandidateInjective | src/desktop_ui.py:908-910 | Different suffix numbers give different candidate ids. |
| DesktopUI.CollectUsedIds | src/desktop_ui.py:896-904 | The loop collects exactly the sanitised ids of the same app's entries whose id is a non-blank string. |
| DesktopUI.FirstFreeCandidate | src/desktop_ui.py:907-910 | The result is the least n ≥ 2 whose `base-n` is free. |
| DesktopUI.MakeInstanceId | src/desktop_ui.py:894-910 | The id is never taken. It is the sanitised preferred id when that is free, else the first free `base-n`. |
| DesktopUI.InstanceIdExists | src/desktop_ui.py:913-923 | The method answers `IdTaken`: some entry of the same app has that sanitised id. |
| DesktopUI.UsedIdIsTaken | src/desktop_ui.py:894-923 | Every id that `_make_instance_id` avoids is one that `_instance_id_exists` reports. |
| DesktopUI.DirName | src/desktop_ui.py:728 | The parent folder is everything before the last separator, so parent, separator and base name give back the path. For a top-level entry the parent is the root, and root plus base name give back the path. |
| DesktopUI.DeleteRoot | src/desktop_ui.py:725-729 | A path whose base name is `serverfiles` in any case gives its parent. Any other path is kept. |
| DesktopUI.DeleteRootOfServerFilesFolder | src/desktop_ui.py:725-729 | A `serverfiles` folder, spelled in any case, is removed together with its parent. |
| DesktopUI.DeleteRootOfServerFiles | src/desktop_ui.py:725-729 | For the standard layout the removal root is the server root. |
| DesktopUI.SiblingNotShared | src/desktop_ui.py:1303-1304 | A sibling whose name merely begins like the root does not count as shared. |
| DesktopUI.NestedIsShared | src/desktop_ui.py:1303-1304 | The root and everything below it count as shared. |
| DesktopUI.StandardRootsAreSeparate | src/desktop_ui.py:1296-1306 | Two standard servers whose app ids differ even after case folding never block each other. |
| DesktopUI.FindOther | src/desktop_ui.py:1299-1306 | The loop returns a server other than the given one whose path passes the check. It returns none if and only if no other server's path does. |
| DesktopUI.FindSharing | src/desktop_ui.py:1298-1306 | The scan names another server whose removal root lies in the root, if and only if such a server exists. |
| DesktopUI.RowButtonsFor | src/desktop_ui.py:1578-1584 | A busy card offers nothing. Otherwise exactly one of start and stop is offered, with restart, backup and remove. Stop needs a running server; start, update and restore a stopped one. |
| DesktopUI.TopBarFor | src/desktop_ui.py:2620-2644 | While an action is in flight everything is off, otherwise tools and refresh are on. The server buttons and save need a selected, idle row, and save needs unsaved settings. |
| DesktopUI.CardButtonsFollowStatus | src/desktop_ui.py:1578-1584 | A busy card offers no start, stop or update. Start and update only when stopped, stop only when running. |
| DesktopUI.TopBarMatchesCard | src/desktop_ui.py:2620-2644 | While an action is in flight every top-bar button is off. Otherwise the buttons follow the selected row like the card's buttons, and save needs unsaved settings. |

## Left out

- Processes are not modelled.
  - `subprocess.Popen`, `psutil` liveness and signalling, and the SteamCMD child are parameters: the launched PID, the set of live PIDs, the signal outcome and the run outcome.
  - The terminate, wait and kill escalation is not modelled. Neither are the sleeps of the supervisor loop, the asyncio locks and concurrency.
- The 5-minute settings reload of the supervisor is not modelled. The model's pass starts after it.
- The order of the dictionary is not modelled.
  - The PID file after `Tick` and `GracefulStopAll` is the one written by the last save, and that save is order-dependent. The model states the table and not the file there.
  - When several servers share a folder, `FindSharing` does not pin which one it names.
- ServerManager.Supervisor.Start: `Popen` raising is modelled as a start that launches nothing and fails. `psutil.Process` and `save_pids` run in the same `try`: if either raises after the launch, the source returns False (keeping the new entry when `save_pids` raised), while the model counts the launch as a success.
- File writes are assumed to succeed: `save_pids`, `save_config`, the action log and the `.env` append never raise in the model.
- ServerManager.StartSpec: `start_server` reloads both tables from disk on every call. `Env` stands for the reloaded tables, so the model assumes the files do not change during a pass. A reload that raises is modelled; a reload that changes the tables is not.
- ServerManager.Supervisor.Tick: a pass that raises ends the `monitor_servers` task in the source. The model returns `halted` and does not stop a caller from running another pass.
- ServerManager.Supervisor.DailyStep: after a raise the model does not say which servers were handled, since that depends on the dictionary order.
- ConfigStore.LookupValue: a truthy password that is not a string makes `decrypt_value` raise in the source, and so does a non-empty string password that is not a valid token (`InvalidToken`); `run_update` reports either as a system error. The model returns the first as stored and decrypts the second with its total `decrypt`.
- ConfigStore.ServerEntry: an entry that is not an object raises in the source. The model reads it as an empty entry.
- The optional pydantic validation branch of `config_store.py` is not modelled, only the fallback normalisation. `get_log_retention_days` is not modelled.
- ConfigStore.Normalize: `_validate_and_normalize` mutates its argument. The model returns the new map instead.
- Fernet is modelled as a pair of deterministic functions, and `derive_key_from_phrase` and `_get_or_create_key` are not modelled.
  - `RoundTrips` is all the model asks of them.
  - Real Fernet tokens are randomised, so a second encryption gives a different token.
- The `.env` file is modelled as its list of stripped lines. Write errors, which the source ignores, are not modelled. The prompt answer is a function of the key.
- `save_steam_session` and `restore_steam_session` copy files and are not modelled.
- The `Systemfehler` catch-all of `run_update` and the duration text of its success messages are not modelled. `time.time()` and float formatting are outside the model.
- SteamIntegration.MinutesText: it is exact only while the timeout stays below 2^53 seconds. The model does not cover float rounding above that.
- `os.walk` is modelled as the sequence of per-directory file counts.
- `os.path.exists` and `os.path.isfile` are modelled as membership in the set of regular files, and `os.makedirs` is not modelled.
- Glob magic characters inside the base folder are not modelled. Patterns match the listing of one folder.
- Paths.PathJoin: only a part that starts with the separator counts as absolute. A drive path such as `C:\Games\x.exe` is appended in the model, where `os.path.join` would use it alone. The `pathlib` joins of `server_root` are modelled by the same function, which keeps `.` and empty parts that `pathlib` drops.
- Util.Lower: it folds ASCII letters only, while `str.lower()` folds every Unicode letter and `os.path.normcase` also turns `/` into `\`. `NormRoot`, `FindSharing`, `StatusFor` and `DeleteRoot` inherit this.
- DesktopUI.DirName: the parent of a top-level entry under a drive, such as `C:/serverfiles`, is `C:` in the model and `C:\` in `ntpath`.
- PidCache.LoadSpec: a cache file with valid JSON that is not a map of PIDs, such as `[1]`, is returned as it is by `load_pids`, and recovery then raises. The model has no such file.
- SteamIntegration.RunUpdateWithCredentialsSpec: a missing `steamcmd.exe` makes the launch raise `FileNotFoundError` in the source, with no `try` around it. The model treats the run outcome as given.
- Security.Decide: a stored value that starts like a token but does not decrypt makes `decrypt_value` raise `InvalidToken`. The model's `decrypt` is a total function.
- Security.EnvFile.HandleKey: it inherits the `InvalidToken` gap of `Decide`.
- Json.ToStr: it is Python's `str` only for None, booleans, integers, strings and lists of those. A dict renders as the placeholder `{...}` (the model's maps have no key order), `repr` of a string inside a list always uses single quotes and never escapes, and JSON floats are not in `Value` at all. `NormalizeParams`, `DesktopUI.SameApp` and `SteamIntegration.InstallDir` inherit this.
- ServerManager.NormalizeParams: a dict parameter or a list item holding a quote or a float renders differently from `str` in the source; see `Json.ToStr`.
- `os.path.abspath` is taken as the identity on the absolute paths the tables hold.
- `sanitize_instance_id` is not part of this model. `_make_instance_id` takes it as a parameter.
- DesktopUI.FindSharing: it receives the already-normalised removal root, as the source computes it before the loop.
- Time is a whole number of seconds. `time.time()` returns a float in the source, so a failure exactly at the TTL boundary is not modelled to sub-second precision.
- `_format_uptime` is given a whole number of seconds. `int()` of a float is not modelled.
- Only four of the Unicode decimal-digit ranges that Python's `\d` matches are listed in `OtherDecimalDigit`. One such digit is enough for the finding below.
- The Discord bot, the Qt widgets outside the helpers above, the database, backups and archives, `_settings_for` and `_list_backup_files` are outside the modelled core.

## Findings

| source | as written | input that shows it | evidently intended | confidence | as-written member | corrected member |
|---|---|---|---|---|---|---|
| src/desktop_ui.py:81 | The stop-time pattern uses `\d`, which in Python 3 also matches non-ASCII decimal digits. | `0٥:30` (Arabic-Indic five) is accepted and saved, but the supervisor compares it with `HH:MM` in ASCII, so the daily stop never fires. | Accept only ASCII `HH:MM` from `00:00` to `23:59`. | not executed | DesktopUI.UnicodeDigitStopTimeNeverFires | DesktopUI.AcceptedStopTimeIsClockText |

=== FILE: ConfigStore.dfy ===
/** The configuration store (src/config_store.py): the fallback
    normalisation, the mtime-guarded cache behind `load_config`,
    `save_config`, and `get_config_value`. The config file is a field of
    the store; its modification time is part of it. */
module ConfigStore {
  import opened Util
  import opened Json

  const DefaultRetentionDays: int := 7

  /** `{"log_retention_days": 7, "server_paths": {}}` */
  const DefaultConfig: map<string, Value> :=
    map["log_retention_days" := Int(DefaultRetentionDays), "server_paths" := Object(map[])]

  /** A config in the shape every caller of `load_config` receives: a
      retention entry and an object of server entries. */
  predicate Normalized(cfg: map<string, Value>) {
    "log_retention_days" in cfg && "server_paths" in cfg && cfg["server_paths"].Object?
  }

  /** The fallback `_validate_and_normalize`: fills in what is missing and
      leaves every other key alone. */
  function Normalize(cfg: map<string, Value>): (r: map<string, Value>)
    ensures Normalized(r)
    ensures r.Keys == cfg.Keys + {"log_retention_days", "server_paths"}
    ensures r["log_retention_days"] ==
              (if "log_retention_days" in cfg then cfg["log_retention_days"] else Int(DefaultRetentionDays))
    ensures r["server_paths"] ==
              (if "server_paths" in cfg && cfg["server_paths"].Object? then cfg["server_paths"] else Object(map[]))
    ensures forall k :: k in cfg && k != "log_retention_days" && k != "server_paths" ==> r[k] == cfg[k]
  {
    var withDays := if "log_retention_days" !in cfg then cfg["log_retention_days" := Int(DefaultRetentionDays)] else cfg;
    if "server_paths" !in withDays || !withDays["server_paths"].Object? then withDays["server_paths" := Object(map[])]
    else withDays
  }

  /** Normalising twice is normalising once. */
  lemma NormalizeIdempotent(cfg: map<string, Value>)
    ensures Normalize(Normalize(cfg)) == Normalize(cfg)
  {
  }

  /** A config that already has both entries in shape is left as it is. */
  lemma NormalizeFixesNormalized(cfg: map<string, Value>)
    requires Normalized(cfg)
    ensures Normalize(cfg) == cfg
  {
  }

  datatype FileContent = Unparsable | Parsed(json: Value)

  /** The config file on disk: absent, or present with its mtime and content. */
  datatype ConfigFile = NoFile | File(mtime: int, content: FileContent)

  /** The result of reading and validating the file: `None` when `json.load`
      or the normalisation raises (anything but a JSON object does). */
  function ReadConfig(c: FileContent): (r: Option<map<string, Value>>)
    ensures r.Some? <==> c.Parsed? && c.json.Object?
    ensures r.Some? ==> r.value == Normalize(c.json.fields)
  {
    match c
    case Parsed(Object(m)) => Some(Normalize(m))
    case _ => None
  }

  /** Does `load_config` read the file, given the cache state? */
  predicate MustRead(cache: Option<map<string, Value>>, lastModified: int, f: ConfigFile)
    requires f.File?
  {
    cache.None? || f.mtime > lastModified
  }

  /** The cache and recorded mtime after `load_config`; its return value is
      the new cache. */
  function LoadEffect(cache: Option<map<string, Value>>, lastModified: int, f: ConfigFile):
    (r: (Option<map<string, Value>>, int))
    ensures r.0.Some?
    ensures f.NoFile? ==> r == (Some(DefaultConfig), lastModified)
    ensures f.File? && !MustRead(cache, lastModified, f) ==> r == (cache, lastModified)
    ensures f.File? && MustRead(cache, lastModified, f) && ReadConfig(f.content).Some? ==>
              r == (ReadConfig(f.content), f.mtime)
    ensures f.File? && MustRead(cache, lastModified, f) && ReadConfig(f.content).None? ==>
              r == (Some(DefaultConfig), lastModified)
  {
    match f
    case NoFile => (Some(DefaultConfig), lastModified)
    case File(mtime, content) =>
      if cache.None? || mtime > lastModified then
        match ReadConfig(content)
        case Some(cfg) => (Some(cfg), mtime)
        case None => (Some(DefaultConfig), lastModified)
      else (cache, lastModified)
  }

  /** Whatever `load_config` returns is normalised, provided the cache only
      ever held normalised configs. */
  lemma LoadResultNormalized(cache: Option<map<string, Value>>, lastModified: int, f: ConfigFile)
    requires cache.Some? ==> Normalized(cache.value)
    ensures Normalized(LoadEffect(cache, lastModified, f).0.value)
  {
  }

  /** The entry of one server, `cfg["server_paths"].get(name, {})`, when it
      is an object. */
  function ServerEntry(cfg: map<string, Value>, server: string): (r: map<string, Value>)
    ensures Normalized(cfg) && server !in cfg["server_paths"].fields ==> r == map[]
    ensures Normalized(cfg) && server in cfg["server_paths"].fields && cfg["server_paths"].fields[server].Object? ==>
              r == cfg["server_paths"].fields[server].fields
  {
    if "server_paths" in cfg && cfg["server_paths"].Object? && server in cfg["server_paths"].fields
       && cfg["server_paths"].fields[server].Object?
    then cfg["server_paths"].fields[server].fields
    else map[]
  }

  /** `get_config_value` on an already loaded config: `None` for an unknown
      server or key; a non-empty string password is decrypted. */
  function LookupValue(cfg: map<string, Value>, server: string, key: string, decrypt: string -> string): (r: Value)
    ensures key !in ServerEntry(cfg, server) ==> r == Null
    ensures key != "password" && key in ServerEntry(cfg, server) ==> r == ServerEntry(cfg, server)[key]
    ensures (key == "password" && key in ServerEntry(cfg, server) && ServerEntry(cfg, server)[key].Str?
             && ServerEntry(cfg, server)[key].s != []) ==> r == Str(decrypt(ServerEntry(cfg, server)[key].s))
  {
    var val := Get(ServerEntry(cfg, server), key);
    if key == "password" && val.Str? && val.s != [] then Str(decrypt(val.s)) else val
  }

  class Store {
    var cache: Option<map<string, Value>>
    var lastModified: int
    var file: ConfigFile

    ghost predicate Valid()
      reads this
    {
      cache.Some? ==> Normalized(cache.value)
    }

    constructor (f: ConfigFile)
      ensures Valid() && cache == None && lastModified == 0 && file == f
    {
      cache, lastModified, file := None, 0, f;
    }

    /** `load_config` */
    method Load() returns (cfg: map<string, Value>)
      requires Valid()
      modifies this
      ensures Valid() && file == old(file)
      ensures (cache, lastModified) == LoadEffect(old(cache), old(lastModified), file)
      ensures cache == Some(cfg) && Normalized(cfg)
    {
      if file.NoFile? {
        cache := Some(DefaultConfig);
        return DefaultConfig;
      }
      var currentMtime := file.mtime;
      if cache.None? || currentMtime > lastModified {
        var raw := ReadConfig(file.content);
        if raw.Some? {
          cache := raw;
          lastModified := currentMtime;
        } else {
          cache := Some(DefaultConfig);
        }
      }
      cfg := cache.value;
    }

    /** `save_config`; `mtime` is the file's modification time after the write. */
    method Save(cfg: map<string, Value>, mtime: int)
      requires Valid()
      modifies this
      ensures Valid()
      ensures file == File(mtime, Parsed(Object(Normalize(cfg))))
      ensures cache == Some(Normalize(cfg)) && lastModified == mtime
    {
      var normalized := Normalize(cfg);
      file := File(mtime, Parsed(Object(normalized)));
      cache := Some(normalized);
      lastModified := mtime;
    }

    /** `get_config_value` */
    method GetValue(server: string, key: string, decrypt: string -> string) returns (v: Value)
      requires Valid()
      modifies this
      ensures Valid() && file == old(file)
      ensures (cache, lastModified) == LoadEffect(old(cache), old(lastModified), file)
      ensures v == LookupValue(cache.value, server, key, decrypt)
    {
      var cfg := Load();
      v := LookupValue(cfg, server, key, decrypt);
    }
  }

  /** After `save_config`, `load_config` serves the saved, normalised config
      from the cache, and that is also what re-reading the file would give. */
  lemma SaveThenLoad(cfg: map<string, Value>, mtime: int)
    ensures var f := File(mtime, Parsed(Object(Normalize(cfg))));
            LoadEffect(Some(Normalize(cfg)), mtime, f) == (Some(Normalize(cfg)), mtime)
            && ReadConfig(f.content) == Some(Normalize(cfg))
  {
    NormalizeIdempotent(cfg);
  }

  /** A file whose mtime has not grown is not re-read: edits that keep the
      mtime are invisible while a config is cached. */
  lemma UnchangedMtimeServesCache(cached: map<string, Value>, lastModified: int, f: ConfigFile)
    requires f.File? && f.mtime <= lastModified
    ensures LoadEffect(Some(cached), lastModified, f) == (Some(cached), lastModified)
  {
  }

  /** A failed read leaves the recorded mtime alone, so the next call reads
      again (the file is still newer than the recorded mtime) and picks up
      the repaired file even with the same mtime. */
  lemma FailedReadIsRetried(cache: Option<map<string, Value>>, lastModified: int, mtime: int, bad: FileContent, good: map<string, Value>)
    requires mtime > lastModified && ReadConfig(bad).None?
    ensures var (c1, lm1) := LoadEffect(cache, lastModified, File(mtime, bad));
            c1 == Some(DefaultConfig) && lm1 == lastModified
            && LoadEffect(c1, lm1, File(mtime, Parsed(Object(good)))) == (Some(Normalize(good)), mtime)
  {
  }
}

=== FILE: DesktopUI.dfy ===
/** The pure helpers and the two small loops of the desktop panel
    (src/desktop_ui.py): message cleaning, uptime text, the status row of a
    server, the stop-time check, instance ids, the folder a delete or
    restore works on and the shared-folder guard, and which buttons are
    enabled. */
module DesktopUI {
  import opened Util
  import opened Json
  import Paths
  import ExeSearch
  import RuntimeStatus

  // ---------------------------------------------------------------------
  // `_clean`
  // ---------------------------------------------------------------------

  /** A collapsed text that does not end in whitespace stays collapsed
      with `"..."` appended. */
  lemma CollapsedWithDots(p: string)
    requires Collapsed(p) && (p == [] || !IsSpace(p[|p| - 1]))
    ensures Collapsed(p + "...")
  {
    var t := p + "...";
    forall i | 0 <= i < |t| && IsSpace(t[i])
      ensures t[i] == ' ' && 0 < i < |t| - 1 && !IsSpace(t[i + 1])
    {
      assert i < |p| && t[i] == p[i];
      assert i < |p| - 1;
      assert t[i + 1] == p[i + 1];
    }
  }

  /** `_clean(msg, limit)`: whitespace runs collapsed and the ends trimmed;
      a text longer than `limit` is cut, right-trimmed and marked with
      `"..."`. */
  function Clean(msg: string, limit: nat): (r: string)
    ensures Collapsed(r)
    ensures |r| <= limit + 3
    ensures |Collapse(msg)| <= limit ==> r == Collapse(msg)
    ensures |Collapse(msg)| > limit ==>
              EndsWith(r, "...") && StartsWith(Collapse(msg), r[..|r| - 3]) && |r| - 3 <= limit
    ensures |Collapse(msg)| > limit ==> r == RStrip(Collapse(msg)[..limit]) + "..."
  {
    var text := Collapse(msg);
    if |text| <= limit then text
    else
      CollapsedPrefixRStrip(text, limit);
      RStripSpec(text[..limit]);
      var p := RStrip(text[..limit]);
      CollapsedWithDots(p);
      assert (p + "...")[..|p|] == p;
      p + "..."
  }

  /** Collapsing twice is collapsing once. */
  lemma CollapseIdempotent(s: string)
    ensures Collapse(Collapse(s)) == Collapse(s)
  {
    SplitJoinSpace(Split(s));
  }

  /** A text that fits is cleaned once and for all. */
  lemma CleanShortIsStable(msg: string, limit: nat)
    requires |Collapse(msg)| <= limit
    ensures Clean(Clean(msg, limit), limit) == Clean(msg, limit)
  {
    CollapseIdempotent(msg);
  }

  // ---------------------------------------------------------------------
  // `_format_uptime`
  // ---------------------------------------------------------------------

  /** `int(max(0, seconds))`, for a whole number of seconds. */
  function Clamp(seconds: int): nat {
    if seconds < 0 then 0 else seconds
  }

  /** Days, hours and minutes as the two `divmod` calls give them. */
  function UptimeParts(seconds: int): (p: (nat, nat, nat))
    ensures p.1 < 24 && p.2 < 60
    ensures 86400 * p.0 + 3600 * p.1 + 60 * p.2 <= Clamp(seconds) < 86400 * p.0 + 3600 * p.1 + 60 * p.2 + 60
  {
    var total := Clamp(seconds);
    var days, rem := total / 86400, total % 86400;
    var hours, rem2 := rem / 3600, rem % 3600;
    (days, hours, rem2 / 60)
  }

  /** The split is the only one with hours below 24 and minutes below 60. */
  lemma UptimePartsUnique(seconds: int, d: nat, h: nat, m: nat)
    requires h < 24 && m < 60
    requires 86400 * d + 3600 * h + 60 * m <= Clamp(seconds) < 86400 * d + 3600 * h + 60 * m + 60
    ensures UptimeParts(seconds) == (d, h, m)
  {
    var t := Clamp(seconds);
    assert t / 86400 == d && t % 86400 == t - 86400 * d;
    var rem := t - 86400 * d;
    assert rem / 3600 == h && rem % 3600 == rem - 3600 * h;
    assert (rem - 3600 * h) / 60 == m;
  }

  /** `_format_uptime(seconds)`: the two largest units, the second one
      zero-padded; under an hour only the minutes. */
  function FormatUptime(seconds: int): (r: string)
    ensures var p := UptimeParts(seconds);
            (Clamp(seconds) >= 86400 ==> r == NatToStr(p.0) + "d " + Pad2(p.1) + "h")
            && (3600 <= Clamp(seconds) < 86400 ==> r == NatToStr(p.1) + "h " + Pad2(p.2) + "m")
            && (Clamp(seconds) < 3600 ==> r == NatToStr(p.2) + "m")
  {
    var (days, hours, minutes) := UptimeParts(seconds);
    if days > 0 then NatToStr(days) + "d " + Pad2(hours) + "h"
    else if hours > 0 then NatToStr(hours) + "h " + Pad2(minutes) + "m"
    else NatToStr(minutes) + "m"
  }

  /** `f"{n:02d}"` for a number below 100: exactly two ASCII digits. */
  lemma Pad2Digits(n: nat)
    requires n < 100
    ensures Pad2(n) == [DigitChar(n / 10), DigitChar(n % 10)]
  {
    if n >= 10 {
      assert NatToStr(n) == NatToStr(n / 10) + [DigitChar(n % 10)];
    }
  }

  // ---------------------------------------------------------------------
  // `_status_for`
  // ---------------------------------------------------------------------

  /** The three texts of a status row: label, state key, detail. */
  datatype StatusRow = StatusRow(badge: string, state: string, detail: string)

  /** The label for a busy server, from its normalised operation label. */
  function BusyRow(op: string): (s: StatusRow)
    ensures s.state == "updating"
  {
    if op == "start" then StatusRow("STARTING", "updating", "Start in progress")
    else if op == "stop" then StatusRow("STOPPING", "updating", "Stop in progress")
    else if op == "update" then StatusRow("UPDATING", "updating", "Update in progress")
    else if op == "backup" then StatusRow("BACKUP", "updating", "Backup in progress")
    else if op == "restore" then StatusRow("RESTORE", "updating", "Restore in progress")
    else StatusRow("WORKING", "updating", "Operation in progress")
  }

  function OrEmpty(s: Option<string>): string {
    if s.Some? then s.value else ""
  }

  /** `_status_for(name)`, given what `get_operation_status` reported and
      whether the tracked process runs. */
  function StatusFor(rep: RuntimeStatus.Report, running: bool): (s: StatusRow)
    ensures s.state == "updating" <==> rep.state == Some(RuntimeStatus.Busy)
    ensures s.state == "failed" <==> rep.state == Some(RuntimeStatus.Failed)
    ensures s.state == "running" <==> rep.state.None? && running
    ensures s.state == "stopped" <==> rep.state.None? && !running
    ensures rep.state == Some(RuntimeStatus.Busy) ==> s == BusyRow(Lower(Strip(OrEmpty(rep.detail))))
    ensures rep.state == Some(RuntimeStatus.Failed) ==>
              s.badge == "FAILED" && s.detail == Clean(if rep.detail.Some? && rep.detail.value != [] then rep.detail.value else "Last operation failed", 140)
  {
    match rep.state
    case Some(op) =>
      if op.Busy? then BusyRow(Lower(Strip(OrEmpty(rep.detail))))
      else StatusRow("FAILED", "failed", Clean(if rep.detail.Some? && rep.detail.value != [] then rep.detail.value else "Last operation failed", 140))
    case None =>
      if running then StatusRow("RUNNING", "running", "Server process is active")
      else StatusRow("STOPPED", "stopped", "Server process is not active")
  }

  /** While an operation started with `begin_operation(name, "start")`
      runs, the row says STARTING whatever else the record holds. */
  lemma StartingWhileStartRuns(m: map<string, RuntimeStatus.OpRecord>, name: string, now: int, running: bool)
    requires RuntimeStatus.NonNegative(m)
    ensures StatusFor(RuntimeStatus.QuerySpec(RuntimeStatus.BeginSpec(m, name, "start"), name, now), running).badge == "STARTING"
  {
    RuntimeStatus.BeginReportsBusy(m, name, "start", now);
    assert Strip("start") == "start";
    assert Lower("start") == "start";
  }

  // ---------------------------------------------------------------------
  // The stop-time check (`_STOP_TIME_RE`)
  // ---------------------------------------------------------------------

  /** Some of the non-ASCII decimal digits that `\d` also matches in a
      `str` pattern: Arabic-Indic, extended Arabic-Indic, Devanagari and
      full-width digits (the whole class is Unicode category Nd). */
  predicate OtherDecimalDigit(c: char) {
    var k := c as int;
    (0x660 <= k <= 0x669) || (0x6F0 <= k <= 0x6F9) || (0x966 <= k <= 0x96F) || (0xFF10 <= k <= 0xFF19)
  }

  predicate AsciiDigit(c: char) {
    '0' <= c <= '9'
  }

  /** `^([01]\d|2[0-3]):([0-5]\d)$` on a stripped text; `unicode` says
      whether `\d` admits other decimal digits, as it does in the code. */
  predicate MatchesStopTime(t: string, unicode: bool): (m: bool)
    ensures m ==> |t| == 5 && t[2] == ':' && AsciiDigit(t[0]) && AsciiDigit(t[3])
    ensures m && !unicode ==> AsciiDigit(t[1]) && AsciiDigit(t[4])
  {
    |t| == 5
    && (((t[0] == '0' || t[0] == '1') && (AsciiDigit(t[1]) || (unicode && OtherDecimalDigit(t[1]))))
        || (t[0] == '2' && '0' <= t[1] <= '3'))
    && t[2] == ':'
    && '0' <= t[3] <= '5' && (AsciiDigit(t[4]) || (unicode && OtherDecimalDigit(t[4])))
  }

  /** The check as the code performs it: the stripped text is empty or
      matches the pattern with Unicode `\d`. */
  predicate StopTimeAcceptedAsWritten(raw: string) {
    var t := Strip(raw);
    t == [] || MatchesStopTime(t, true)
  }

  /** The check as intended: empty, or an `HH:MM` time of day in ASCII. */
  predicate StopTimeAccepted(raw: string): (ok: bool)
    ensures ok ==> StopTimeAcceptedAsWritten(raw)
    ensures Strip(raw) == [] ==> ok
  {
    var t := Strip(raw);
    t == [] || MatchesStopTime(t, false)
  }

  /** The clock reading the daily stop compares with,
      `now.strftime("%H:%M")`. */
  function ClockText(h: nat, m: nat): string {
    Pad2(h) + ":" + Pad2(m)
  }

  function DigitValue(c: char): int {
    c as int - '0' as int
  }

  /** Every clock reading is an accepted stop time. */
  lemma ClockTextAccepted(h: nat, m: nat)
    requires h < 24 && m < 60
    ensures Strip(ClockText(h, m)) == ClockText(h, m)
    ensures StopTimeAccepted(ClockText(h, m))
  {
    Pad2Digits(h);
    Pad2Digits(m);
    var t := ClockText(h, m);
    assert t == [DigitChar(h / 10), DigitChar(h % 10), ':', DigitChar(m / 10), DigitChar(m % 10)];
    assert NoSpace(t);
    StripNoSpace(t);
  }

  /** Two ASCII digits are the padded text of the number they spell. */
  lemma Pad2OfDigits(a: char, b: char)
    requires AsciiDigit(a) && AsciiDigit(b)
    ensures Pad2(10 * DigitValue(a) + DigitValue(b)) == [a, b]
  {
    var x, y := DigitValue(a), DigitValue(b);
    var n := 10 * x + y;
    assert n / 10 == x && n % 10 == y;
    Pad2Digits(n);
    assert DigitChar(x) == a && DigitChar(y) == b;
  }

  /** Four ASCII digits spell the clock reading of the hour and minute
      they stand for. */
  lemma ClockTextOfDigits(a: char, b: char, c: char, d: char)
    requires AsciiDigit(a) && AsciiDigit(b) && AsciiDigit(c) && AsciiDigit(d)
    ensures ClockText(10 * DigitValue(a) + DigitValue(b), 10 * DigitValue(c) + DigitValue(d)) == [a, b, ':', c, d]
  {
    Pad2OfDigits(a, b);
    Pad2OfDigits(c, d);
  }

  /** A text the ASCII pattern matches is the clock reading of the hour
      and minute it spells. */
  lemma MatchedStopTimeIsClockText(t: string)
    requires MatchesStopTime(t, false)
    ensures var h, m := 10 * DigitValue(t[0]) + DigitValue(t[1]), 10 * DigitValue(t[3]) + DigitValue(t[4]);
            0 <= h < 24 && 0 <= m < 60 && t == ClockText(h, m)
  {
    ClockTextOfDigits(t[0], t[1], t[3], t[4]);
    assert t == [t[0], t[1], ':', t[3], t[4]];
  }

  /** Every accepted, non-empty stop time is the clock reading of one
      minute of the day, so the daily stop fires on it once a day. */
  lemma AcceptedStopTimeIsClockText(raw: string)
    requires StopTimeAccepted(raw) && Strip(raw) != []
    ensures var t := Strip(raw);
            var h, m := 10 * DigitValue(t[0]) + DigitValue(t[1]), 10 * DigitValue(t[3]) + DigitValue(t[4]);
            0 <= h < 24 && 0 <= m < 60 && t == ClockText(h, m)
  {
    MatchedStopTimeIsClockText(Strip(raw));
  }

  /** The code accepts a stop time with a non-ASCII digit that no clock
      reading equals, so that server is never stopped. */
  lemma UnicodeDigitStopTimeNeverFires()
    ensures var t := ['0', 0x665 as char, ':', '3', '0'];
            StopTimeAcceptedAsWritten(t) && !StopTimeAccepted(t)
            && forall h: nat, m: nat :: h < 24 && m < 60 ==> ClockText(h, m) != t
  {
    var t := ['0', 0x665 as char, ':', '3', '0'];
    assert NoSpace(t);
    StripNoSpace(t);
    forall h: nat, m: nat | h < 24 && m < 60
      ensures ClockText(h, m) != t
    {
      Pad2Digits(h);
      assert ClockText(h, m)[1] == DigitChar(h % 10);
    }
  }

  // ---------------------------------------------------------------------
  // Instance ids
  // ---------------------------------------------------------------------

  /** An entry of `server_paths` for the same app: an object whose
      `str(entry.get("app_id"))` is the app id. */
  predicate SameApp(entry: Value, appId: string) {
    entry.Object? && ToStr(Get(entry.fields, "app_id")) == appId
  }

  /** An entry whose `instance_id` is a string. */
  predicate HasId(entry: Value) {
    entry.Object? && "instance_id" in entry.fields && entry.fields["instance_id"].Str?
  }

  function IdOf(entry: Value): string
    requires HasId(entry)
  {
    entry.fields["instance_id"].s
  }

  /** The ids `_make_instance_id` treats as taken; `sanitize` is
      `sanitize_instance_id`. */
  function UsedIds(entries: map<string, Value>, appId: string, sanitize: string -> string): set<string> {
    set n | n in entries && SameApp(entries[n], appId) && HasId(entries[n]) && Strip(IdOf(entries[n])) != []
          :: sanitize(IdOf(entries[n]))
  }

  /** The `n`-th candidate, `f"{base}-{n}"`. */
  function Candidate(base: string, n: nat): string {
    base + "-" + NatToStr(n)
  }

  lemma CandidateInjective(base: string, a: nat, b: nat)
    requires Candidate(base, a) == Candidate(base, b)
    ensures a == b
  {
    var k := |base| + 1;
    assert NatToStr(a) == Candidate(base, a)[k..];
    assert NatToStr(b) == Candidate(base, b)[k..];
    NatToStrInjective(a, b);
  }

  /** The first loop of `_make_instance_id`: the taken ids. */
  method CollectUsedIds(entries: map<string, Value>, appId: string, sanitize: string -> string)
    returns (used: set<string>)
    ensures used == UsedIds(entries, appId, sanitize)
  {
    used := {};
    var todo := entries.Keys;
    while todo != {}
      invariant todo <= entries.Keys
      invariant used == set n | n in entries.Keys - todo && SameApp(entries[n], appId) && HasId(entries[n]) && Strip(IdOf(entries[n])) != []
                              :: sanitize(IdOf(entries[n]))
      decreases todo
    {
      var name :| name in todo;
      var entry := entries[name];
      todo := todo - {name};
      if !entry.Object? {
        continue;
      }
      if ToStr(Get(entry.fields, "app_id")) != appId {
        continue;
      }
      var iid := Get(entry.fields, "instance_id");
      if iid.Str? && Strip(iid.s) != [] {
        used := used + {sanitize(iid.s)};
      }
    }
  }

  /** The second loop of `_make_instance_id`: the first free `base-n`,
      counting from 2. It ends because every candidate it skips is a
      different member of the finite set `used`. */
  method FirstFreeCandidate(base: string, used: set<string>) returns (n: nat)
    ensures n >= 2 && Candidate(base, n) !in used
    ensures forall k: nat :: 2 <= k < n ==> Candidate(base, k) in used
  {
    n := 2;
    ghost var seen: set<string> := {};
    while Candidate(base, n) in used
      invariant n >= 2
      invariant forall k: nat :: 2 <= k < n ==> Candidate(base, k) in used
      invariant seen == set k: nat | 2 <= k < n :: Candidate(base, k)
      invariant seen <= used
      decreases |used - seen|
    {
      assert Candidate(base, n) !in seen by {
        forall k: nat | 2 <= k < n
          ensures Candidate(base, k) != Candidate(base, n)
        {
          if Candidate(base, k) == Candidate(base, n) {
            CandidateInjective(base, k, n);
          }
        }
      }
      assert used - (seen + {Candidate(base, n)}) == (used - seen) - {Candidate(base, n)};
      seen := seen + {Candidate(base, n)};
      n := n + 1;
    }
  }

  /** `_make_instance_id(cfg, app_id, preferred)` over the entries of
      `server_paths`: the preferred id if it is free, otherwise the first
      free numbered variant. */
  method MakeInstanceId(entries: map<string, Value>, appId: string, preferred: string, sanitize: string -> string)
    returns (id: string)
    ensures id !in UsedIds(entries, appId, sanitize)
    ensures sanitize(preferred) !in UsedIds(entries, appId, sanitize) ==> id == sanitize(preferred)
    ensures sanitize(preferred) in UsedIds(entries, appId, sanitize) ==>
              exists n: nat :: n >= 2 && id == Candidate(sanitize(preferred), n)
                               && forall k: nat :: 2 <= k < n ==> Candidate(sanitize(preferred), k) in UsedIds(entries, appId, sanitize)
  {
    var base := sanitize(preferred);
    var used := CollectUsedIds(entries, appId, sanitize);
    if base !in used {
      return base;
    }
    var n := FirstFreeCandidate(base, used);
    return Candidate(base, n);
  }

  /** What `_instance_id_exists` answers: some entry of the same app has a
      string id that sanitises to the same id (blank ids included). */
  predicate IdTaken(entries: map<string, Value>, appId: string, instanceId: string, sanitize: string -> string) {
    exists n :: n in entries && SameApp(entries[n], appId) && HasId(entries[n])
                && sanitize(IdOf(entries[n])) == sanitize(instanceId)
  }

  /** `_instance_id_exists(cfg, app_id, instance_id)` */
  method InstanceIdExists(entries: map<string, Value>, appId: string, instanceId: string, sanitize: string -> string)
    returns (found: bool)
    ensures found == IdTaken(entries, appId, instanceId, sanitize)
  {
    var wanted := sanitize(instanceId);
    var todo := entries.Keys;
    while todo != {}
      invariant todo <= entries.Keys
      invariant forall n :: n in entries.Keys - todo ==>
                  !(SameApp(entries[n], appId) && HasId(entries[n]) && sanitize(IdOf(entries[n])) == wanted)
      decreases todo
    {
      var name :| name in todo;
      var entry := entries[name];
      todo := todo - {name};
      if !entry.Object? {
        continue;
      }
      if ToStr(Get(entry.fields, "app_id")) != appId {
        continue;
      }
      var existing := Get(entry.fields, "instance_id");
      if existing.Str? && sanitize(existing.s) == wanted {
        return true;
      }
    }
    return false;
  }

  /** An id `_make_instance_id` avoids is one `_instance_id_exists`
      reports. */
  lemma UsedIdIsTaken(entries: map<string, Value>, appId: string, instanceId: string, sanitize: string -> string)
    requires sanitize(instanceId) in UsedIds(entries, appId, sanitize)
    ensures IdTaken(entries, appId, instanceId, sanitize)
  {
    var n :| n in entries && SameApp(entries[n], appId) && HasId(entries[n]) && Strip(IdOf(entries[n])) != []
             && sanitize(IdOf(entries[n])) == sanitize(instanceId);
  }

  // ---------------------------------------------------------------------
  // The folder a delete or a restore works on
  // ---------------------------------------------------------------------

  /** `os.path.dirname` of a normalised absolute path: everything before
      the last separator, the root itself for a top-level entry. */
  function DirName(p: string): (d: string)
    ensures |d| <= |p|
    ensures |p| > |ExeSearch.BaseName(p)| + 1 ==>
              d == p[..|p| - |ExeSearch.BaseName(p)| - 1] && d + [Paths.Sep] + ExeSearch.BaseName(p) == p
    ensures |p| <= |ExeSearch.BaseName(p)| + 1 ==> d + ExeSearch.BaseName(p) == p
  {
    var head := p[..|p| - |ExeSearch.BaseName(p)|];
    if |head| <= 1 then head else head[..|head| - 1]
  }

  /** `_delete_root_from_server_path(path)`: the parent of a `serverfiles`
      folder (any case), otherwise the path itself. */
  function DeleteRoot(p: string): (r: string)
    ensures Lower(ExeSearch.BaseName(p)) == "serverfiles" ==> r == DirName(p)
    ensures Lower(ExeSearch.BaseName(p)) != "serverfiles" ==> r == p
  {
    if Lower(ExeSearch.BaseName(p)) == "serverfiles" then DirName(p) else p
  }

  lemma BaseNameOfFolder(root: string, folder: string)
    requires root != [] && folder != []
    requires forall i :: 0 <= i < |folder| ==> folder[i] != Paths.Sep
    ensures ExeSearch.BaseName(root + [Paths.Sep] + folder) == folder
  {
    var p := root + [Paths.Sep] + folder;
    assert p[|p| - |folder|..] == folder;
    ExeSearch.BaseNameOfSuffix(p, |folder|);
  }

  /** Lower-casing leaves a text without capitals alone. */
  lemma LowerOfLowercase(s: string)
    requires forall i :: 0 <= i < |s| ==> !('A' <= s[i] <= 'Z')
    ensures Lower(s) == s
  {
  }

  lemma LowerServerfiles()
    ensures Lower("serverfiles") == "serverfiles"
  {
    LowerOfLowercase("serverfiles");
  }

  /** A `serverfiles` folder, in any case, is removed together with its
      parent. */
  lemma DeleteRootOfServerFilesFolder(root: string, folder: string)
    requires root != [] && Lower(folder) == "serverfiles"
    ensures DeleteRoot(root + [Paths.Sep] + folder) == root
  {
    var p := root + [Paths.Sep] + folder;
    forall i | 0 <= i < |folder| ensures folder[i] != Paths.Sep {
      assert Lower(folder)[i] == LowerChar(folder[i]);
    }
    BaseNameOfFolder(root, folder);
    assert p[..|p| - |folder|] == root + [Paths.Sep];
  }

  /** For the standard layout the removed folder is the server root. */
  lemma DeleteRootOfServerFiles(baseDir: string, appId: string)
    requires Paths.PlainId(appId)
    ensures DeleteRoot(Paths.ServerFiles(baseDir, appId)) == Paths.ServerRoot(baseDir, appId)
  {
    Paths.ServerFilesShape(baseDir, appId);
    LowerServerfiles();
    DeleteRootOfServerFilesFolder(Paths.ServerRoot(baseDir, appId), "serverfiles");
  }

  /** `os.path.normcase(os.path.abspath(...))` of a removal root: letters
      folded to lower case. */
  function NormRoot(p: string): string {
    Lower(DeleteRoot(p))
  }

  /** Does the root of another server lie in `root` (or is it `root`)? */
  predicate Shares(root: string, other: string) {
    other == root || StartsWith(other, root + [Paths.Sep])
  }

  /** A sibling whose name only begins like the root is not inside it. */
  lemma SiblingNotShared(root: string, rest: string)
    requires rest != [] && rest[0] != Paths.Sep
    ensures !Shares(root, root + rest)
  {
    assert (root + rest)[|root|] == rest[0];
  }

  /** The root itself and everything below it is shared. */
  lemma NestedIsShared(root: string, rest: string)
    ensures Shares(root, root + [Paths.Sep] + rest)
  {
    assert (root + [Paths.Sep] + rest)[..|root| + 1] == root + [Paths.Sep];
  }

  /** Does the removal root of the server at `other` lie in `rootNorm`? */
  predicate SharesRoot(rootNorm: string, other: string) {
    Shares(rootNorm, NormRoot(other))
  }

  /** Two different single components below the same folder are
      separate. */
  lemma SeparateComponents(pre: string, x: string, y: string)
    requires forall i :: 0 <= i < |y| ==> y[i] != Paths.Sep
    requires x != y
    ensures !Shares(pre + x, pre + y)
  {
    var k := |pre|;
    assert (pre + x)[k..] == x && (pre + y)[k..] == y;
    if |pre + x| + 1 <= |pre + y| {
      assert (pre + y)[|pre + x|] == y[|x|];
    }
  }

  /** Case folding keeps a component free of separators. */
  lemma LowerKeepsPlainId(s: string)
    requires Paths.PlainId(s)
    ensures forall i :: 0 <= i < |Lower(s)| ==> Lower(s)[i] != Paths.Sep
  {
  }

  /** The folded removal root of a standard server. */
  lemma NormRootOfServerFiles(baseDir: string, a: string)
    requires Paths.PlainId(a)
    ensures NormRoot(Paths.ServerFiles(baseDir, a)) == Lower(Paths.ServersDir(baseDir) + [Paths.Sep]) + Lower(a)
  {
    DeleteRootOfServerFiles(baseDir, a);
    Paths.ServerFilesShape(baseDir, a);
    LowerAppend(Paths.ServersDir(baseDir) + [Paths.Sep], a);
  }

  /** Two servers of the standard layout whose ids differ even after
      case folding never block each other's delete or restore. */
  lemma StandardRootsAreSeparate(baseDir: string, a: string, b: string)
    requires Paths.PlainId(a) && Paths.PlainId(b) && Lower(a) != Lower(b)
    ensures !SharesRoot(NormRoot(Paths.ServerFiles(baseDir, a)), Paths.ServerFiles(baseDir, b))
  {
    NormRootOfServerFiles(baseDir, a);
    NormRootOfServerFiles(baseDir, b);
    LowerKeepsPlainId(b);
    SeparateComponents(Lower(Paths.ServersDir(baseDir) + [Paths.Sep]), Lower(a), Lower(b));
  }

  /** The loop of the shared-folder scan: the first server other than
      `serverName` whose path `hit` accepts. */
  method FindOther(serverName: string, serverPaths: map<string, string>, hit: string -> bool)
    returns (found: Option<string>)
    ensures found.Some? ==>
              found.value in serverPaths && found.value != serverName && hit(serverPaths[found.value])
    ensures found.None? ==>
              forall n :: n in serverPaths && n != serverName ==> !hit(serverPaths[n])
  {
    var todo := serverPaths.Keys;
    while todo != {}
      invariant todo <= serverPaths.Keys
      invariant forall n :: n in serverPaths.Keys - todo && n != serverName ==> !hit(serverPaths[n])
      decreases todo
    {
      var other :| other in todo;
      todo := todo - {other};
      if other == serverName {
        continue;
      }
      if hit(serverPaths[other]) {
        return Some(other);
      }
    }
    return None;
  }

  /** The shared-folder scan before a delete or an overwriting restore: the
      name of another server whose root lies in this server's root. */
  method FindSharing(serverName: string, rootNorm: string, serverPaths: map<string, string>)
    returns (sharedWith: Option<string>)
    ensures sharedWith.Some? ==>
              sharedWith.value in serverPaths && sharedWith.value != serverName
              && SharesRoot(rootNorm, serverPaths[sharedWith.value])
    ensures sharedWith.None? ==>
              forall n :: n in serverPaths && n != serverName ==> !SharesRoot(rootNorm, serverPaths[n])
  {
    sharedWith := FindOther(serverName, serverPaths, p => SharesRoot(rootNorm, p));
  }

  // ---------------------------------------------------------------------
  // Buttons
  // ---------------------------------------------------------------------

  datatype RowButtons = RowButtons(start: bool, stop: bool, restart: bool, update: bool,
                                   backup: bool, restore: bool, remove: bool)

  /** The buttons of a server card, from the row's state key and whether
      the process runs. */
  function RowButtonsFor(state: string, running: bool): (b: RowButtons)
    ensures state == "updating" ==> b == RowButtons(false, false, false, false, false, false, false)
    ensures state != "updating" ==> (b.start <==> !b.stop) && b.restart && b.backup && b.remove
    ensures b.stop ==> running
    ensures b.start || b.update || b.restore ==> !running
  {
    var busy := state == "updating";
    RowButtons(!busy && !running, !busy && running, !busy, !busy && !running, !busy, !busy && !running, !busy)
  }

  datatype TopBar = TopBar(start: bool, stop: bool, restart: bool, update: bool,
                           tools: bool, save: bool, refresh: bool)

  /** The top bar: `selected` is the selected row's state key and running
      flag, if a row is selected. */
  function TopBarFor(inFlight: bool, selected: Option<(string, bool)>, settingsDirty: bool): (t: TopBar)
    ensures inFlight ==> t == TopBar(false, false, false, false, false, false, false)
    ensures !inFlight ==> t.tools && t.refresh
    ensures t.start || t.stop || t.restart || t.update || t.save ==> !inFlight && selected.Some? && selected.value.0 != "updating"
    ensures t.save ==> settingsDirty
  {
    if inFlight then TopBar(false, false, false, false, false, false, false)
    else match selected
      case None => TopBar(false, false, false, false, true, false, true)
      case Some((state, running)) =>
        var busy := state == "updating";
        TopBar(!busy && !running, !busy && running, !busy, !busy && !running, true, !busy && settingsDirty, true)
  }

  /** On a card built from `_status_for`: a busy server offers nothing;
      otherwise exactly one of start and stop is offered, and update and
      restore only when the server is stopped. */
  lemma CardButtonsFollowStatus(rep: RuntimeStatus.Report, running: bool)
    ensures var b := RowButtonsFor(StatusFor(rep, running).state, running);
            (rep.state == Some(RuntimeStatus.Busy) ==> b == RowButtons(false, false, false, false, false, false, false))
            && (rep.state != Some(RuntimeStatus.Busy) ==>
                  b.restart && b.backup && b.remove && (b.start != b.stop)
                  && b.start == !running && b.update == b.start && b.restore == b.start)
  {
  }

  /** While an action is in flight every top-bar button is off; otherwise
      the top bar offers for the selected server what its card offers. */
  lemma TopBarMatchesCard(inFlight: bool, state: string, running: bool, settingsDirty: bool)
    ensures TopBarFor(true, Some((state, running)), settingsDirty) == TopBar(false, false, false, false, false, false, false)
    ensures TopBarFor(true, None, settingsDirty) == TopBar(false, false, false, false, false, false, false)
    ensures var t := TopBarFor(false, Some((state, running)), settingsDirty);
            var b := RowButtonsFor(state, running);
            t.start == b.start && t.stop == b.stop && t.restart == b.restart && t.update == b.update
            && (t.save ==> settingsDirty && b.restart)
  {
  }
}

=== FILE: ExeSearch.dfy ===
/** The heuristic executable search used by the supervisor
    (`_resolve_executable`, src/server_manager.py) and by the post-install
    check (`_find_executable_in_dir`, src/steam_integration.py): the
    patterns `*Server*.exe`, `*Dedicated*.exe`, `*.exe` are tried in that
    order; the hits of one pattern are sorted so that paths mentioning
    "server" come first and shorter paths before longer ones, and the first
    hit that is a regular file wins.

    A directory is its listing (entry names, in the order the OS returns
    them) plus the set of paths that are regular files. Globbing follows
    Windows: matching ignores ASCII case, and `*` never matches an entry
    whose name starts with a dot. */
module ExeSearch {
  import opened Util
  import Paths

  /** The files and directory listings the search looks at. */
  datatype Disk = Disk(files: set<string>, listings: map<string, seq<string>>)

  function Listing(disk: Disk, dir: string): seq<string> {
    if dir in disk.listings then disk.listings[dir] else []
  }

  /** The outcome of an executable lookup. `Raised` stands for the
      exception Python raises when a configured executable entry is not a
      string (or the settings holding it are not an object). */
  datatype Resolved = Exe(path: string) | NoExe | Raised

  datatype Pattern = ServerExe | DedicatedExe | AnyExe

  /** Does the directory entry `name` match the pattern? */
  predicate Matches(pat: Pattern, name: string) {
    var ln := Lower(name);
    name != [] && name[0] != '.' && EndsWith(ln, ".exe") &&
    match pat
    case ServerExe => Contains(ln[..|ln| - 4], "server")
    case DedicatedExe => Contains(ln[..|ln| - 4], "dedicated")
    case AnyExe => true
  }

  /** Every name the two narrower patterns match, `*.exe` matches too. */
  lemma NarrowPatternsMatchAnyExe(pat: Pattern, name: string)
    requires Matches(pat, name)
    ensures Matches(AnyExe, name)
  {
  }

  /** `glob.glob(os.path.join(base, pat))`: the matching entries, in listing
      order, each joined to `base`. */
  function Glob(base: string, listing: seq<string>, pat: Pattern): (hits: seq<string>)
    ensures |hits| <= |listing|
    ensures forall n :: n in listing && Matches(pat, n) ==> Paths.PathJoin(base, n) in hits
    ensures forall h :: h in hits ==> exists n :: n in listing && Matches(pat, n) && h == Paths.PathJoin(base, n)
  {
    if listing == [] then []
    else
      var rest := Glob(base, listing[1..], pat);
      assert forall n :: n in listing[1..] ==> n in listing;
      if Matches(pat, listing[0]) then [Paths.PathJoin(base, listing[0])] + rest else rest
  }

  /** `os.path.basename(p)`: what follows the last separator. */
  function BaseName(p: string): (b: string)
    ensures |b| <= |p| && b == p[|p| - |b|..]
    ensures forall i :: 0 <= i < |b| ==> b[i] != Paths.Sep
    ensures |b| == |p| || p[|p| - |b| - 1] == Paths.Sep
  {
    if p == [] || p[|p| - 1] == Paths.Sep then []
    else BaseName(p[..|p| - 1]) + [p[|p| - 1]]
  }

  /** A directory entry is the last component of its glob hit. */
  lemma {:induction false} BaseNameOfJoin(base: string, name: string)
    requires name != [] && forall i :: 0 <= i < |name| ==> name[i] != Paths.Sep
    ensures base != [] ==> BaseName(Paths.PathJoin(base, name)) == name
  {
    if base != [] {
      var p := Paths.PathJoin(base, name);
      assert p[|p| - |name|..] == name;
      BaseNameOfSuffix(p, |name|);
    }
  }

  lemma {:induction false} BaseNameOfSuffix(p: string, k: nat)
    requires 0 < k < |p| && p[|p| - k - 1] == Paths.Sep
    requires forall i :: |p| - k <= i < |p| ==> p[i] != Paths.Sep
    ensures BaseName(p) == p[|p| - k..]
    decreases k
  {
    var q := p[..|p| - 1];
    if k == 1 {
      assert q[|q| - 1] == Paths.Sep;
    } else {
      assert forall i :: |q| - (k - 1) <= i < |q| ==> q[i] == p[i];
      BaseNameOfSuffix(q, k - 1);
      assert q[|q| - (k - 1)..] + [p[|p| - 1]] == p[|p| - k..];
    }
  }

  /** The sort key `("server" not in s.lower(), len(p))`; `False` sorts
      first. The supervisor looks at the whole path, the post-install check
      at the last component only. */
  datatype Key = Key(noServer: bool, len: nat)

  /** Tuple order on keys: `a < b`. */
  predicate Before(a: Key, b: Key) {
    (!a.noServer && b.noServer) || (a.noServer == b.noServer && a.len < b.len)
  }

  function KeyOf(byBaseName: bool, p: string): Key {
    var s := if byBaseName then BaseName(p) else p;
    Key(!Contains(Lower(s), "server"), |p|)
  }

  /** A hit decorated with its key, as `list.sort(key=...)` does internally. */
  datatype Keyed = Keyed(key: Key, path: string)

  function Decorate(byBaseName: bool, s: seq<string>): (d: seq<Keyed>)
    ensures |d| == |s|
    ensures forall i :: 0 <= i < |s| ==> d[i] == Keyed(KeyOf(byBaseName, s[i]), s[i])
  {
    if s == [] then [] else [Keyed(KeyOf(byBaseName, s[0]), s[0])] + Decorate(byBaseName, s[1..])
  }

  function Unkey(d: seq<Keyed>): (s: seq<string>)
    ensures |s| == |d|
    ensures forall i :: 0 <= i < |d| ==> s[i] == d[i].path
  {
    if d == [] then [] else [d[0].path] + Unkey(d[1..])
  }

  /** No later element sorts strictly before an earlier one. */
  predicate Sorted(d: seq<Keyed>) {
    forall i, j :: 0 <= i < j < |d| ==> !Before(d[j].key, d[i].key)
  }

  /** Insert `x` in front of the first element that does not sort strictly
      before it, so that it stays ahead of the elements with equal key. */
  function Insert(x: Keyed, d: seq<Keyed>): seq<Keyed> {
    if d == [] || !Before(d[0].key, x.key) then [x] + d
    else [d[0]] + Insert(x, d[1..])
  }

  /** Insertion sort; like Python's sort it is stable. */
  function SortKeyed(d: seq<Keyed>): seq<Keyed> {
    if d == [] then [] else Insert(d[0], SortKeyed(d[1..]))
  }

  /** `hits.sort(key=...)` */
  function SortHits(byBaseName: bool, s: seq<string>): seq<string> {
    Unkey(SortKeyed(Decorate(byBaseName, s)))
  }

  lemma {:induction false} InsertPermutes(x: Keyed, d: seq<Keyed>)
    ensures multiset(Insert(x, d)) == multiset(d) + multiset{x}
  {
    if d != [] && Before(d[0].key, x.key) {
      InsertPermutes(x, d[1..]);
      assert d == [d[0]] + d[1..];
    }
  }

  /** What `x` is inserted behind in `d[1..]` never sorts before `d[0]`. */
  lemma InsertKeepsHead(x: Keyed, d: seq<Keyed>)
    requires Sorted(d) && d != [] && Before(d[0].key, x.key)
    ensures forall j :: 0 <= j < |Insert(x, d[1..])| ==> !Before(Insert(x, d[1..])[j].key, d[0].key)
  {
    var t := Insert(x, d[1..]);
    InsertPermutes(x, d[1..]);
    forall j | 0 <= j < |t|
      ensures !Before(t[j].key, d[0].key)
    {
      assert t[j] in multiset(t);
      if t[j] != x {
        assert t[j] in multiset(d[1..]);
        var k :| 0 <= k < |d[1..]| && d[1..][k] == t[j];
        assert d[k + 1] == t[j];
      }
    }
  }

  lemma {:induction false} InsertSorted(x: Keyed, d: seq<Keyed>)
    requires Sorted(d)
    ensures Sorted(Insert(x, d))
  {
    if d != [] && Before(d[0].key, x.key) {
      var t := Insert(x, d[1..]);
      InsertSorted(x, d[1..]);
      InsertKeepsHead(x, d);
      var r := [d[0]] + t;
      assert r == Insert(x, d);
      forall i, j | 0 <= i < j < |r|
        ensures !Before(r[j].key, r[i].key)
      {
        assert r[j] == t[j - 1];
        if i > 0 {
          assert r[i] == t[i - 1];
        }
      }
    }
  }

  /** The sort permutes the hits and leaves them sorted by key. */
  lemma {:induction false} SortKeyedSorted(d: seq<Keyed>)
    ensures multiset(SortKeyed(d)) == multiset(d)
    ensures Sorted(SortKeyed(d))
  {
    if d != [] {
      SortKeyedSorted(d[1..]);
      InsertPermutes(d[0], SortKeyed(d[1..]));
      InsertSorted(d[0], SortKeyed(d[1..]));
      assert d == [d[0]] + d[1..];
    }
  }

  /** The first element of `hits` that is a regular file, with its index. */
  function FirstFile(hits: seq<string>, files: set<string>): (r: Option<nat>)
    ensures r.None? <==> forall i :: 0 <= i < |hits| ==> hits[i] !in files
    ensures r.Some? ==> r.value < |hits| && hits[r.value] in files
                        && forall i :: 0 <= i < r.value ==> hits[i] !in files
  {
    if hits == [] then None
    else if hits[0] in files then Some(0)
    else match FirstFile(hits[1..], files)
      case None => None
      case Some(k) => Some(k + 1)
  }

  /** The result of one pattern: the first regular file among its sorted hits. */
  function PickFrom(byBaseName: bool, hits: seq<string>, files: set<string>): Option<string> {
    var sorted := SortHits(byBaseName, hits);
    match FirstFile(sorted, files)
    case None => None
    case Some(i) => Some(sorted[i])
  }

  /** Every element carries the key of its own path, and every path is in `s`. */
  predicate KeyedFrom(byBaseName: bool, d: seq<Keyed>, s: seq<string>) {
    forall k :: 0 <= k < |d| ==> d[k].key == KeyOf(byBaseName, d[k].path) && d[k].path in s
  }

  lemma PermutationKeyedFrom(byBaseName: bool, d: seq<Keyed>, e: seq<Keyed>, s: seq<string>)
    requires multiset(d) == multiset(e) && KeyedFrom(byBaseName, d, s)
    ensures KeyedFrom(byBaseName, e, s)
  {
    forall k | 0 <= k < |e| ensures e[k].key == KeyOf(byBaseName, e[k].path) && e[k].path in s {
      assert e[k] in multiset(d);
      var i :| 0 <= i < |d| && d[i] == e[k];
    }
  }

  lemma PermutationCoversPaths(byBaseName: bool, s: seq<string>, e: seq<Keyed>)
    requires multiset(Decorate(byBaseName, s)) == multiset(e)
    ensures forall h :: h in s ==> h in Unkey(e)
  {
    var d := Decorate(byBaseName, s);
    forall h | h in s ensures h in Unkey(e) {
      var i :| 0 <= i < |s| && s[i] == h;
      assert d[i] in multiset(e);
      var j :| 0 <= j < |e| && e[j] == d[i];
      assert Unkey(e)[j] == h;
    }
  }

  /** No later path has a key strictly before an earlier one's. */
  predicate SortedByKey(byBaseName: bool, s: seq<string>) {
    forall i, j :: 0 <= i < j < |s| ==> !Before(KeyOf(byBaseName, s[j]), KeyOf(byBaseName, s[i]))
  }

  /** The sorted hits are the hits, ordered by key. */
  lemma SortHitsSpec(byBaseName: bool, s: seq<string>)
    ensures forall h :: h in SortHits(byBaseName, s) <==> h in s
    ensures SortedByKey(byBaseName, SortHits(byBaseName, s))
  {
    var d := Decorate(byBaseName, s);
    var sd := SortKeyed(d);
    SortKeyedSorted(d);
    PermutationKeyedFrom(byBaseName, d, sd, s);
    PermutationCoversPaths(byBaseName, s, sd);
  }

  /** In a sequence sorted by key, the first file has a key no other file
      beats. */
  lemma FirstFileIsMinimal(byBaseName: bool, sorted: seq<string>, hits: seq<string>, files: set<string>)
    requires forall h :: h in sorted <==> h in hits
    requires SortedByKey(byBaseName, sorted)
    ensures FirstFile(sorted, files).None? <==> forall h :: h in hits ==> h !in files
    ensures FirstFile(sorted, files).Some? ==>
              var h := sorted[FirstFile(sorted, files).value];
              h in hits && h in files &&
              forall g :: g in hits && g in files ==> !Before(KeyOf(byBaseName, g), KeyOf(byBaseName, h))
  {
    if FirstFile(sorted, files).Some? {
      var i := FirstFile(sorted, files).value;
      forall g | g in hits && g in files
        ensures !Before(KeyOf(byBaseName, g), KeyOf(byBaseName, sorted[i]))
      {
        var j :| 0 <= j < |sorted| && sorted[j] == g;
        assert i <= j;
      }
    } else {
      forall h | h in hits
        ensures h !in files
      {
        var j :| 0 <= j < |sorted| && sorted[j] == h;
      }
    }
  }

  /** A pattern yields a file iff one of its hits is a file, and then one
      whose key no other file hit beats. */
  lemma PickFromMinimal(byBaseName: bool, hits: seq<string>, files: set<string>)
    ensures PickFrom(byBaseName, hits, files).None? <==> forall h :: h in hits ==> h !in files
    ensures PickFrom(byBaseName, hits, files).Some? ==>
              var h := PickFrom(byBaseName, hits, files).value;
              h in hits && h in files &&
              forall g :: g in hits && g in files ==> !Before(KeyOf(byBaseName, g), KeyOf(byBaseName, h))
  {
    SortHitsSpec(byBaseName, hits);
    FirstFileIsMinimal(byBaseName, SortHits(byBaseName, hits), hits, files);
  }


  /** The whole search: the first pattern with a file hit decides. The
      supervisor sorts by the whole path (`byBaseName` false), the
      post-install check by the last component. */
  function Search(byBaseName: bool, base: string, listing: seq<string>, files: set<string>): Option<string> {
    var a := PickFrom(byBaseName, Glob(base, listing, ServerExe), files);
    if a.Some? then a
    else
      var b := PickFrom(byBaseName, Glob(base, listing, DedicatedExe), files);
      if b.Some? then b
      else PickFrom(byBaseName, Glob(base, listing, AnyExe), files)
  }

  /** The search finds something iff some `.exe` entry is a regular file,
      and what it finds is such a file. */
  lemma SearchFindsExe(byBaseName: bool, base: string, listing: seq<string>, files: set<string>)
    ensures Search(byBaseName, base, listing, files).None? <==>
              forall n :: n in listing && Matches(AnyExe, n) ==> Paths.PathJoin(base, n) !in files
    ensures Search(byBaseName, base, listing, files).Some? ==>
              exists n :: n in listing && Matches(AnyExe, n)
                          && Search(byBaseName, base, listing, files).value == Paths.PathJoin(base, n)
                          && Paths.PathJoin(base, n) in files
  {
    PickFromMinimal(byBaseName, Glob(base, listing, ServerExe), files);
    PickFromMinimal(byBaseName, Glob(base, listing, DedicatedExe), files);
    PickFromMinimal(byBaseName, Glob(base, listing, AnyExe), files);
  }

  /** A `*Server*.exe` file always wins over other executables, and among
      those the one with the smallest key. */
  lemma SearchPrefersServerNamed(byBaseName: bool, base: string, listing: seq<string>, files: set<string>, n: string)
    requires n in listing && Matches(ServerExe, n) && Paths.PathJoin(base, n) in files
    ensures Search(byBaseName, base, listing, files).Some?
    ensures var h := Search(byBaseName, base, listing, files).value;
            h in Glob(base, listing, ServerExe) && h in files
            && !Before(KeyOf(byBaseName, Paths.PathJoin(base, n)), KeyOf(byBaseName, h))
  {
    PickFromMinimal(byBaseName, Glob(base, listing, ServerExe), files);
  }
}

=== FILE: Json.dfy ===
/** JSON values as `json.load` returns them (dict, list, str, int, bool,
    None; floats are not modelled), with Python truthiness (`if x:`,
    `x or y`) and a `str(x)` that is exact for the scalars and lists. */
module Json {
  import opened Util

  datatype Value =
    | Null
    | Bool(b: bool)
    | Int(i: int)
    | Str(s: string)
    | List(items: seq<Value>)
    | Object(fields: map<string, Value>)

  /** Python truthiness: `None`, `False`, `0`, `""`, `[]` and `{}` are false. */
  predicate Truthy(v: Value) {
    match v
    case Null => false
    case Bool(b) => b
    case Int(i) => i != 0
    case Str(s) => s != []
    case List(xs) => xs != []
    case Object(m) => m != map[]
  }

  /** `d.get(key, default)` on a dict */
  function GetOr(fields: map<string, Value>, key: string, default: Value): (r: Value)
    ensures key in fields ==> r == fields[key]
    ensures key !in fields ==> r == default
  {
    if key in fields then fields[key] else default
  }

  /** `d.get(key)` on a dict; a missing key gives `None`. */
  function Get(fields: map<string, Value>, key: string): (r: Value)
    ensures key !in fields ==> r == Null
  {
    GetOr(fields, key, Null)
  }

  /** `str(v)`; a list renders its elements with `repr`. A dict has no key
      order here, so it renders as a placeholder. */
  function ToStr(v: Value): string
  {
    match v
    case Null => "None"
    case Bool(b) => if b then "True" else "False"
    case Int(i) => IntToStr(i)
    case Str(s) => s
    case List(xs) => "[" + ReprItems(xs) + "]"
    case Object(_) => "{...}"
  }

  /** `repr(v)` for a list element: strings are put in single quotes,
      without Python's choice of quote character or escaping. */
  function Repr(v: Value): string
  {
    match v
    case Str(s) => "'" + s + "'"
    case List(xs) => "[" + ReprItems(xs) + "]"
    case Null => "None"
    case Bool(b) => if b then "True" else "False"
    case Int(i) => IntToStr(i)
    case Object(_) => "{...}"
  }

  function ReprItems(xs: seq<Value>): string
  {
    if xs == [] then ""
    else if |xs| == 1 then Repr(xs[0])
    else Repr(xs[0]) + ", " + ReprItems(xs[1..])
  }
}

=== FILE: Paths.dfy ===
/** Install paths and the two server tables of src/paths.py: `SERVER_PATHS`
    (name to serverfiles folder, derived from the app id) and
    `SERVER_CONFIGS` (name to the parsed `server_settings.json`). Both are
    cleared and refilled in place. */
module Paths {
  import opened Util
  import opened Json
  import ConfigStore

  /** The path separator (`os.sep`). */
  const Sep: char := '/'

  /** `os.path.join(a, b)`: an absolute `b` replaces `a`. */
  function PathJoin(a: string, b: string): string
  {
    if |b| > 0 && b[0] == Sep then b
    else if a == [] || a[|a| - 1] == Sep then a + b
    else a + [Sep] + b
  }

  /** `server_root(app_id)`: `BASE_DIR/steam/GSM/servers/<app_id>` */
  function ServerRoot(baseDir: string, appId: string): string {
    PathJoin(PathJoin(PathJoin(PathJoin(baseDir, "steam"), "GSM"), "servers"), appId)
  }

  /** `server_files(app_id)`: the `serverfiles` folder below the root. */
  function ServerFiles(baseDir: string, appId: string): string {
    PathJoin(ServerRoot(baseDir, appId), "serverfiles")
  }

  /** The common prefix of every server root. */
  function ServersDir(baseDir: string): string {
    PathJoin(PathJoin(PathJoin(baseDir, "steam"), "GSM"), "servers")
  }

  /** A plain app id: a single non-empty path component. */
  predicate PlainId(id: string) {
    id != [] && forall i :: 0 <= i < |id| ==> id[i] != Sep
  }

  lemma ServerFilesShape(baseDir: string, appId: string)
    requires PlainId(appId)
    ensures ServerRoot(baseDir, appId) == ServersDir(baseDir) + [Sep] + appId
    ensures ServerFiles(baseDir, appId) == ServersDir(baseDir) + [Sep] + appId + [Sep] + "serverfiles"
  {
    var d := ServersDir(baseDir);
    assert d == PathJoin(PathJoin(PathJoin(baseDir, "steam"), "GSM"), "servers");
    assert |d| > 0 && d[|d| - 1] == 's';
    assert ServerRoot(baseDir, appId) == d + [Sep] + appId;
  }

  /** Different plain app ids get different install folders; servers that
      share an app id share the folder. */
  lemma {:induction false} ServerFilesInjective(baseDir: string, x: string, y: string)
    requires PlainId(x) && PlainId(y)
    ensures ServerFiles(baseDir, x) == ServerFiles(baseDir, y) <==> x == y
  {
    ServerFilesShape(baseDir, x);
    ServerFilesShape(baseDir, y);
    var k := |ServersDir(baseDir)| + 1;
    if ServerFiles(baseDir, x) == ServerFiles(baseDir, y) {
      assert |x| == |y|;
      forall i | 0 <= i < |x| ensures x[i] == y[i] {
        assert ServerFiles(baseDir, x)[k + i] == x[i];
        assert ServerFiles(baseDir, y)[k + i] == y[i];
      }
    }
  }

  /** What a settings file holds when present. */
  datatype SettingsFile = Unreadable | Parsed(json: Value)

  /** The app id `server_files` is called with: `str(info["app_id"])`. */
  function AppIdText(entry: Value): string
    requires entry.Object? && "app_id" in entry.fields
  {
    ToStr(entry.fields["app_id"])
  }

  /** Can the comprehension in `load_server_paths` run? It raises on an entry
      that is not an object or has no `app_id`. */
  predicate EntriesWellFormed(entries: map<string, Value>) {
    forall n :: n in entries ==> entries[n].Object? && "app_id" in entries[n].fields
  }

  /** The table `load_server_paths` builds from the server entries. */
  function PathsFromEntries(baseDir: string, entries: map<string, Value>): (r: map<string, string>)
    requires EntriesWellFormed(entries)
    ensures r.Keys == entries.Keys
    ensures forall n :: n in r ==> r[n] == ServerFiles(baseDir, AppIdText(entries[n]))
  {
    map n | n in entries :: ServerFiles(baseDir, AppIdText(entries[n]))
  }

  /** The settings path of a server folder. */
  function SettingsPath(path: string): string {
    PathJoin(path, "server_settings.json")
  }

  /** One server's settings: the parsed file, or `{}` when it is missing or
      unreadable. */
  function SettingsFor(path: string, files: map<string, SettingsFile>): (v: Value)
    ensures SettingsPath(path) !in files ==> v == Object(map[])
    ensures SettingsPath(path) in files && files[SettingsPath(path)].Unreadable? ==> v == Object(map[])
    ensures SettingsPath(path) in files && files[SettingsPath(path)].Parsed? ==> v == files[SettingsPath(path)].json
  {
    var p := SettingsPath(path);
    if p in files && files[p].Parsed? then files[p].json else Object(map[])
  }

  /** The table `load_server_configs` builds from `SERVER_PATHS`. */
  function ConfigsFor(paths: map<string, string>, files: map<string, SettingsFile>): (r: map<string, Value>)
    ensures r.Keys == paths.Keys
  {
    map n | n in paths :: SettingsFor(paths[n], files)
  }

  class ServerTables {
    var serverPaths: map<string, string>
    var serverConfigs: map<string, Value>

    constructor ()
      ensures serverPaths == map[] && serverConfigs == map[]
    {
      serverPaths, serverConfigs := map[], map[];
    }

    /** `load_server_paths`, given the config `load_config` returned. When an
        entry lacks an `app_id` the comprehension raises before the table is
        touched; `ok` is false then. */
    method LoadServerPaths(baseDir: string, cfg: map<string, Value>) returns (ok: bool)
      requires ConfigStore.Normalized(cfg)
      modifies this
      ensures serverConfigs == old(serverConfigs)
      ensures ok == EntriesWellFormed(cfg["server_paths"].fields)
      ensures ok ==> serverPaths == PathsFromEntries(baseDir, cfg["server_paths"].fields)
      ensures !ok ==> serverPaths == old(serverPaths)
    {
      var entries := cfg["server_paths"].fields;
      if !EntriesWellFormed(entries) {
        return false;
      }
      var newMap := PathsFromEntries(baseDir, entries);
      serverPaths := map[];
      serverPaths := serverPaths + newMap;
      return true;
    }

    /** `load_server_configs`: one entry per server in `SERVER_PATHS`, filled
        in a loop. */
    method LoadServerConfigs(files: map<string, SettingsFile>)
      modifies this
      ensures serverPaths == old(serverPaths)
      ensures serverConfigs == ConfigsFor(serverPaths, files)
    {
      serverConfigs := map[];
      var todo := serverPaths.Keys;
      while todo != {}
        invariant serverPaths == old(serverPaths)
        invariant todo <= serverPaths.Keys
        invariant serverConfigs.Keys == serverPaths.Keys - todo
        invariant forall n :: n in serverConfigs ==> serverConfigs[n] == SettingsFor(serverPaths[n], files)
        decreases todo
      {
        var name :| name in todo;
        var settingsFile := PathJoin(serverPaths[name], "server_settings.json");
        if settingsFile in files {
          match files[settingsFile] {
            case Parsed(v) => serverConfigs := serverConfigs[name := v];
            case Unreadable => serverConfigs := serverConfigs[name := Object(map[])];
          }
        } else {
          serverConfigs := serverConfigs[name := Object(map[])];
        }
        todo := todo - {name};
      }
    }
  }

  /** After reloading, a name dropped from the config is gone from both
      tables, and every remaining name has a settings entry. */
  lemma ReloadDropsRemovedNames(baseDir: string, entries: map<string, Value>, files: map<string, SettingsFile>, name: string)
    requires EntriesWellFormed(entries) && name !in entries
    ensures name !in PathsFromEntries(baseDir, entries)
    ensures name !in ConfigsFor(PathsFromEntries(baseDir, entries), files)
    ensures ConfigsFor(PathsFromEntries(baseDir, entries), files).Keys == entries.Keys
  {
  }
}

=== FILE: PidCache.dfy ===
/** The PID cache file (src/pidcache.py): `save_pids` overwrites it with the
    PIDs of the tracked processes that are still running, `load_pids` reads
    it back and falls back to an empty map. Process liveness is the set
    `alive` of running PIDs. */
module PidCache {

  /** A tracked OS process (`psutil.Process`), known by its PID. */
  datatype Proc = Proc(pid: int)

  /** `proc.is_running()` */
  predicate IsRunning(p: Proc, alive: set<int>) {
    p.pid in alive
  }

  /** What the cache file holds: nothing, text that is not valid JSON, or
      the map `save_pids` last wrote. Valid JSON of another shape is not
      modelled. */
  datatype CacheFile = Missing | Unparsable | Saved(pids: map<string, int>)

  /** `{name: proc.pid for name, proc in processes.items() if proc.is_running()}` */
  function RunningPids(procs: map<string, Proc>, alive: set<int>): (r: map<string, int>)
    ensures forall n :: n in r <==> n in procs && IsRunning(procs[n], alive)
    ensures forall n :: n in r ==> r[n] == procs[n].pid
  {
    map n | n in procs && IsRunning(procs[n], alive) :: procs[n].pid
  }

  /** `load_pids()`: the saved map, or `{}` when the file is missing or is
      not valid JSON. */
  function LoadSpec(f: CacheFile): (r: map<string, int>)
    ensures f.Saved? ==> r == f.pids
    ensures !f.Saved? ==> r == map[]
  {
    match f
    case Saved(pids) => pids
    case _ => map[]
  }

  class PidCacheFile {
    var file: CacheFile

    constructor (initial: CacheFile)
      ensures file == initial
    {
      file := initial;
    }

    /** `save_pids`: the whole file is replaced. */
    method Save(procs: map<string, Proc>, alive: set<int>)
      modifies this
      ensures file == Saved(RunningPids(procs, alive))
    {
      var data := map n | n in procs && procs[n].pid in alive :: procs[n].pid;
      file := Saved(data);
    }

    /** `load_pids` */
    method Load() returns (pids: map<string, int>)
      ensures pids == LoadSpec(file)
    {
      match file {
        case Saved(m) => pids := m;
        case _ => pids := map[];
      }
    }
  }

  /** Loading what was saved gives exactly the running entries, each with its
      own PID; a stopped process is not in the file. */
  lemma SaveLoadRoundTrip(procs: map<string, Proc>, alive: set<int>, name: string)
    ensures LoadSpec(Saved(RunningPids(procs, alive))) == RunningPids(procs, alive)
    ensures name in procs && !IsRunning(procs[name], alive) ==>
              name !in LoadSpec(Saved(RunningPids(procs, alive)))
    ensures name in procs && IsRunning(procs[name], alive) ==>
              LoadSpec(Saved(RunningPids(procs, alive)))[name] == procs[name].pid
  {
  }

  /** A save overwrites: after two saves only the second table matters, even
      for names that only the first table had. */
  lemma SaveOverwrites(first: map<string, Proc>, second: map<string, Proc>, alive: set<int>, name: string)
    requires name in first && IsRunning(first[name], alive) && name !in second
    ensures name !in LoadSpec(Saved(RunningPids(second, alive)))
  {
  }
}

=== FILE: RuntimeStatus.dfy ===
/** The per-server operation status table (`_STATUS` in
    src/runtime_status.py): a nesting busy counter with a label, and the
    last failure with its time and message, which the query expires after
    `FailedTtlSeconds`. The clock is the parameter `now` (whole seconds). */
module RuntimeStatus {
  import opened Util

  const FailedTtlSeconds: int := 900

  /** One server's record; `failedAt == 0` means "no failure recorded". */
  datatype OpRecord = OpRecord(busyCount: int, opLabel: string, failedAt: int, failedMsg: string)

  /** The record `setdefault` creates. */
  const FreshRecord := OpRecord(0, "", 0, "")

  datatype OpState = Busy | Failed

  /** What `get_operation_status` returns: `(state, detail)`, either part may be `None`. */
  datatype Report = Report(state: Option<OpState>, detail: Option<string>)

  const Neutral := Report(None, None)

  /** `s or None` for a string */
  function OrNone(s: string): (r: Option<string>)
    ensures r == None <==> s == []
    ensures r.Some? ==> r.value == s
  {
    if s == [] then None else Some(s)
  }

  /** Every busy counter in the table is non-negative. */
  predicate NonNegative(m: map<string, OpRecord>) {
    forall n :: n in m ==> m[n].busyCount >= 0
  }

  function RecordOf(m: map<string, OpRecord>, name: string): OpRecord {
    if name in m then m[name] else FreshRecord
  }

  /** `max(0, c - 1)` */
  function Decrement(c: int): (r: int)
    ensures r >= 0
    ensures c >= 1 ==> r == c - 1
    ensures c <= 1 ==> r == 0
  {
    if c - 1 > 0 then c - 1 else 0
  }

  /** The table after `begin_operation(name, opLabel)`. */
  function BeginSpec(m: map<string, OpRecord>, name: string, opLabel: string): (m': map<string, OpRecord>)
    ensures name in m' && m'.Keys == m.Keys + {name}
    ensures m'[name].busyCount == RecordOf(m, name).busyCount + 1
    ensures m'[name].opLabel == (if opLabel != [] then opLabel else RecordOf(m, name).opLabel)
    ensures m'[name].failedAt == RecordOf(m, name).failedAt
    ensures m'[name].failedMsg == RecordOf(m, name).failedMsg
    ensures forall k :: k in m && k != name ==> m'[k] == m[k]
  {
    var r := RecordOf(m, name);
    m[name := r.(busyCount := r.busyCount + 1, opLabel := if opLabel != [] then opLabel else r.opLabel)]
  }

  /** The table after `end_operation_success(name)`. */
  function EndSuccessSpec(m: map<string, OpRecord>, name: string): (m': map<string, OpRecord>)
    ensures name !in m ==> m' == m
    ensures m'.Keys == m.Keys
    ensures name in m ==> m'[name].busyCount == Decrement(m[name].busyCount)
    ensures name in m && m'[name].busyCount == 0 ==> m'[name] == FreshRecord
    ensures name in m && m'[name].busyCount != 0 ==> m'[name] == m[name].(busyCount := m'[name].busyCount)
    ensures forall k :: k in m && k != name ==> m'[k] == m[k]
  {
    if name !in m then m
    else
      var c := Decrement(m[name].busyCount);
      if c == 0 then m[name := OpRecord(0, "", 0, "")]
      else m[name := m[name].(busyCount := c)]
  }

  /** The table after `end_operation_failed(name, message)` at time `now`. */
  function EndFailedSpec(m: map<string, OpRecord>, name: string, message: string, now: int): (m': map<string, OpRecord>)
    ensures name in m' && m'.Keys == m.Keys + {name}
    ensures m'[name].busyCount == Decrement(RecordOf(m, name).busyCount)
    ensures m'[name].failedAt == now && m'[name].failedMsg == Strip(message)
    ensures m'[name].opLabel == (if m'[name].busyCount == 0 then "" else RecordOf(m, name).opLabel)
    ensures forall k :: k in m && k != name ==> m'[k] == m[k]
  {
    var r := RecordOf(m, name);
    var c := Decrement(r.busyCount);
    var rec := OpRecord(c, if c == 0 then "" else r.opLabel, now, Strip(message));
    assert rec.busyCount == c && rec.failedAt == now;
    m[name := rec]
  }

  /** Is a failure recorded for `name` that is still within the TTL at `now`? */
  predicate FailureVisible(r: OpRecord, now: int) {
    r.failedAt > 0 && now - r.failedAt <= FailedTtlSeconds
  }

  /** The value `get_operation_status(name)` returns at time `now`. */
  function QuerySpec(m: map<string, OpRecord>, name: string, now: int): (rep: Report)
    ensures name !in m ==> rep == Neutral
    ensures name in m && m[name].busyCount > 0 ==> rep == Report(Some(Busy), OrNone(m[name].opLabel))
    ensures name in m && m[name].busyCount <= 0 && FailureVisible(m[name], now) ==>
              rep == Report(Some(Failed), OrNone(m[name].failedMsg))
    ensures rep.state.None? ==> rep == Neutral
  {
    if name !in m then Neutral
    else
      var r := m[name];
      if r.busyCount > 0 then Report(Some(Busy), OrNone(r.opLabel))
      else if FailureVisible(r, now) then Report(Some(Failed), OrNone(r.failedMsg))
      else Neutral
  }

  /** The table after `get_operation_status(name)` at `now`: an expired
      failure is forgotten, nothing else changes. */
  function QueryEffect(m: map<string, OpRecord>, name: string, now: int): (m': map<string, OpRecord>)
    ensures m'.Keys == m.Keys
    ensures forall k :: k in m && k != name ==> m'[k] == m[k]
    ensures name in m && m[name].busyCount <= 0 && m[name].failedAt > 0 && !FailureVisible(m[name], now) ==>
              m'[name] == m[name].(failedAt := 0, failedMsg := "")
    ensures name in m && (m[name].busyCount > 0 || m[name].failedAt <= 0 || FailureVisible(m[name], now)) ==>
              m'[name] == m[name]
  {
    if name in m && m[name].busyCount <= 0 && m[name].failedAt > 0 && !FailureVisible(m[name], now)
    then m[name := m[name].(failedAt := 0, failedMsg := "")]
    else m
  }

  class StatusTracker {
    var table: map<string, OpRecord>

    ghost predicate Valid()
      reads this
    {
      NonNegative(table)
    }

    constructor ()
      ensures Valid() && table == map[]
    {
      table := map[];
    }

    /** `begin_operation` */
    method Begin(name: string, opLabel: string)
      requires Valid()
      modifies this
      ensures Valid()
      ensures table == BeginSpec(old(table), name, opLabel)
    {
      var state := if name in table then table[name] else FreshRecord;
      state := state.(busyCount := state.busyCount + 1);
      if opLabel != [] {
        state := state.(opLabel := opLabel);
      }
      table := table[name := state];
    }

    /** `end_operation_success` */
    method EndSuccess(name: string)
      requires Valid()
      modifies this
      ensures Valid()
      ensures table == EndSuccessSpec(old(table), name)
    {
      if name !in table {
        return;
      }
      var state := table[name];
      state := state.(busyCount := if state.busyCount - 1 > 0 then state.busyCount - 1 else 0);
      if state.busyCount == 0 {
        state := state.(failedAt := 0, failedMsg := "", opLabel := "");
      }
      table := table[name := state];
    }

    /** `end_operation_failed`; `now` stands for `time.time()`. */
    method EndFailed(name: string, message: string, now: int)
      requires Valid()
      modifies this
      ensures Valid()
      ensures table == EndFailedSpec(old(table), name, message, now)
    {
      var state := if name in table then table[name] else FreshRecord;
      state := state.(busyCount := if state.busyCount - 1 > 0 then state.busyCount - 1 else 0);
      state := state.(failedAt := now, failedMsg := Strip(message));
      if state.busyCount == 0 {
        state := state.(opLabel := "");
      }
      table := table[name := state];
    }

    /** `get_operation_status`, which also resets an expired failure. */
    method Query(name: string, now: int) returns (rep: Report)
      requires Valid()
      modifies this
      ensures Valid()
      ensures rep == QuerySpec(old(table), name, now)
      ensures table == QueryEffect(old(table), name, now)
    {
      if name !in table {
        return Neutral;
      }
      var state := table[name];
      if state.busyCount > 0 {
        return Report(Some(Busy), if state.opLabel == [] then None else Some(state.opLabel));
      }
      if state.failedAt > 0 {
        var age := now - state.failedAt;
        if age <= FailedTtlSeconds {
          return Report(Some(Failed), if state.failedMsg == [] then None else Some(state.failedMsg));
        }
        table := table[name := state.(failedAt := 0, failedMsg := "")];
      }
      return Neutral;
    }

    /** `clear_server_status` */
    method Clear(name: string)
      requires Valid()
      modifies this
      ensures Valid()
      ensures table == old(table) - {name}
    {
      table := table - {name};
    }
  }

  // ---------------------------------------------------------------------
  // Properties of the status table

  /** Every operation keeps all busy counters non-negative. */
  lemma OperationsKeepCountersNonNegative(m: map<string, OpRecord>, name: string, opLabel: string, msg: string, now: int)
    requires NonNegative(m)
    ensures NonNegative(BeginSpec(m, name, opLabel))
    ensures NonNegative(EndSuccessSpec(m, name))
    ensures NonNegative(EndFailedSpec(m, name, msg, now))
    ensures NonNegative(QueryEffect(m, name, now))
    ensures NonNegative(m - {name})
  {
  }

  /** Right after `begin(name, opLabel)` the server reports busy, with the new
      opLabel if it is non-empty and the opLabel of an enclosing operation
      otherwise. */
  lemma BeginReportsBusy(m: map<string, OpRecord>, name: string, opLabel: string, now: int)
    requires NonNegative(m)
    ensures QuerySpec(BeginSpec(m, name, opLabel), name, now)
            == Report(Some(Busy), OrNone(if opLabel != [] then opLabel else RecordOf(m, name).opLabel))
  {
  }

  /** While the counter is positive the report is "busy", whatever failure is
      recorded, and the query changes nothing. */
  lemma BusyDominatesFailure(m: map<string, OpRecord>, name: string, now: int)
    requires name in m && m[name].busyCount > 0
    ensures QuerySpec(m, name, now).state == Some(Busy)
    ensures QueryEffect(m, name, now) == m
  {
  }

  /** A balanced `begin`/`end_success` pair on a server that was idle leaves
      it neutral: opLabel, failure time and failure message are all cleared. */
  lemma BalancedSuccessIsNeutral(m: map<string, OpRecord>, name: string, opLabel: string, now: int)
    requires name !in m || m[name].busyCount == 0
    ensures EndSuccessSpec(BeginSpec(m, name, opLabel), name)[name] == FreshRecord
    ensures QuerySpec(EndSuccessSpec(BeginSpec(m, name, opLabel), name), name, now) == Neutral
  {
  }

  /** begin, begin, end_failed("e"), end_success on an idle server ends
      neutral: the inner failure is erased when the outer operation
      succeeds. */
  lemma NestedFailureErasedByOuterSuccess(m: map<string, OpRecord>, name: string, l1: string, l2: string, e: string, t: int, now: int)
    requires name !in m || m[name].busyCount == 0
    ensures var m1 := BeginSpec(BeginSpec(m, name, l1), name, l2);
            var m2 := EndSuccessSpec(EndFailedSpec(m1, name, e, t), name);
            m2[name] == FreshRecord && QuerySpec(m2, name, now) == Neutral
  {
    var m1 := BeginSpec(BeginSpec(m, name, l1), name, l2);
    assert m1[name].busyCount == 2;
    var f := EndFailedSpec(m1, name, e, t);
    assert f[name].busyCount == 1;
  }

  /** A failing end that brings the counter to zero is reported as "failed"
      with the stripped message for the whole TTL window, inclusive. */
  lemma FailureVisibleWithinTtl(m: map<string, OpRecord>, name: string, msg: string, t: int, now: int)
    requires NonNegative(m)
    requires name !in m || m[name].busyCount <= 1
    requires t > 0 && t <= now <= t + FailedTtlSeconds
    ensures QuerySpec(EndFailedSpec(m, name, msg, t), name, now) == Report(Some(Failed), OrNone(Strip(msg)))
  {
  }

  /** Past the TTL the query reports neutral and forgets the failure, so every
      later query (at any time) is neutral too, until a new operation. */
  lemma FailureExpiresForGood(m: map<string, OpRecord>, name: string, now: int, later: int)
    requires name in m && m[name].busyCount <= 0 && m[name].failedAt > 0
    requires now - m[name].failedAt > FailedTtlSeconds
    ensures QuerySpec(m, name, now) == Neutral
    ensures QuerySpec(QueryEffect(m, name, now), name, later) == Neutral
  {
  }

  /** An idle server reports "failed" exactly while a failure is recorded and
      at most `FailedTtlSeconds` old. */
  lemma FailedIffWithinTtl(m: map<string, OpRecord>, name: string, now: int)
    requires name in m && m[name].busyCount <= 0
    ensures QuerySpec(m, name, now).state == Some(Failed) <==> FailureVisible(m[name], now)
  {
  }

  /** A server without a record, in particular one just cleared, is neutral. */
  lemma ClearedIsNeutral(m: map<string, OpRecord>, name: string, now: int)
    ensures QuerySpec(m - {name}, name, now) == Neutral
    ensures QueryEffect(m - {name}, name, now) == m - {name}
  {
  }

  /** `end_success` on a server with no record changes nothing. */
  lemma EndSuccessWithoutRecordIsNoOp(m: map<string, OpRecord>, name: string)
    requires name !in m
    ensures EndSuccessSpec(m, name) == m
  {
  }
}

=== FILE: Security.dfy ===
/** The `.env` handling of src/security.py: the `ENCRYPTION_KEY` lookup of
    `_read_key_from_envfile`, and `ensure_env_values`, which reads the file
    into a dictionary, decides per sensitive key whether to decrypt, keep
    and re-encrypt, or prompt, and appends the encrypted copies. The file
    is a list of lines; Fernet and the prompt are parameters. */
module Security {
  import opened Util

  const KeyLinePrefix: string := "ENCRYPTION_KEY="

  /** Every Fernet token starts like this. */
  const EncryptedPrefix: string := "gAAAA"

  /** `SENSITIVE_KEYS`, in order. */
  const SensitiveKeys: seq<string> := ["DISCORD_TOKEN", "DISCORD_CHANNEL", "DISCORD_GUILD", "DOMAIN", "ADMIN_CHANNEL"]

  /** A stripped line both readers skip: blank or a comment. */
  predicate Ignored(l: string) {
    l == [] || StartsWith(l, "#")
  }

  // ---------------------------------------------------------------------
  // `_read_key_from_envfile`
  // ---------------------------------------------------------------------

  /** A line that `_read_key_from_envfile` takes the key from. */
  predicate IsKeyLine(line: string) {
    var l := Strip(line);
    !Ignored(l) && StartsWith(l, KeyLinePrefix)
  }

  /** `line.split("=", 1)[1].strip()`; the first `=` of a key line is the
      last character of the prefix. */
  function KeyOfLine(line: string): string
    requires IsKeyLine(line)
  {
    Strip(Strip(line)[|KeyLinePrefix|..])
  }

  /** The key the reader returns from the lines of an existing file: the
      value of the first key line, or none. */
  function KeyFromLines(lines: seq<string>): (r: Option<string>)
    ensures r.None? <==> forall i :: 0 <= i < |lines| ==> !IsKeyLine(lines[i])
  {
    if lines == [] then None
    else if IsKeyLine(lines[0]) then Some(KeyOfLine(lines[0]))
    else
      var r := KeyFromLines(lines[1..]);
      assert forall i :: 1 <= i < |lines| ==> lines[i] == lines[1..][i - 1];
      r
  }

  /** One step of the scan from line `i` on. */
  lemma KeyFromLinesStep(ls: seq<string>, i: nat)
    requires i < |ls|
    ensures KeyFromLines(ls[i..]) == if IsKeyLine(ls[i]) then Some(KeyOfLine(ls[i])) else KeyFromLines(ls[i + 1..])
  {
    assert ls[i..][1..] == ls[i + 1..];
  }

  /** The key comes from the first key line; later ones are never read. */
  lemma {:induction false} KeyFromFirstKeyLine(lines: seq<string>, i: nat)
    requires i < |lines| && IsKeyLine(lines[i])
    requires forall j :: 0 <= j < i ==> !IsKeyLine(lines[j])
    ensures KeyFromLines(lines) == Some(KeyOfLine(lines[i]))
    decreases i
  {
    if i > 0 {
      assert lines[1..][i - 1] == lines[i];
      KeyFromFirstKeyLine(lines[1..], i - 1);
    }
  }

  /** Appending to a file that already holds a key does not change the key
      that is read. */
  lemma {:induction false} KeyIgnoresAppendedLines(a: seq<string>, b: seq<string>)
    requires KeyFromLines(a).Some?
    ensures KeyFromLines(a + b) == KeyFromLines(a)
  {
    var i :| 0 <= i < |a| && IsKeyLine(a[i]);
    var first := FirstKeyLine(a, i);
    KeyFromFirstKeyLine(a, first);
    assert forall j :: 0 <= j < |a| ==> (a + b)[j] == a[j];
    KeyFromFirstKeyLine(a + b, first);
  }

  /** The index of the first key line, given that there is one at or after
      `bound`. */
  function FirstKeyLine(lines: seq<string>, bound: nat): (r: nat)
    requires bound < |lines| && IsKeyLine(lines[bound])
    ensures r <= bound && IsKeyLine(lines[r])
    ensures forall j :: 0 <= j < r ==> !IsKeyLine(lines[j])
  {
    if exists j :: 0 <= j < bound && IsKeyLine(lines[j]) then
      var j :| 0 <= j < bound && IsKeyLine(lines[j]);
      FirstKeyLine(lines, j)
    else bound
  }

  // ---------------------------------------------------------------------
  // The `.env` reader of `ensure_env_values`
  // ---------------------------------------------------------------------

  /** The index of the first `=`, if any. */
  function FirstEq(s: string): (r: Option<nat>)
    ensures r.Some? ==> r.value < |s| && s[r.value] == '=' && forall j :: 0 <= j < r.value ==> s[j] != '='
    ensures r.None? ==> forall j :: 0 <= j < |s| ==> s[j] != '='
  {
    if s == [] then None
    else if s[0] == '=' then Some(0)
    else match FirstEq(s[1..])
      case None => None
      case Some(k) => Some(k + 1)
  }

  /** What the reader makes of one line: nothing for a blank line, a
      comment or a line without `=`, else the stripped key and value on
      either side of the first `=`. */
  function LineEntry(line: string): Option<(string, string)> {
    var l := Strip(line);
    if Ignored(l) then None
    else match FirstEq(l)
      case None => None
      case Some(e) => Some((Strip(l[..e]), Strip(l[e + 1..])))
  }

  /** The entries of the lines, in order. */
  function Entries(lines: seq<string>): (es: seq<Option<(string, string)>>)
    ensures |es| == |lines|
    ensures forall i :: 0 <= i < |lines| ==> es[i] == LineEntry(lines[i])
  {
    seq(|lines|, i requires 0 <= i < |lines| => LineEntry(lines[i]))
  }

  lemma EntriesConcat(a: seq<string>, b: seq<string>)
    ensures Entries(a + b) == Entries(a) + Entries(b)
  {
  }

  /** The dictionary filled from entries in order; a later entry for a key
      replaces an earlier one. */
  function Fill(es: seq<Option<(string, string)>>): map<string, string> {
    if es == [] then map[]
    else
      var m := Fill(es[..|es| - 1]);
      match es[|es| - 1]
      case None => m
      case Some((k, v)) => m[k := v]
  }

  /** The dictionary `existing` after reading `lines`. */
  function ParseEnv(lines: seq<string>): map<string, string> {
    Fill(Entries(lines))
  }

  /** Reading one more line. */
  lemma ParseEnvSnoc(a: seq<string>, line: string)
    ensures LineEntry(line).None? ==> ParseEnv(a + [line]) == ParseEnv(a)
    ensures LineEntry(line).Some? ==>
              ParseEnv(a + [line]) == ParseEnv(a)[LineEntry(line).value.0 := LineEntry(line).value.1]
  {
    var es := Entries(a + [line]);
    assert es == Entries(a) + [LineEntry(line)];
    assert es[..|es| - 1] == Entries(a);
  }

  /** Reading more entries overrides what was read before. */
  lemma {:induction false} FillConcat(a: seq<Option<(string, string)>>, b: seq<Option<(string, string)>>)
    ensures Fill(a + b) == Fill(a) + Fill(b)
    decreases |b|
  {
    if b == [] {
      assert a + b == a;
    } else {
      var b' := b[..|b| - 1];
      assert (a + b)[..|a + b| - 1] == a + b';
      assert (a + b)[|a + b| - 1] == b[|b| - 1];
      FillConcat(a, b');
    }
  }

  /** Reading more lines overrides what was read before. */
  lemma ParseEnvConcat(a: seq<string>, b: seq<string>)
    ensures ParseEnv(a + b) == ParseEnv(a) + ParseEnv(b)
  {
    EntriesConcat(a, b);
    FillConcat(Entries(a), Entries(b));
  }

  /** A key is read iff some entry names it. */
  lemma {:induction false} FillKeys(es: seq<Option<(string, string)>>, k: string)
    ensures k in Fill(es) <==> exists i :: 0 <= i < |es| && es[i].Some? && es[i].value.0 == k
    decreases |es|
  {
    if es != [] {
      var init := es[..|es| - 1];
      FillKeys(init, k);
      assert forall i :: 0 <= i < |init| ==> init[i] == es[i];
    }
  }

  lemma FillEndsWith(a: seq<Option<(string, string)>>, k: string, v: string)
    requires a != [] && a[|a| - 1] == Some((k, v))
    ensures k in Fill(a) && Fill(a)[k] == v
  {
  }

  lemma FillWithoutKey(b: seq<Option<(string, string)>>, k: string)
    requires forall j :: 0 <= j < |b| && b[j].Some? ==> b[j].value.0 != k
    ensures k !in Fill(b)
  {
    FillKeys(b, k);
  }

  /** The reader holds exactly the keys that some line sets. */
  lemma ParseEnvKeys(lines: seq<string>, k: string)
    ensures k in ParseEnv(lines) <==>
              exists i :: 0 <= i < |lines| && LineEntry(lines[i]).Some? && LineEntry(lines[i]).value.0 == k
  {
    var es := Entries(lines);
    FillKeys(es, k);
    if k in ParseEnv(lines) {
      var i :| 0 <= i < |es| && es[i].Some? && es[i].value.0 == k;
      assert LineEntry(lines[i]) == es[i];
    }
  }

  /** The value read for a key is the one of its last entry. */
  lemma LaterEntryWins(es: seq<Option<(string, string)>>, i: nat, k: string, v: string)
    requires i < |es| && es[i] == Some((k, v))
    requires forall j :: i < j < |es| && es[j].Some? ==> es[j].value.0 != k
    ensures k in Fill(es) && Fill(es)[k] == v
  {
    var a, b := es[..i + 1], es[i + 1..];
    assert es == a + b;
    FillConcat(a, b);
    FillEndsWith(a, k, v);
    assert forall j :: 0 <= j < |b| ==> b[j] == es[i + 1 + j];
    FillWithoutKey(b, k);
  }

  // ---------------------------------------------------------------------
  // The per-key decision of `ensure_env_values`
  // ---------------------------------------------------------------------

  /** `os.getenv(key) or existing.get(key)`, with the empty string standing
      for `None`: an empty variable in the environment falls through to the
      file. */
  function Lookup(key: string, environ: map<string, string>, existing: map<string, string>): string {
    if key in environ && environ[key] != [] then environ[key]
    else if key in existing then existing[key]
    else []
  }

  /** What one key yields: its plain value, and the token appended to the
      file, if any. */
  datatype Decision = Decision(plain: string, append: Option<string>)

  /** `answer` is what the prompt for this key reads, before stripping. */
  function Decide(val: string, answer: string, encrypt: string -> string, decrypt: string -> string): (d: Decision)
    ensures d.append.Some? ==> d.append.value == encrypt(d.plain)
    ensures d.append.None? <==> val != [] && StartsWith(val, EncryptedPrefix)
    ensures val != [] && !StartsWith(val, EncryptedPrefix) ==> d.plain == val
    ensures val == [] ==> d.plain == Strip(answer)
  {
    if val == [] then Decision(Strip(answer), Some(encrypt(Strip(answer))))
    else if StartsWith(val, EncryptedPrefix) then Decision(decrypt(val), None)
    else Decision(val, Some(encrypt(val)))
  }

  function DecisionFor(key: string, environ: map<string, string>, existing: map<string, string>,
                       answers: string -> string, encrypt: string -> string, decrypt: string -> string): Decision {
    Decide(Lookup(key, environ, existing), answers(key), encrypt, decrypt)
  }

  /** The lines `f.write(f"\n{key}={enc}\n")` adds. */
  function EntryLines(key: string, enc: string): seq<string> {
    ["", key + "=" + enc]
  }

  /** The lines appended while handling `keys` in order. */
  function Appended(keys: seq<string>, environ: map<string, string>, existing: map<string, string>,
                    answers: string -> string, encrypt: string -> string, decrypt: string -> string): seq<string> {
    if keys == [] then []
    else
      var k := keys[|keys| - 1];
      Appended(keys[..|keys| - 1], environ, existing, answers, encrypt, decrypt)
      + AppendedFor(k, environ, existing, answers, encrypt, decrypt)
  }

  /** The lines appended for one key. */
  function AppendedFor(key: string, environ: map<string, string>, existing: map<string, string>,
                       answers: string -> string, encrypt: string -> string, decrypt: string -> string): seq<string> {
    match DecisionFor(key, environ, existing, answers, encrypt, decrypt).append
    case Some(enc) => EntryLines(key, enc)
    case None => []
  }

  /** The returned `env_data`. */
  function EnvData(keys: seq<string>, environ: map<string, string>, existing: map<string, string>,
                   answers: string -> string, encrypt: string -> string, decrypt: string -> string): (r: map<string, string>)
    ensures r.Keys == set k | k in keys
  {
    map k | k in keys :: DecisionFor(k, environ, existing, answers, encrypt, decrypt).plain
  }

  /** Handling one more key. */
  lemma AppendedSnoc(keys: seq<string>, key: string, environ: map<string, string>, existing: map<string, string>,
                 answers: string -> string, encrypt: string -> string, decrypt: string -> string)
    ensures Appended(keys + [key], environ, existing, answers, encrypt, decrypt)
            == Appended(keys, environ, existing, answers, encrypt, decrypt) + AppendedFor(key, environ, existing, answers, encrypt, decrypt)
  {
    assert (keys + [key])[..|keys|] == keys;
  }

  lemma EnvDataSnoc(keys: seq<string>, key: string, environ: map<string, string>, existing: map<string, string>,
                    answers: string -> string, encrypt: string -> string, decrypt: string -> string)
    ensures EnvData(keys + [key], environ, existing, answers, encrypt, decrypt)
            == EnvData(keys, environ, existing, answers, encrypt, decrypt)[key := DecisionFor(key, environ, existing, answers, encrypt, decrypt).plain]
  {
  }

  /** The file's lines; a missing file reads as none. */
  function LinesOf(file: Option<seq<string>>): seq<string> {
    if file.None? then [] else file.value
  }

  /** What the reader finds in the file; a missing file gives `{}`. */
  function ExistingOf(file: Option<seq<string>>): map<string, string> {
    ParseEnv(LinesOf(file))
  }

  /** Appending creates a missing file; appending nothing leaves it alone. */
  function AppendTo(file: Option<seq<string>>, more: seq<string>): Option<seq<string>> {
    if more == [] then file else Some(LinesOf(file) + more)
  }

  lemma AppendToTwice(file: Option<seq<string>>, x: seq<string>, y: seq<string>)
    ensures AppendTo(AppendTo(file, x), y) == AppendTo(file, x + y)
  {
    if x != [] && y != [] {
      assert LinesOf(file) + x + y == LinesOf(file) + (x + y);
    } else if x == [] {
      assert x + y == y;
    } else {
      assert x + y == x;
    }
  }

  class EnvFile {
    var lines: Option<seq<string>>

    constructor (file: Option<seq<string>>)
      ensures lines == file
    {
      lines := file;
    }

    /** `_read_key_from_envfile` */
    method ReadEncryptionKey() returns (key: Option<string>)
      ensures lines.None? ==> key.None?
      ensures lines.Some? ==> key == KeyFromLines(lines.value)
    {
      if lines.None? {
        return None;
      }
      var ls := lines.value;
      var i := 0;
      while i < |ls|
        invariant 0 <= i <= |ls|
        invariant KeyFromLines(ls) == KeyFromLines(ls[i..])
      {
        KeyFromLinesStep(ls, i);
        var line := Strip(ls[i]);
        if Ignored(line) {
          i := i + 1;
          continue;
        }
        if StartsWith(line, KeyLinePrefix) {
          return Some(Strip(line[|KeyLinePrefix|..]));
        }
        i := i + 1;
      }
      return None;
    }

    /** The reading loop at the start of `ensure_env_values`. */
    method ReadExisting() returns (existing: map<string, string>)
      ensures existing == ExistingOf(lines)
    {
      existing := map[];
      if lines.None? {
        return;
      }
      var ls := lines.value;
      for i := 0 to |ls|
        invariant existing == ParseEnv(ls[..i])
      {
        assert ls[..i + 1] == ls[..i] + [ls[i]];
        ParseEnvSnoc(ls[..i], ls[i]);
        var line := Strip(ls[i]);
        if line == [] || StartsWith(line, "#") || FirstEq(line).None? {
          continue;
        }
        var e := FirstEq(line).value;
        existing := existing[Strip(line[..e]) := Strip(line[e + 1..])];
      }
      assert ls[..|ls|] == ls;
    }

    /** One `f.write(f"\n{key}={enc}\n")` in append mode. */
    method AppendEntry(key: string, enc: string)
      modifies this
      ensures lines == Some(LinesOf(old(lines)) + EntryLines(key, enc))
    {
      lines := Some(LinesOf(lines) + EntryLines(key, enc));
    }

    /** One pass of the loop in `ensure_env_values`: the value for `key`,
        and the entry appended for it. */
    method HandleKey(key: string, environ: map<string, string>, existing: map<string, string>,
                     answers: string -> string, encrypt: string -> string, decrypt: string -> string)
      returns (plain: string)
      modifies this
      ensures plain == DecisionFor(key, environ, existing, answers, encrypt, decrypt).plain
      ensures lines == AppendTo(old(lines), AppendedFor(key, environ, existing, answers, encrypt, decrypt))
    {
      var val := Lookup(key, environ, existing);
      if val == [] {
        var newVal := Strip(answers(key));
        var enc := encrypt(newVal);
        AppendEntry(key, enc);
        return newVal;
      }
      if StartsWith(val, EncryptedPrefix) {
        return decrypt(val);
      }
      var enc := encrypt(val);
      AppendEntry(key, enc);
      return val;
    }

    /** The loop of `ensure_env_values` over `keys`, with `existing` read
        beforehand. */
    method HandleKeys(keys: seq<string>, environ: map<string, string>, existing: map<string, string>,
                      answers: string -> string, encrypt: string -> string, decrypt: string -> string)
      returns (envData: map<string, string>)
      modifies this
      ensures envData == EnvData(keys, environ, existing, answers, encrypt, decrypt)
      ensures lines == AppendTo(old(lines), Appended(keys, environ, existing, answers, encrypt, decrypt))
    {
      ghost var start := lines;
      envData := map[];
      for i := 0 to |keys|
        invariant lines == AppendTo(start, Appended(keys[..i], environ, existing, answers, encrypt, decrypt))
        invariant envData == EnvData(keys[..i], environ, existing, answers, encrypt, decrypt)
      {
        var key := keys[i];
        var plain := HandleKey(key, environ, existing, answers, encrypt, decrypt);
        envData := envData[key := plain];
        KeyStep(start, keys, i, environ, existing, answers, encrypt, decrypt);
      }
      assert keys[..|keys|] == keys;
    }

    /** `ensure_env_values`; `answers(key)` is what the prompt for `key`
        would read. */
    method EnsureEnvValues(environ: map<string, string>, answers: string -> string,
                           encrypt: string -> string, decrypt: string -> string)
      returns (envData: map<string, string>)
      modifies this
      ensures envData == EnvData(SensitiveKeys, environ, ExistingOf(old(lines)), answers, encrypt, decrypt)
      ensures lines == AppendTo(old(lines), Appended(SensitiveKeys, environ, ExistingOf(old(lines)), answers, encrypt, decrypt))
    {
      var existing := ReadExisting();
      envData := HandleKeys(SensitiveKeys, environ, existing, answers, encrypt, decrypt);
    }
  }

  /** Handling `keys[i]` extends what the first `i` keys appended and
      returned. */
  lemma KeyStep(start: Option<seq<string>>, keys: seq<string>, i: nat, environ: map<string, string>, existing: map<string, string>,
                answers: string -> string, encrypt: string -> string, decrypt: string -> string)
    requires i < |keys|
    ensures AppendTo(AppendTo(start, Appended(keys[..i], environ, existing, answers, encrypt, decrypt)),
                     AppendedFor(keys[i], environ, existing, answers, encrypt, decrypt))
            == AppendTo(start, Appended(keys[..i + 1], environ, existing, answers, encrypt, decrypt))
    ensures EnvData(keys[..i], environ, existing, answers, encrypt, decrypt)[keys[i] := DecisionFor(keys[i], environ, existing, answers, encrypt, decrypt).plain]
            == EnvData(keys[..i + 1], environ, existing, answers, encrypt, decrypt)
  {
    var key := keys[i];
    assert keys[..i + 1] == keys[..i] + [key];
    AppendedSnoc(keys[..i], key, environ, existing, answers, encrypt, decrypt);
    EnvDataSnoc(keys[..i], key, environ, existing, answers, encrypt, decrypt);
    AppendToTwice(start, Appended(keys[..i], environ, existing, answers, encrypt, decrypt),
                  AppendedFor(key, environ, existing, answers, encrypt, decrypt));
  }

  // ---------------------------------------------------------------------
  // Restarting
  // ---------------------------------------------------------------------

  /** What the model asks of Fernet: decryption undoes encryption, and a
      token is a whitespace-free string with the usual prefix. */
  ghost predicate RoundTrips(encrypt: string -> string, decrypt: string -> string) {
    forall x :: decrypt(encrypt(x)) == x && StartsWith(encrypt(x), EncryptedPrefix) && NoSpace(encrypt(x))
  }

  /** A key name that reads back as itself from a `key=value` line. */
  predicate PlainKey(k: string) {
    k != [] && NoSpace(k) && k[0] != '#' && forall i :: 0 <= i < |k| ==> k[i] != '='
  }

  /** An environment-variable style name: capitals and underscores. */
  predicate UpperName(k: string) {
    k != [] && forall i :: 0 <= i < |k| ==> ('A' <= k[i] <= 'Z') || k[i] == '_'
  }

  lemma UpperNameIsPlain(k: string)
    requires UpperName(k)
    ensures PlainKey(k)
  {
  }

  lemma SensitiveKeysArePlain()
    ensures forall k :: k in SensitiveKeys ==> PlainKey(k)
  {
    forall k | k in SensitiveKeys
      ensures PlainKey(k)
    {
      UpperNameIsPlain(k);
    }
  }

  /** A `key=token` line reads back as the key and token written. */
  lemma EntryLineReadsBack(k: string, enc: string)
    requires PlainKey(k) && enc != [] && NoSpace(enc)
    ensures LineEntry(k + "=" + enc) == Some((k, enc))
  {
    var l := k + "=" + enc;
    assert NoSpace(l);
    StripNoSpace(l);
    assert l[0] == k[0];
    assert FirstEq(l) == Some(|k|) by {
      assert l[|k|] == '=';
      assert forall j :: 0 <= j < |k| ==> l[j] == k[j];
    }
    assert l[..|k|] == k && l[|k| + 1..] == enc;
    StripNoSpace(k);
    StripNoSpace(enc);
  }

  /** The appended entry reads back as the key and token written. */
  lemma EntryLinesReadBack(k: string, enc: string)
    requires PlainKey(k) && enc != [] && NoSpace(enc)
    ensures ParseEnv(EntryLines(k, enc)) == map[k := enc]
  {
    EntryLineReadsBack(k, enc);
    assert LineEntry("") == None;
    var es := Entries(EntryLines(k, enc));
    assert es == [None, Some((k, enc))];
    assert es[..1] == [None] && es[..1][..0] == [];
    assert Fill(es[..1]) == map[];
  }

  /** Reading back what was appended gives each appended key its token. */
  lemma {:induction false} AppendedReadsBack(keys: seq<string>, environ: map<string, string>, existing: map<string, string>,
                                             answers: string -> string, encrypt: string -> string, decrypt: string -> string)
    requires RoundTrips(encrypt, decrypt)
    requires forall k :: k in keys ==> PlainKey(k)
    ensures forall k :: k in ParseEnv(Appended(keys, environ, existing, answers, encrypt, decrypt)) <==>
              k in keys && DecisionFor(k, environ, existing, answers, encrypt, decrypt).append.Some?
    ensures forall k :: k in ParseEnv(Appended(keys, environ, existing, answers, encrypt, decrypt)) ==>
              ParseEnv(Appended(keys, environ, existing, answers, encrypt, decrypt))[k]
              == DecisionFor(k, environ, existing, answers, encrypt, decrypt).append.value
    decreases |keys|
  {
    if keys != [] {
      var init := keys[..|keys| - 1];
      var k := keys[|keys| - 1];
      assert forall x :: x in keys <==> x in init || x == k;
      AppendedReadsBack(init, environ, existing, answers, encrypt, decrypt);
      var d := DecisionFor(k, environ, existing, answers, encrypt, decrypt);
      ParseEnvConcat(Appended(init, environ, existing, answers, encrypt, decrypt),
                     AppendedFor(k, environ, existing, answers, encrypt, decrypt));
      if d.append.Some? {
        assert StartsWith(d.append.value, EncryptedPrefix);
        EntryLinesReadBack(k, d.append.value);
      }
    }
  }

  /** Appended entries override what the file held. */
  lemma ExistingAfterAppend(file: Option<seq<string>>, more: seq<string>)
    ensures ExistingOf(AppendTo(file, more)) == ExistingOf(file) + ParseEnv(more)
  {
    if more != [] {
      ParseEnvConcat(LinesOf(file), more);
    } else {
      assert ParseEnv(more) == map[];
    }
  }

  /** One key on the next start: `existing'` is what the next start reads,
      and it holds the token appended for the key, or else what the file
      held before. */
  lemma RestartKey(k: string, environ: map<string, string>, existing: map<string, string>, existing': map<string, string>,
                   answers: string -> string, later: string -> string, encrypt: string -> string, decrypt: string -> string)
    requires RoundTrips(encrypt, decrypt)
    requires var d := DecisionFor(k, environ, existing, answers, encrypt, decrypt);
             (d.append.Some? ==> k in existing' && existing'[k] == d.append.value)
             && (d.append.None? ==> (k in existing' <==> k in existing) && (k in existing ==> existing'[k] == existing[k]))
    ensures Lookup(k, environ, existing') != []
    ensures DecisionFor(k, environ, existing', later, encrypt, decrypt).plain
            == DecisionFor(k, environ, existing, answers, encrypt, decrypt).plain
    ensures DecisionFor(k, environ, existing', later, encrypt, decrypt).append.Some? <==>
            k in environ && environ[k] != [] && !StartsWith(environ[k], EncryptedPrefix)
  {
    var d := DecisionFor(k, environ, existing, answers, encrypt, decrypt);
    if d.append.Some? && !(k in environ && environ[k] != []) {
      assert StartsWith(d.append.value, EncryptedPrefix);
    }
  }

  /** `RestartKey` for a next start that reads the old entries overridden
      by the parsed appended lines `parsed`. */
  lemma RestartKeyAfterAppend(k: string, environ: map<string, string>, existing: map<string, string>, parsed: map<string, string>,
                              answers: string -> string, later: string -> string, encrypt: string -> string, decrypt: string -> string)
    requires RoundTrips(encrypt, decrypt)
    requires var d := DecisionFor(k, environ, existing, answers, encrypt, decrypt);
             (k in parsed <==> d.append.Some?) && (k in parsed ==> parsed[k] == d.append.value)
    ensures Lookup(k, environ, existing + parsed) != []
    ensures DecisionFor(k, environ, existing + parsed, later, encrypt, decrypt).plain
            == DecisionFor(k, environ, existing, answers, encrypt, decrypt).plain
    ensures DecisionFor(k, environ, existing + parsed, later, encrypt, decrypt).append.Some? <==>
            k in environ && environ[k] != [] && !StartsWith(environ[k], EncryptedPrefix)
  {
    RestartKey(k, environ, existing, existing + parsed, answers, later, encrypt, decrypt);
  }

  /** Two runs that agree on every key's value return the same `env_data`. */
  lemma EnvDataAgree(keys: seq<string>, environ: map<string, string>,
                     existing: map<string, string>, answers: string -> string,
                     existing': map<string, string>, answers': string -> string,
                     encrypt: string -> string, decrypt: string -> string)
    requires forall k :: k in keys ==>
               DecisionFor(k, environ, existing', answers', encrypt, decrypt).plain
               == DecisionFor(k, environ, existing, answers, encrypt, decrypt).plain
    ensures EnvData(keys, environ, existing', answers', encrypt, decrypt) == EnvData(keys, environ, existing, answers, encrypt, decrypt)
  {
  }

  /** After a run, the next start (same environment, the file as the run
      left it) prompts for nothing and yields the same values; it appends
      again only for values given in plain text through the environment. */
  lemma RestartIsStable(file: Option<seq<string>>, environ: map<string, string>,
                        answers: string -> string, later: string -> string,
                        encrypt: string -> string, decrypt: string -> string)
    requires RoundTrips(encrypt, decrypt)
    ensures var existing := ExistingOf(file);
            var file' := AppendTo(file, Appended(SensitiveKeys, environ, existing, answers, encrypt, decrypt));
            var existing' := ExistingOf(file');
            (forall k :: k in SensitiveKeys ==> Lookup(k, environ, existing') != [])
            && EnvData(SensitiveKeys, environ, existing', later, encrypt, decrypt)
               == EnvData(SensitiveKeys, environ, existing, answers, encrypt, decrypt)
            && (forall k :: k in SensitiveKeys ==>
                  (DecisionFor(k, environ, existing', later, encrypt, decrypt).append.Some? <==>
                   k in environ && environ[k] != [] && !StartsWith(environ[k], EncryptedPrefix)))
  {
    var existing := ExistingOf(file);
    var app := Appended(SensitiveKeys, environ, existing, answers, encrypt, decrypt);
    var parsed := ParseEnv(app);
    SensitiveKeysArePlain();
    AppendedReadsBack(SensitiveKeys, environ, existing, answers, encrypt, decrypt);
    ExistingAfterAppend(file, app);
    forall k | k in SensitiveKeys
      ensures Lookup(k, environ, existing + parsed) != []
      ensures DecisionFor(k, environ, existing + parsed, later, encrypt, decrypt).plain
              == DecisionFor(k, environ, existing, answers, encrypt, decrypt).plain
      ensures DecisionFor(k, environ, existing + parsed, later, encrypt, decrypt).append.Some? <==>
              k in environ && environ[k] != [] && !StartsWith(environ[k], EncryptedPrefix)
    {
      RestartKeyAfterAppend(k, environ, existing, parsed, answers, later, encrypt, decrypt);
    }
    EnvDataAgree(SensitiveKeys, environ, existing, answers, existing + parsed, later, encrypt, decrypt);
  }
}

=== FILE: ServerManager.dfy ===
/** The server supervisor of src/server_manager.py: the table
    `server_processes` (server name to tracked process) and the set
    `daily_stopped_servers`, and what starting, stopping, recovering and
    one pass of the monitor loop do to them.

    The rest of the world enters as parameters: `Env` holds the tables of
    src/paths.py as just reloaded, the loaded configuration and the disk;
    `alive` is the set of running PIDs; the outcome of `subprocess.Popen`
    is the PID it would give, or nothing when it raises; the outcome of
    signalling a process is a boolean. */
module ServerManager {
  import opened Util
  import opened Json
  import ConfigStore
  import Paths
  import PidCache
  import ExeSearch

  /** `SERVER_PATHS`, `SERVER_CONFIGS`, the loaded configuration, the disk. */
  datatype Env = Env(paths: map<string, string>, configs: map<string, Value>,
                     cfg: map<string, Value>, disk: ExeSearch.Disk)

  /** `SERVER_CONFIGS.get(name, {})` */
  function SettingsOf(env: Env, name: string): Value {
    if name in env.configs then env.configs[name] else Object(map[])
  }

  /** `_normalize_params(p)` */
  function NormalizeParams(p: Value): (r: seq<string>)
    ensures p.Null? ==> r == []
    ensures p.List? ==> |r| == |p.items| && forall i :: 0 <= i < |r| ==> r[i] == ToStr(p.items[i])
    ensures p.Str? ==> r == Split(p.s) && forall i :: 0 <= i < |r| ==> r[i] != [] && NoSpace(r[i])
    ensures !(p.Null? || p.List? || p.Str?) ==> r == [ToStr(p)]
  {
    match p
    case Null => []
    case List(xs) => seq(|xs|, i requires 0 <= i < |xs| => ToStr(xs[i]))
    case Str(s) => Split(s)
    case _ => [ToStr(p)]
  }

  /** A parameter string is split exactly at the spaces it was joined with. */
  lemma ParamsStringRoundTrip(args: seq<string>)
    requires forall i :: 0 <= i < |args| ==> args[i] != [] && NoSpace(args[i])
    ensures NormalizeParams(Str(JoinSpace(args))) == args
  {
    SplitJoinSpace(args);
  }

  /** A parameter string is cut at every run of whitespace: the arguments
      come back in order, whatever whitespace precedes, separates or
      follows them. */
  lemma ParamsSplitAtWhitespace(gaps: seq<string>, args: seq<string>)
    requires |gaps| == |args| + 1
    requires forall i :: 0 <= i < |args| ==> args[i] != [] && NoSpace(args[i])
    requires forall i :: 0 <= i < |gaps| ==> AllSpace(gaps[i])
    requires forall i :: 0 < i < |args| ==> gaps[i] != []
    ensures NormalizeParams(Str(Spaced(gaps, args))) == args
  {
    SplitSpaced(gaps, args);
  }

  /** Steps 1 and 2 of `_resolve_executable`: a truthy executable entry is
      joined to the base folder and used when that is a regular file. */
  function Candidate(base: string, exe: Value, disk: ExeSearch.Disk): ExeSearch.Resolved {
    if !Truthy(exe) then ExeSearch.NoExe
    else if !exe.Str? then ExeSearch.Raised
    else if Paths.PathJoin(base, exe.s) in disk.files then ExeSearch.Exe(Paths.PathJoin(base, exe.s))
    else ExeSearch.NoExe
  }

  /** `_resolve_executable(name)`: the settings entry, then the config entry,
      then the glob search below the server folder (sorted by whole path). */
  function ResolveExecutable(env: Env, name: string): ExeSearch.Resolved {
    if name !in env.paths || env.paths[name] == [] then ExeSearch.NoExe
    else
      var base := env.paths[name];
      var settings := SettingsOf(env, name);
      if !settings.Object? then ExeSearch.Raised
      else
        var fromSettings := Candidate(base, Get(settings.fields, "executable"), env.disk);
        if !fromSettings.NoExe? then fromSettings
        else
          var fromConfig := Candidate(base, Get(ConfigStore.ServerEntry(env.cfg, name), "executable"), env.disk);
          if !fromConfig.NoExe? then fromConfig
          else match ExeSearch.Search(false, base, ExeSearch.Listing(env.disk, base), env.disk.files)
            case Some(h) => ExeSearch.Exe(h)
            case None => ExeSearch.NoExe
  }

  /** Whatever is resolved is a regular file; with no settings or config
      entry it is the search result, so some `.exe` directly in the folder
      is found whenever one exists. */
  lemma ResolvedIsFile(env: Env, name: string)
    ensures ResolveExecutable(env, name).Exe? ==> ResolveExecutable(env, name).path in env.disk.files
    ensures name !in env.paths || env.paths[name] == [] ==> ResolveExecutable(env, name).NoExe?
    ensures name in env.paths && env.paths[name] != [] && !SettingsOf(env, name).Object? ==> ResolveExecutable(env, name).Raised?
    ensures name in env.paths && env.paths[name] != [] && SettingsOf(env, name).Object?
            && !Truthy(Get(SettingsOf(env, name).fields, "executable"))
            && !Truthy(Get(ConfigStore.ServerEntry(env.cfg, name), "executable")) ==>
              (ResolveExecutable(env, name).NoExe? <==>
                 forall n :: n in ExeSearch.Listing(env.disk, env.paths[name]) && ExeSearch.Matches(ExeSearch.AnyExe, n) ==>
                   Paths.PathJoin(env.paths[name], n) !in env.disk.files)
  {
    if name in env.paths && env.paths[name] != [] {
      ExeSearch.SearchFindsExe(false, env.paths[name], ExeSearch.Listing(env.disk, env.paths[name]), env.disk.files);
    }
  }

  /** A settings entry naming an existing file wins over everything else. */
  lemma SettingsExecutableWins(env: Env, name: string, exe: string)
    requires name in env.paths && env.paths[name] != [] && SettingsOf(env, name).Object?
    requires Get(SettingsOf(env, name).fields, "executable") == Str(exe) && exe != []
    requires Paths.PathJoin(env.paths[name], exe) in env.disk.files
    ensures ResolveExecutable(env, name) == ExeSearch.Exe(Paths.PathJoin(env.paths[name], exe))
  {
  }

  /** The config entry is consulted only when the settings entry does not
      resolve (it is falsy or names no file); then a config entry naming
      an existing file wins over the search. */
  lemma ConfigExecutableWins(env: Env, name: string, exe: string)
    requires name in env.paths && env.paths[name] != [] && SettingsOf(env, name).Object?
    requires Candidate(env.paths[name], Get(SettingsOf(env, name).fields, "executable"), env.disk).NoExe?
    requires Get(ConfigStore.ServerEntry(env.cfg, name), "executable") == Str(exe) && exe != []
    requires Paths.PathJoin(env.paths[name], exe) in env.disk.files
    ensures ResolveExecutable(env, name) == ExeSearch.Exe(Paths.PathJoin(env.paths[name], exe))
  {
  }

  /** With neither entry resolving, the executable is the first hit of the
      glob search below the folder, or none. */
  lemma FallsBackToSearch(env: Env, name: string)
    requires name in env.paths && env.paths[name] != [] && SettingsOf(env, name).Object?
    requires Candidate(env.paths[name], Get(SettingsOf(env, name).fields, "executable"), env.disk).NoExe?
    requires Candidate(env.paths[name], Get(ConfigStore.ServerEntry(env.cfg, name), "executable"), env.disk).NoExe?
    ensures var hit := ExeSearch.Search(false, env.paths[name], ExeSearch.Listing(env.disk, env.paths[name]), env.disk.files);
            (ResolveExecutable(env, name).Exe? <==> hit.Some?)
            && (hit.Some? ==> ResolveExecutable(env, name).path == hit.value)
            && (hit.None? ==> ResolveExecutable(env, name).NoExe?)
  {
  }

  /** The result of `_server_command`. */
  datatype Command = Cmd(argv: seq<string>) | NoCmd | CmdRaised

  /** `_server_command(name)` */
  function ServerCommand(env: Env, name: string): Command {
    if name !in env.paths || env.paths[name] == [] then NoCmd
    else match ResolveExecutable(env, name)
      case Raised => CmdRaised
      case NoExe => NoCmd
      case Exe(p) =>
        if p == [] then NoCmd
        else Cmd([p] + NormalizeParams(GetOr(SettingsOf(env, name).fields, "parameters", List([]))))
  }

  /** A command exists iff the server has a folder and an executable; it is
      that executable, an existing file, followed by the parameters. */
  lemma ServerCommandShape(env: Env, name: string)
    ensures ServerCommand(env, name).CmdRaised? <==> ResolveExecutable(env, name).Raised?
    ensures ServerCommand(env, name).Cmd? <==>
              name in env.paths && env.paths[name] != [] && ResolveExecutable(env, name).Exe?
    ensures ServerCommand(env, name).Cmd? ==>
              var argv := ServerCommand(env, name).argv;
              argv != [] && argv[0] == ResolveExecutable(env, name).path && argv[0] in env.disk.files
              && argv[1..] == NormalizeParams(GetOr(SettingsOf(env, name).fields, "parameters", List([])))
  {
    ResolvedIsFile(env, name);
    if ResolveExecutable(env, name).Exe? {
      var p := ResolveExecutable(env, name).path;
      var base := env.paths[name];
      var settings := SettingsOf(env, name);
      var fromSettings := Candidate(base, Get(settings.fields, "executable"), env.disk);
      var fromConfig := Candidate(base, Get(ConfigStore.ServerEntry(env.cfg, name), "executable"), env.disk);
      if fromSettings.NoExe? && fromConfig.NoExe? {
        ExeSearch.SearchFindsExe(false, base, ExeSearch.Listing(env.disk, base), env.disk.files);
        var n :| n in ExeSearch.Listing(env.disk, base) && ExeSearch.Matches(ExeSearch.AnyExe, n) && p == Paths.PathJoin(base, n);
        assert p != [];
      }
    }
  }

  /** Does `load_server_paths` get through the configuration? It raises
      when `server_paths` is not an object or one of its entries is not an
      object with an `app_id`. */
  predicate PathsReload(env: Env) {
    var entries := GetOr(env.cfg, "server_paths", Object(map[]));
    entries.Object? && Paths.EntriesWellFormed(entries.fields)
  }

  /** Does `start_server` raise for a server that is not running? Both the
      reload of the tables and the command lookup run outside its `try`. */
  predicate StartRaises(env: Env, name: string) {
    !PathsReload(env) || (name in env.paths && ServerCommand(env, name).CmdRaised?)
  }

  /** Outcome of `start_server`: the result, the new table, whether a
      process was launched (the PID cache is rewritten exactly then), and
      whether the call raised instead of returning. */
  datatype StartResult = StartResult(ok: bool, procs: map<string, PidCache.Proc>, launched: bool, raised: bool)

  /** `start_server(name)`, where `env` holds the tables as its reload
      leaves them; `launch` is the PID `Popen` gives, or `None` when it
      raises (which the call catches). */
  function StartSpec(procs: map<string, PidCache.Proc>, name: string, env: Env, alive: set<int>, launch: Option<int>): (r: StartResult)
    ensures r.launched ==> r.ok && launch.Some? && r.procs == procs[name := PidCache.Proc(launch.value)]
    ensures !r.launched ==> r.procs == procs
    ensures r.raised ==> !r.ok && !r.launched
  {
    if !PathsReload(env) then StartResult(false, procs, false, true)
    else if name !in env.paths then StartResult(false, procs, false, false)
    else if name in procs && PidCache.IsRunning(procs[name], alive) then StartResult(true, procs, false, false)
    else match ServerCommand(env, name)
      case CmdRaised => StartResult(false, procs, false, true)
      case NoCmd => StartResult(false, procs, false, false)
      case Cmd(_) =>
        if launch.None? then StartResult(false, procs, false, false)
        else StartResult(true, procs[name := PidCache.Proc(launch.value)], true, false)
  }

  /** Starting is idempotent: once the launched process runs, starting
      again succeeds without launching anything. */
  lemma StartIdempotent(procs: map<string, PidCache.Proc>, name: string, env: Env, alive: set<int>, first: Option<int>, second: Option<int>)
    requires StartSpec(procs, name, env, alive, first).launched && first.value in alive
    ensures var s := StartSpec(procs, name, env, alive, first);
            StartSpec(s.procs, name, env, alive, second) == StartResult(true, s.procs, false, false)
  {
  }

  /** A start succeeds iff the server is known and is running already or
      was just launched from an existing executable; a running server is
      reported as started and left alone; the call raises exactly when the
      reload or the command lookup does; it never touches another server's
      entry. */
  lemma StartOutcome(procs: map<string, PidCache.Proc>, name: string, env: Env, alive: set<int>, launch: Option<int>)
    ensures var s := StartSpec(procs, name, env, alive, launch);
            (s.ok ==> name in env.paths && name in s.procs)
            && (s.ok && !s.launched ==> PidCache.IsRunning(procs[name], alive))
            && (s.launched ==> ServerCommand(env, name).Cmd? && ServerCommand(env, name).argv[0] in env.disk.files)
            && (PathsReload(env) && name in env.paths && name in procs && PidCache.IsRunning(procs[name], alive) ==>
                  s == StartResult(true, procs, false, false))
            && (s.raised <==>
                  (!PathsReload(env) ||
                   (name in env.paths && !(name in procs && PidCache.IsRunning(procs[name], alive)) && StartRaises(env, name))))
            && (forall m :: m != name ==> (m in s.procs <==> m in procs))
            && (forall m :: m != name && m in procs ==> s.procs[m] == procs[m])
  {
    ServerCommandShape(env, name);
  }

  /** Outcome of `stop_server`: the result, the new table, and whether the
      PID cache was rewritten. */
  datatype StopResult = StopResult(ok: bool, procs: map<string, PidCache.Proc>, saved: bool)

  /** `stop_server(name)`; `signalOk` is false when signalling the process
      raises something the inner handlers do not catch. */
  function StopSpec(procs: map<string, PidCache.Proc>, name: string, signalOk: bool): (r: StopResult)
    ensures r.saved == r.ok
  {
    if name !in procs then StopResult(false, procs, false)
    else StopResult(signalOk, procs - {name}, signalOk)
  }

  /** Stopping always drops the entry, whatever the result, and nothing
      else; it only fails on an untracked name or a failed signal. */
  lemma StopAlwaysDrops(procs: map<string, PidCache.Proc>, name: string, signalOk: bool)
    ensures name !in StopSpec(procs, name, signalOk).procs
    ensures forall m :: m != name ==> (m in StopSpec(procs, name, signalOk).procs <==> m in procs)
    ensures StopSpec(procs, name, signalOk).ok <==> name in procs && signalOk
    ensures name !in procs ==> StopSpec(procs, name, signalOk).procs == procs
    ensures StopSpec(procs, name, signalOk).procs == procs - {name}
  {
  }

  /** What `recover_running_servers` adopts from the PID cache: the entries
      whose PID is alive and whose name has a folder. */
  function Adopted(pids: map<string, int>, env: Env, alive: set<int>): (r: map<string, PidCache.Proc>)
    ensures forall n :: n in r <==> n in pids && pids[n] in alive && n in env.paths
    ensures forall n :: n in r ==> r[n] == PidCache.Proc(pids[n])
  {
    map n | n in pids && pids[n] in alive && n in env.paths :: PidCache.Proc(pids[n])
  }

  /** The part of `Adopted` that concerns the names in `names`. */
  function AdoptedAmong(pids: map<string, int>, env: Env, alive: set<int>, names: set<string>): map<string, PidCache.Proc> {
    map n | n in names && n in pids && pids[n] in alive && n in env.paths :: PidCache.Proc(pids[n])
  }

  /** Taking one more name into account adopts it, or nothing more. */
  lemma AdoptedAmongStep(pids: map<string, int>, env: Env, alive: set<int>, names: set<string>, name: string)
    requires name in pids && name !in names
    ensures pids[name] in alive && name in env.paths ==>
              AdoptedAmong(pids, env, alive, names + {name}) == AdoptedAmong(pids, env, alive, names)[name := PidCache.Proc(pids[name])]
    ensures !(pids[name] in alive && name in env.paths) ==>
              AdoptedAmong(pids, env, alive, names + {name}) == AdoptedAmong(pids, env, alive, names)
  {
  }

  /** Taking every cached name into account is `Adopted`. */
  lemma AdoptedAmongAll(pids: map<string, int>, env: Env, alive: set<int>, names: set<string>)
    requires names == pids.Keys
    ensures AdoptedAmong(pids, env, alive, names) == Adopted(pids, env, alive)
  {
  }

  /** Recovery never drops an entry, and every entry it adds or replaces is
      a live process of a known server taken from the cache. */
  lemma RecoveryOnlyAdoptsLive(procs: map<string, PidCache.Proc>, pids: map<string, int>, env: Env, alive: set<int>)
    ensures procs.Keys <= (procs + Adopted(pids, env, alive)).Keys
    ensures forall n :: n in procs + Adopted(pids, env, alive) && (n !in procs || (procs + Adopted(pids, env, alive))[n] != procs[n]) ==>
              n in pids && n in env.paths && PidCache.IsRunning((procs + Adopted(pids, env, alive))[n], alive)
  {
  }

  /** `SERVER_CONFIGS.get(name, {}).get(key, default)`; `None` when the
      settings are not an object. */
  function Setting(env: Env, name: string, key: string, default: Value): (r: Value)
    ensures !SettingsOf(env, name).Object? ==> r == Null
  {
    var s := SettingsOf(env, name);
    if s.Object? then GetOr(s.fields, key, default) else Null
  }

  /** Crash watch, for one dead process: is it restarted? A settings value
      that is not an object makes the lookup raise, which the loop catches
      without restarting. */
  predicate AutoRestart(env: Env, name: string) {
    SettingsOf(env, name).Object? && Truthy(Setting(env, name, "auto_restart", Bool(true)))
  }

  function LaunchOf(launches: map<string, int>, name: string): Option<int> {
    if name in launches then Some(launches[name]) else None
  }

  /** The process a `start_server` call for an untracked server leaves in
      the table, if any: one is launched iff the reload works, the server
      has a command and `Popen` succeeds. */
  function Relaunch(env: Env, name: string, launches: map<string, int>): Option<PidCache.Proc> {
    if PathsReload(env) && name in env.paths && ServerCommand(env, name).Cmd? && name in launches
    then Some(PidCache.Proc(launches[name])) else None
  }

  lemma StartUntracked(procs: map<string, PidCache.Proc>, name: string, env: Env, alive: set<int>, launches: map<string, int>)
    requires name !in procs
    ensures var s := StartSpec(procs, name, env, alive, LaunchOf(launches, name));
            (s.launched <==> Relaunch(env, name, launches).Some?)
            && (s.raised <==> StartRaises(env, name))
            && (s.launched ==> s.procs == procs[name := Relaunch(env, name, launches).value])
  {
  }

  /** The crash watch's verdict on one tracked entry: kept while it runs,
      otherwise gone or replaced by the restarted process. */
  function CrashWatchEntry(procs: map<string, PidCache.Proc>, name: string, env: Env, alive: set<int>, launches: map<string, int>): Option<PidCache.Proc>
    requires name in procs
  {
    if PidCache.IsRunning(procs[name], alive) then Some(procs[name])
    else if !AutoRestart(env, name) then None
    else Relaunch(env, name, launches)
  }

  /** The table after the crash watch. */
  function CrashWatchSpec(procs: map<string, PidCache.Proc>, env: Env, alive: set<int>, launches: map<string, int>): (r: map<string, PidCache.Proc>)
    ensures r.Keys <= procs.Keys
    ensures forall n :: n in procs && !PidCache.IsRunning(procs[n], alive) && !AutoRestart(env, n) ==> n !in r
  {
    map n | n in procs && CrashWatchEntry(procs, n, env, alive, launches).Some? :: CrashWatchEntry(procs, n, env, alive, launches).value
  }

  /** After the crash watch every tracked process is one that was running
      or one just launched for a dead entry whose settings allow a restart;
      no name is added. */
  lemma CrashWatchLeavesLiveOrRestarted(procs: map<string, PidCache.Proc>, env: Env, alive: set<int>, launches: map<string, int>)
    ensures CrashWatchSpec(procs, env, alive, launches).Keys <= procs.Keys
    ensures forall n :: n in CrashWatchSpec(procs, env, alive, launches) ==>
              var p := CrashWatchSpec(procs, env, alive, launches)[n];
              (p == procs[n] && PidCache.IsRunning(p, alive))
              || (!PidCache.IsRunning(procs[n], alive) && AutoRestart(env, n) && n in launches && p == PidCache.Proc(launches[n]))
    ensures forall n :: n in procs && PidCache.IsRunning(procs[n], alive) ==>
              n in CrashWatchSpec(procs, env, alive, launches) && CrashWatchSpec(procs, env, alive, launches)[n] == procs[n]
  {
  }

  /** The daily stop time of a server: `cfg.get("stop_time")`. For settings
      that are not an object the lookup raises instead (see `DailyHalts`). */
  function StopTime(env: Env, name: string): Value {
    Setting(env, name, "stop_time", Null)
  }

  /** Is the daily stop armed for this server (a truthy stop time)? */
  predicate Armed(env: Env, name: string) {
    Truthy(StopTime(env, name))
  }

  /** Does the daily stop fire for this server at `now` ("HH:MM")? */
  predicate Fires(env: Env, name: string, now: string, stopped: set<string>) {
    Armed(env, name) && StopTime(env, name) == Str(now) && name !in stopped
  }

  const Midnight: string := "00:00"

  /** `daily_stopped_servers` after the daily step: fired servers are
      added, and at midnight every armed server is taken out again, after
      the firing check. */
  function DailyStoppedSpec(env: Env, now: string, stopped: set<string>): (r: set<string>)
    ensures now != Midnight ==> stopped <= r
    ensures now == Midnight ==> r <= stopped
    ensures forall n :: n in r && n !in stopped ==> n in env.paths && Fires(env, n, now, stopped)
  {
    var fired := set n | n in env.paths && Fires(env, n, now, stopped);
    var armed := set n | n in env.paths && Armed(env, n);
    if now == Midnight then (stopped + fired) - armed else stopped + fired
  }

  /** The daily step's verdict on one server that fires: stopped, then
      restarted only when `restart_after_stop` is set and the launch works. */
  function DailyEntry(env: Env, name: string, launches: map<string, int>): Option<PidCache.Proc> {
    if !Truthy(Setting(env, name, "restart_after_stop", Bool(false))) then None
    else Relaunch(env, name, launches)
  }

  /** The table after the daily step. */
  function DailyProcsSpec(procs: map<string, PidCache.Proc>, env: Env, now: string, stopped: set<string>, launches: map<string, int>): (r: map<string, PidCache.Proc>)
    ensures forall n :: !(n in env.paths && Fires(env, n, now, stopped)) ==> SameEntry(r, procs, n)
    ensures forall n :: n in r && n in env.paths && Fires(env, n, now, stopped) ==>
              Truthy(Setting(env, n, "restart_after_stop", Bool(false))) && n in launches
  {
    (map n | n in procs && !(n in env.paths && Fires(env, n, now, stopped)) :: procs[n])
    + (map n | n in env.paths && Fires(env, n, now, stopped) && DailyEntry(env, n, launches).Some? ::
         DailyEntry(env, n, launches).value)
  }

  /** Does the daily step raise at this server? Nothing in the daily loop
      catches: `cfg.get` raises on settings that are not an object, and the
      restart after a fired stop raises when `start_server` does. The
      exception ends the whole `monitor_servers` task. */
  predicate DailyHalts(env: Env, name: string, now: string, stopped: set<string>) {
    !SettingsOf(env, name).Object?
    || (Fires(env, name, now, stopped) && Truthy(Setting(env, name, "restart_after_stop", Bool(false)))
        && StartRaises(env, name))
  }

  /** Two tables agree on the entry of `n`. */
  predicate SameEntry(a: map<string, PidCache.Proc>, b: map<string, PidCache.Proc>, n: string) {
    (n in a <==> n in b) && (n in a ==> a[n] == b[n])
  }

  /** The table `after` holds the daily step's verdict on server `n`: a
      fired server's entry is its verdict, any other entry is kept from
      `before`. */
  predicate DailyDone(before: map<string, PidCache.Proc>, after: map<string, PidCache.Proc>, env: Env, now: string,
                      stopped: set<string>, launches: map<string, int>, n: string) {
    if n in env.paths && Fires(env, n, now, stopped) then
      (n in after <==> DailyEntry(env, n, launches).Some?) && (n in after ==> after[n] == DailyEntry(env, n, launches).value)
    else SameEntry(after, before, n)
  }

  /** The mark of server `n` once the daily step has handled it: at
      midnight an armed server is unmarked, otherwise a fired server is
      marked and the old marks stay. */
  predicate DailyMarked(env: Env, now: string, stopped: set<string>, marks: set<string>, n: string) {
    n in marks <==>
      if now == Midnight then n in stopped && !(n in env.paths && Armed(env, n))
      else n in stopped || (n in env.paths && Fires(env, n, now, stopped))
  }

  /** The daily step's table at one server: the fired server's entry is
      its verdict, every other entry is kept. */
  lemma DailyProcsEntry(procs: map<string, PidCache.Proc>, env: Env, now: string, stopped: set<string>, launches: map<string, int>, n: string)
    ensures DailyDone(procs, DailyProcsSpec(procs, env, now, stopped, launches), env, now, stopped, launches, n)
  {
  }

  /** Two tables that both hold the verdict on `n` agree on it. */
  lemma DailyDoneAgree(before: map<string, PidCache.Proc>, a: map<string, PidCache.Proc>, b: map<string, PidCache.Proc>,
                       env: Env, now: string, stopped: set<string>, launches: map<string, int>, n: string)
    requires DailyDone(before, a, env, now, stopped, launches, n) && DailyDone(before, b, env, now, stopped, launches, n)
    ensures SameEntry(a, b, n)
  {
  }

  /** A server whose settings are not an object stops the daily step for
      every server, and a pass at the stop time of a server that is to be
      restarted stops it when the tables cannot be reloaded. */
  lemma DailyHaltCauses(env: Env, now: string, stopped: set<string>, name: string)
    requires name in env.paths
    ensures !SettingsOf(env, name).Object? ==> DailyHalts(env, name, now, stopped)
    ensures (Fires(env, name, now, stopped) && Truthy(Setting(env, name, "restart_after_stop", Bool(false)))
             && !PathsReload(env)) ==> DailyHalts(env, name, now, stopped)
    ensures SettingsOf(env, name).Object? && !Fires(env, name, now, stopped) ==> !DailyHalts(env, name, now, stopped)
  {
  }

  /** Membership in the marked set after the daily step, server by server. */
  lemma DailyStoppedMember(env: Env, now: string, stopped: set<string>, n: string)
    ensures DailyMarked(env, now, stopped, DailyStoppedSpec(env, now, stopped), n)
  {
  }

  /** The daily step's table, server by server. */
  lemma DailyProcsByEntry(r: map<string, PidCache.Proc>, procs: map<string, PidCache.Proc>, env: Env, now: string, stopped: set<string>, launches: map<string, int>)
    requires forall n :: DailyDone(procs, r, env, now, stopped, launches, n)
    ensures r == DailyProcsSpec(procs, env, now, stopped, launches)
  {
    var s := DailyProcsSpec(procs, env, now, stopped, launches);
    forall n ensures (n in r <==> n in s) && (n in r ==> r[n] == s[n]) {
      DailyProcsEntry(procs, env, now, stopped, launches, n);
      DailyDoneAgree(procs, r, s, env, now, stopped, launches, n);
    }
  }

  /** Once every server has been handled without raising, the table, the
      marks and the servers sent to `run_update` are the daily step's. */
  lemma DailyAllDone(procs: map<string, PidCache.Proc>, r: map<string, PidCache.Proc>, stopped: set<string>, marks: set<string>,
                     updated: set<string>, env: Env, now: string, launches: map<string, int>)
    requires forall n :: n !in env.paths ==> SameEntry(r, procs, n) && (n in marks <==> n in stopped)
    requires forall n :: n in env.paths ==>
               DailyDone(procs, r, env, now, stopped, launches, n) && DailyMarked(env, now, stopped, marks, n)
    requires forall n :: n in updated <==>
               n in env.paths && Fires(env, n, now, stopped) && Truthy(Setting(env, n, "auto_update", Bool(true)))
    ensures r == DailyProcsSpec(procs, env, now, stopped, launches)
    ensures marks == DailyStoppedSpec(env, now, stopped)
    ensures updated == DailyUpdatesSpec(env, now, stopped)
  {
    DailyProcsByEntry(r, procs, env, now, stopped, launches);
    forall n ensures n in marks <==> n in DailyStoppedSpec(env, now, stopped) {
      DailyStoppedMember(env, now, stopped, n);
    }
  }

  /** The servers for which the daily step calls `run_update`: every fired
      server whose `auto_update` is set (the default), since the stop has
      just removed it from the table. */
  function DailyUpdatesSpec(env: Env, now: string, stopped: set<string>): set<string> {
    set n | n in env.paths && Fires(env, n, now, stopped) && Truthy(Setting(env, n, "auto_update", Bool(true)))
  }

  /** Outside midnight the daily stop fires at most once: a second pass in
      the same minute finds every server that fired already marked. */
  lemma DailyStopFiresOnce(env: Env, now: string, stopped: set<string>, name: string)
    requires now != Midnight && name in env.paths && Fires(env, name, now, stopped)
    ensures name in DailyStoppedSpec(env, now, stopped)
    ensures !Fires(env, name, now, DailyStoppedSpec(env, now, stopped))
  {
  }

  /** Midnight re-arms: after a pass at "00:00" no armed server is marked,
      so one whose stop time is "00:00" fires again on the next pass in the
      same minute. */
  lemma MidnightRearms(env: Env, stopped: set<string>, name: string)
    requires name in env.paths && Armed(env, name)
    ensures name !in DailyStoppedSpec(env, Midnight, stopped)
    ensures StopTime(env, name) == Str(Midnight) ==> Fires(env, name, Midnight, DailyStoppedSpec(env, Midnight, stopped))
  {
  }

  /** A server the daily step fires for is not tracked afterwards unless
      it is restarted; it is updated iff `auto_update` is set; a server it
      does not fire for keeps its entry. */
  lemma DailyStepEffect(procs: map<string, PidCache.Proc>, env: Env, now: string, stopped: set<string>, alive: set<int>, launches: map<string, int>, name: string)
    ensures var r := DailyProcsSpec(procs, env, now, stopped, launches);
            (name in env.paths && Fires(env, name, now, stopped) ==>
               (name in r <==> Truthy(Setting(env, name, "restart_after_stop", Bool(false))) && name in launches
                               && PathsReload(env) && ServerCommand(env, name).Cmd?)
               && (name in DailyUpdatesSpec(env, now, stopped) <==> Truthy(Setting(env, name, "auto_update", Bool(true)))))
            && (!(name in env.paths && Fires(env, name, now, stopped)) ==>
               (name in r <==> name in procs) && (name in procs ==> r[name] == procs[name]))
  {
  }

  class Supervisor {
    var processes: map<string, PidCache.Proc>
    var dailyStopped: set<string>
    const pidFile: PidCache.PidCacheFile

    constructor (pidFile: PidCache.PidCacheFile)
      ensures processes == map[] && dailyStopped == {} && this.pidFile == pidFile
    {
      processes, dailyStopped := map[], {};
      this.pidFile := pidFile;
    }

    /** `start_server`; `raised` says that the call raised. */
    method Start(name: string, env: Env, alive: set<int>, launch: Option<int>) returns (ok: bool, raised: bool)
      modifies this, pidFile
      ensures dailyStopped == old(dailyStopped)
      ensures var s := StartSpec(old(processes), name, env, alive, launch);
              ok == s.ok && raised == s.raised && processes == s.procs
              && (s.launched ==> pidFile.file == PidCache.Saved(PidCache.RunningPids(processes, alive)))
              && (!s.launched ==> pidFile.file == old(pidFile.file))
    {
      if !PathsReload(env) {
        return false, true;
      }
      if name !in env.paths {
        return false, false;
      }
      if name in processes && processes[name].pid in alive {
        return true, false;
      }
      var cmd := ServerCommand(env, name);
      if cmd.CmdRaised? {
        return false, true;
      }
      if cmd.NoCmd? {
        return false, false;
      }
      match launch {
        case None =>
          return false, false;
        case Some(pid) =>
          processes := processes[name := PidCache.Proc(pid)];
          pidFile.Save(processes, alive);
          return true, false;
      }
    }

    /** `stop_server` */
    method Stop(name: string, alive: set<int>, signalOk: bool) returns (ok: bool)
      modifies this, pidFile
      ensures dailyStopped == old(dailyStopped)
      ensures var s := StopSpec(old(processes), name, signalOk);
              ok == s.ok && processes == s.procs
              && (s.saved ==> pidFile.file == PidCache.Saved(PidCache.RunningPids(processes, alive)))
              && (!s.saved ==> pidFile.file == old(pidFile.file))
    {
      if name !in processes {
        return false;
      }
      processes := processes - {name};
      if !signalOk {
        return false;
      }
      pidFile.Save(processes, alive);
      return true;
    }

    /** `recover_running_servers`, given what `load_pids` returned. */
    method Recover(pids: map<string, int>, env: Env, alive: set<int>)
      modifies this
      ensures dailyStopped == old(dailyStopped)
      ensures processes == old(processes) + Adopted(pids, env, alive)
    {
      var todo := pids.Keys;
      while todo != {}
        invariant todo <= pids.Keys
        invariant dailyStopped == old(dailyStopped)
        invariant processes == old(processes) + AdoptedAmong(pids, env, alive, pids.Keys - todo)
        decreases todo
      {
        var name :| name in todo;
        AdoptedAmongStep(pids, env, alive, pids.Keys - todo, name);
        var pid := pids[name];
        if pid in alive && name in env.paths {
          processes := processes[name := PidCache.Proc(pid)];
        }
        todo := todo - {name};
      }
      AdoptedAmongAll(pids, env, alive, pids.Keys - todo);
    }

    /** The crash watch of one pass of `monitor_servers`. */
    method CrashWatch(env: Env, alive: set<int>, launches: map<string, int>)
      modifies this, pidFile
      ensures dailyStopped == old(dailyStopped)
      ensures processes == CrashWatchSpec(old(processes), env, alive, launches)
    {
      var names := processes.Keys;
      var todo := names;
      while todo != {}
        invariant todo <= names
        invariant dailyStopped == old(dailyStopped)
        invariant names == old(processes).Keys
        invariant forall n :: n in todo ==> n in processes && processes[n] == old(processes)[n]
        invariant forall n :: n in processes ==> n in names
        invariant forall n :: n in names && n !in todo ==>
                    (n in processes <==> CrashWatchEntry(old(processes), n, env, alive, launches).Some?)
                    && (n in processes ==> processes[n] == CrashWatchEntry(old(processes), n, env, alive, launches).value)
        decreases todo
      {
        var name :| name in todo;
        if processes[name].pid !in alive {
          processes := processes - {name};
          if AutoRestart(env, name) {
            StartUntracked(processes, name, env, alive, launches);
            var _, _ := Start(name, env, alive, LaunchOf(launches, name));
          }
        }
        todo := todo - {name};
      }
    }

    /** The daily step for one server; `halted` says that it raised. */
    method DailyFor(name: string, env: Env, now: string, alive: set<int>, launches: map<string, int>, signalOk: bool)
      returns (update: bool, halted: bool)
      requires name in env.paths
      modifies this, pidFile
      ensures forall n :: n != name ==>
                SameEntry(processes, old(processes), n) && (n in dailyStopped <==> n in old(dailyStopped))
      ensures halted <==> DailyHalts(env, name, now, old(dailyStopped))
      ensures DailyDone(old(processes), processes, env, now, old(dailyStopped), launches, name)
      ensures update <==> Fires(env, name, now, old(dailyStopped)) && Truthy(Setting(env, name, "auto_update", Bool(true)))
      ensures !halted ==> DailyMarked(env, now, old(dailyStopped), dailyStopped, name)
      ensures halted ==>
                (name in dailyStopped <==> name in old(dailyStopped) || Fires(env, name, now, old(dailyStopped)))
    {
      update, halted := false, false;
      if !SettingsOf(env, name).Object? {
        halted := true;
        return;
      }
      var st := StopTime(env, name);
      if !Truthy(st) {
        return;
      }
      if st == Str(now) && name !in dailyStopped {
        if name in processes {
          var _ := Stop(name, alive, signalOk);
        }
        dailyStopped := dailyStopped + {name};
        if Truthy(Setting(env, name, "auto_update", Bool(true))) && name !in processes {
          update := true;
        }
        if Truthy(Setting(env, name, "restart_after_stop", Bool(false))) {
          StartUntracked(processes, name, env, alive, launches);
          var _, raised := Start(name, env, alive, LaunchOf(launches, name));
          if raised {
            halted := true;
            return;
          }
        }
      }
      if now == Midnight {
        dailyStopped := dailyStopped - {name};
      }
    }

    /** The daily step of one pass of `monitor_servers` at time `now`
        ("HH:MM"). Returns the servers `run_update` is called for, and
        whether the step raised. The servers are visited in any order; on
        the first that raises the step ends, leaving the rest untouched. */
    method DailyStep(env: Env, now: string, alive: set<int>, launches: map<string, int>, signalFails: set<string>)
      returns (updated: set<string>, halted: bool)
      modifies this, pidFile
      ensures halted <==> exists n :: n in env.paths && DailyHalts(env, n, now, old(dailyStopped))
      ensures !halted ==> processes == DailyProcsSpec(old(processes), env, now, old(dailyStopped), launches)
      ensures !halted ==> dailyStopped == DailyStoppedSpec(env, now, old(dailyStopped))
      ensures !halted ==> updated == DailyUpdatesSpec(env, now, old(dailyStopped))
      ensures halted ==> forall n ::
                SameEntry(processes, old(processes), n)
                || SameEntry(processes, DailyProcsSpec(old(processes), env, now, old(dailyStopped), launches), n)
      ensures halted ==> forall n :: n in dailyStopped ==>
                n in old(dailyStopped) || (n in env.paths && Fires(env, n, now, old(dailyStopped)))
      ensures halted ==> updated <= DailyUpdatesSpec(env, now, old(dailyStopped))
    {
      updated, halted := {}, false;
      var names := env.paths.Keys;
      var todo := names;
      while todo != {}
        invariant todo <= names
        invariant forall n :: n in todo || n !in names ==>
                    SameEntry(processes, old(processes), n) && (n in dailyStopped <==> n in old(dailyStopped))
        invariant forall n :: n in names && n !in todo ==>
                    DailyDone(old(processes), processes, env, now, old(dailyStopped), launches, n)
                    && DailyMarked(env, now, old(dailyStopped), dailyStopped, n)
                    && !DailyHalts(env, n, now, old(dailyStopped))
        invariant forall n :: n in updated <==>
                    n in names && n !in todo && Fires(env, n, now, old(dailyStopped))
                    && Truthy(Setting(env, n, "auto_update", Bool(true)))
        decreases todo
      {
        var name :| name in todo;
        var update, raised := DailyFor(name, env, now, alive, launches, name !in signalFails);
        if update {
          updated := updated + {name};
        }
        if raised {
          halted := true;
          forall n ensures SameEntry(processes, old(processes), n)
                           || SameEntry(processes, DailyProcsSpec(old(processes), env, now, old(dailyStopped), launches), n)
          {
            if n in names && (n !in todo || n == name) {
              DailyProcsEntry(old(processes), env, now, old(dailyStopped), launches, n);
              DailyDoneAgree(old(processes), processes, DailyProcsSpec(old(processes), env, now, old(dailyStopped), launches),
                             env, now, old(dailyStopped), launches, n);
            }
          }
          return;
        }
        todo := todo - {name};
      }
      DailyAllDone(old(processes), processes, old(dailyStopped), dailyStopped, updated, env, now, launches);
    }

    /** One pass of `monitor_servers` after its sleep: crash watch, then
        the daily step. When `halted` the pass raised, which ends the
        monitor task: no later pass runs. */
    method Tick(env: Env, now: string, alive: set<int>, crashLaunches: map<string, int>,
                dailyLaunches: map<string, int>, signalFails: set<string>)
      returns (updated: set<string>, halted: bool)
      modifies this, pidFile
      ensures halted <==> exists n :: n in env.paths && DailyHalts(env, n, now, old(dailyStopped))
      ensures !halted ==> processes == DailyProcsSpec(CrashWatchSpec(old(processes), env, alive, crashLaunches),
                                                      env, now, old(dailyStopped), dailyLaunches)
      ensures !halted ==> dailyStopped == DailyStoppedSpec(env, now, old(dailyStopped))
      ensures !halted ==> updated == DailyUpdatesSpec(env, now, old(dailyStopped))
      ensures halted ==> updated <= DailyUpdatesSpec(env, now, old(dailyStopped))
    {
      CrashWatch(env, alive, crashLaunches);
      updated, halted := DailyStep(env, now, alive, dailyLaunches, signalFails);
    }

    /** `graceful_stop_all`: every tracked server is stopped; the table ends
        empty whatever the signals do. */
    method GracefulStopAll(alive: set<int>, signalFails: set<string>)
      modifies this, pidFile
      ensures processes == map[]
      ensures dailyStopped == old(dailyStopped)
    {
      var todo := processes.Keys;
      while todo != {}
        invariant processes.Keys <= todo
        invariant dailyStopped == old(dailyStopped)
        decreases todo
      {
        var name :| name in todo;
        var _ := Stop(name, alive, name !in signalFails);
        todo := todo - {name};
      }
    }
  }
}

=== FILE: SteamIntegration.dfy ===
/** SteamCMD updates (src/steam_integration.py): the post-install check
    (`_find_executable_in_dir`, `_install_looks_good`), the SteamCMD
    command line, and how the run's outcome becomes the `(ok, message)`
    pair of `run_update` and `run_update_with_credentials`.

    The SteamCMD run itself is a parameter: it either times out or exits
    with a code and its combined output. The walk of the install folder is
    the sequence of per-directory file counts `os.walk` produces; the
    elapsed time enters already formatted. */
module SteamIntegration {
  import opened Util
  import opened Json
  import Paths
  import ExeSearch

  /** `DEFAULT_TIMEOUT` when `STEAMCMD_TIMEOUT` is not set. */
  const DefaultTimeout: int := 7200

  /** `_find_executable_in_dir(install_dir, preferred)`: the preferred
      entry when it names a regular file, else the search (sorted by the
      last path component). A truthy non-string entry makes the join raise. */
  function FindExecutableInDir(installDir: string, preferred: Value, disk: ExeSearch.Disk): (r: ExeSearch.Resolved)
    ensures r.Raised? <==> Truthy(preferred) && !preferred.Str?
    ensures Truthy(preferred) && preferred.Str? && Paths.PathJoin(installDir, preferred.s) in disk.files ==>
              r == ExeSearch.Exe(Paths.PathJoin(installDir, preferred.s))
  {
    if Truthy(preferred) && !preferred.Str? then ExeSearch.Raised
    else if Truthy(preferred) && Paths.PathJoin(installDir, preferred.s) in disk.files then
      ExeSearch.Exe(Paths.PathJoin(installDir, preferred.s))
    else match ExeSearch.Search(true, installDir, ExeSearch.Listing(disk, installDir), disk.files)
      case Some(h) => ExeSearch.Exe(h)
      case None => ExeSearch.NoExe
  }

  /** What is found is a regular file; nothing is found iff neither the
      preferred entry nor any `.exe` entry of the folder is one. */
  lemma FindExecutableInDirSpec(installDir: string, preferred: Value, disk: ExeSearch.Disk)
    ensures FindExecutableInDir(installDir, preferred, disk).Exe? ==>
              FindExecutableInDir(installDir, preferred, disk).path in disk.files
    ensures !(Truthy(preferred) && !preferred.Str?) ==>
              (FindExecutableInDir(installDir, preferred, disk).NoExe? <==>
                 (!Truthy(preferred) || Paths.PathJoin(installDir, preferred.s) !in disk.files)
                 && forall n :: n in ExeSearch.Listing(disk, installDir) && ExeSearch.Matches(ExeSearch.AnyExe, n) ==>
                      Paths.PathJoin(installDir, n) !in disk.files)
  {
    ExeSearch.SearchFindsExe(true, installDir, ExeSearch.Listing(disk, installDir), disk.files);
  }

  /** The number of files a walk reports. */
  function Sum(counts: seq<nat>): nat {
    if counts == [] then 0 else Sum(counts[..|counts| - 1]) + counts[|counts| - 1]
  }

  lemma {:induction false} SumPrefixBelow(counts: seq<nat>, k: nat)
    requires k <= |counts|
    ensures Sum(counts[..k]) <= Sum(counts)
    decreases |counts| - k
  {
    if k < |counts| {
      SumPrefixBelow(counts, k + 1);
      assert counts[..k + 1][..k] == counts[..k];
    } else {
      assert counts[..k] == counts;
    }
  }

  /** The counting loop of `_install_looks_good`: it stops as soon as more
      than ten files are seen. */
  method CountFiles(counts: seq<nat>) returns (total: nat)
    ensures total <= 10 ==> total == Sum(counts)
    ensures total > 10 <==> Sum(counts) > 10
  {
    total := 0;
    var i := 0;
    while i < |counts|
      invariant 0 <= i <= |counts|
      invariant total == Sum(counts[..i]) && total <= 10
    {
      assert counts[..i + 1][..i] == counts[..i];
      total := total + counts[i];
      i := i + 1;
      if total > 10 {
        break;
      }
    }
    if i == |counts| {
      assert counts[..i] == counts;
    } else {
      SumPrefixBelow(counts, i);
    }
  }

  /** `_install_looks_good`, as a value: some file exists and an executable
      is found; an exception from the lookup counts as no. */
  predicate LooksGood(counts: seq<nat>, installDir: string, preferred: Value, disk: ExeSearch.Disk) {
    Sum(counts) > 0 && FindExecutableInDir(installDir, preferred, disk).Exe?
  }

  /** `_install_looks_good` */
  method InstallLooksGood(counts: seq<nat>, installDir: string, preferred: Value, disk: ExeSearch.Disk) returns (good: bool)
    ensures good == LooksGood(counts, installDir, preferred, disk)
  {
    var total := CountFiles(counts);
    if total <= 0 {
      return false;
    }
    var exe := FindExecutableInDir(installDir, preferred, disk);
    good := exe.Exe?;
  }

  /** A folder that looks good holds an executable that is a regular file. */
  lemma LooksGoodHasExecutable(counts: seq<nat>, installDir: string, preferred: Value, disk: ExeSearch.Disk)
    requires LooksGood(counts, installDir, preferred, disk)
    ensures Sum(counts) > 0
    ensures exists p :: p in disk.files && FindExecutableInDir(installDir, preferred, disk) == ExeSearch.Exe(p)
  {
    FindExecutableInDirSpec(installDir, preferred, disk);
  }

  /** `os.path.join(BASE_DIR, "steam", "steamcmd.exe")` */
  function SteamCmdPath(baseDir: string): string {
    Paths.PathJoin(Paths.PathJoin(baseDir, "steam"), "steamcmd.exe")
  }

  /** `paths.SERVER_PATHS.get(name) or os.path.join(BASE_DIR, "steam", "GSM",
      "servers", str(app_id), "serverfiles")` */
  function InstallDir(paths: map<string, string>, name: string, baseDir: string, appId: Value): string {
    if name in paths && paths[name] != [] then paths[name]
    else Paths.ServerFiles(baseDir, ToStr(appId))
  }

  /** Whether or not the path table has been loaded, an update installs into
      the folder `load_server_paths` assigns to the server's app id. */
  lemma InstallDirAgreesWithPathTable(baseDir: string, entries: map<string, Value>, name: string)
    requires Paths.EntriesWellFormed(entries) && name in entries
    ensures var appId := entries[name].fields["app_id"];
            InstallDir(Paths.PathsFromEntries(baseDir, entries), name, baseDir, appId) == Paths.ServerFiles(baseDir, ToStr(appId))
            && InstallDir(map[], name, baseDir, appId) == Paths.ServerFiles(baseDir, ToStr(appId))
  {
  }

  /** The SteamCMD command line of `run_update`, built piece by piece: the
      account is used only when both user name and password are set. */
  method BuildCommand(steamcmd: string, installDir: string, user: string, password: string, appId: string)
    returns (cmd: seq<string>)
    ensures |cmd| >= 9
    ensures cmd[..3] == [steamcmd, "+force_install_dir", installDir]
    ensures user != [] && password != [] ==> cmd[3..6] == ["+login", user, password] && |cmd| == 10
    ensures !(user != [] && password != []) ==> cmd[3..5] == ["+login", "anonymous"] && |cmd| == 9
    ensures cmd[|cmd| - 4..] == ["+app_update", appId, "validate", "+quit"]
  {
    cmd := [steamcmd, "+force_install_dir", installDir];
    if user != [] && password != [] {
      cmd := cmd + ["+login", user, password];
    } else {
      cmd := cmd + ["+login", "anonymous"];
    }
    cmd := cmd + ["+app_update", appId, "validate", "+quit"];
  }

  /** The error table, in declaration order. */
  const Mappings: seq<(string, string)> := [
    ("No subscription", "Account besitzt keine Lizenz"),
    ("Steam Guard", "2FA benötigt"),
    ("Invalid Password", "Ungültige Anmeldedaten"),
    ("Not logged in", "Anmeldung fehlgeschlagen"),
    ("0x202", "Verbindungsproblem"),
    ("App not released", "App nicht verfügbar"),
    ("Invalid platform", "Falsche Plattform"),
    ("missing dependency", "Fehlende Abhängigkeiten"),
    ("Access Denied", "Zugriffsrechte problem"),
    ("Disk write failure", "Speicherplatzproblem")
  ]

  /** The first table entry at or after `k` whose key occurs in the output. */
  function FirstMapping(output: string, k: nat): (r: Option<nat>)
    requires k <= |Mappings|
    ensures r.Some? ==> k <= r.value < |Mappings| && Contains(output, Mappings[r.value].0)
                        && forall j :: k <= j < r.value ==> !Contains(output, Mappings[j].0)
    ensures r.None? ==> forall j :: k <= j < |Mappings| ==> !Contains(output, Mappings[j].0)
    decreases |Mappings| - k
  {
    if k == |Mappings| then None
    else if Contains(output, Mappings[k].0) then Some(k)
    else FirstMapping(output, k + 1)
  }

  function ExitText(code: int): string {
    "Fehlercode: " + IntToStr(code)
  }

  /** The reason for a failed run: the first matching entry's text in front
      of the exit code, or the exit code alone. */
  function ErrorReason(code: int, output: string): string {
    match FirstMapping(output, 0)
    case Some(i) => Mappings[i].1 + " | " + ExitText(code)
    case None => ExitText(code)
  }

  /** The mapping loop of `run_update`, with its `break`. */
  method ScanMappings(code: int, output: string) returns (errorMsg: string)
    ensures errorMsg == ErrorReason(code, output)
  {
    errorMsg := ExitText(code);
    var i := 0;
    while i < |Mappings|
      invariant 0 <= i <= |Mappings|
      invariant errorMsg == ExitText(code)
      invariant forall j :: 0 <= j < i ==> !Contains(output, Mappings[j].0)
    {
      if Contains(output, Mappings[i].0) {
        ErrorReasonPicksFirst(code, output, i);
        errorMsg := Mappings[i].1 + " | " + errorMsg;
        break;
      }
      i := i + 1;
    }
    if i == |Mappings| {
      ErrorReasonFallsBack(code, output);
    }
  }

  /** `s[:n]` */
  function Prefix(s: string, n: nat): (r: string)
    ensures |r| <= n && StartsWith(s, r)
    ensures |s| <= n ==> r == s
  {
    if |s| <= n then s else s[..n]
  }

  /** `round(n / 60)` with ties to even, as the `:.0f` format does. */
  function RoundMinutes(n: nat): nat {
    var q, r := n / 60, n % 60;
    if r > 30 || (r == 30 && q % 2 == 1) then q + 1 else q
  }

  /** The rounding picks the nearest whole minute, and the even one on a tie. */
  lemma RoundMinutesNearest(n: nat)
    ensures -30 <= n - 60 * RoundMinutes(n) <= 30
    ensures (n - 60 * RoundMinutes(n) == 30 || n - 60 * RoundMinutes(n) == -30) ==> RoundMinutes(n) % 2 == 0
  {
  }

  /** `f"{t/60:.0f}"`; a negative timeout keeps its sign even when it rounds
      to zero. */
  function MinutesText(t: int): string {
    if t < 0 then "-" + NatToStr(RoundMinutes(-t)) else NatToStr(RoundMinutes(t))
  }

  /** What the SteamCMD run did. */
  datatype Outcome = TimedOut | Exited(code: int, output: string)

  /** What `run_update` reads before launching: base folder, path table, the
      server's config entries (a missing one is `None` or the empty string),
      and the disk as it is before the run. */
  datatype UpdateInput = UpdateInput(baseDir: string, paths: map<string, string>, appId: Value,
                                     user: string, password: string, before: ExeSearch.Disk)

  /** What the run leaves: its outcome and the formatted duration. */
  datatype RunResult = RunResult(outcome: Outcome, duration: string)

  /** The install folder after the run, as `_install_looks_good` sees it:
      the walk's file counts, the disk, and the executable entry. */
  datatype Folder = Folder(counts: seq<nat>, after: ExeSearch.Disk, preferred: Value)

  /** `(ok, message)` and the command line launched, if any. */
  datatype Update = Update(ok: bool, msg: string, cmd: Option<seq<string>>)

  function CommandFor(steamcmd: string, installDir: string, user: string, password: string, appId: string): seq<string> {
    [steamcmd, "+force_install_dir", installDir]
    + (if user != [] && password != [] then ["+login", user, password] else ["+login", "anonymous"])
    + ["+app_update", appId, "validate", "+quit"]
  }

  /** The command line `run_update` launches for server `name`. */
  function UpdateCommand(name: string, inp: UpdateInput): seq<string> {
    CommandFor(SteamCmdPath(inp.baseDir), InstallDir(inp.paths, name, inp.baseDir, inp.appId), inp.user, inp.password, ToStr(inp.appId))
  }

  /** `run_update(name)` with timeout `timeout`; `good` is what
      `_install_looks_good` says about the install folder after the run. */
  function RunUpdateSpec(name: string, inp: UpdateInput, timeout: int, run: RunResult, good: bool): (u: Update)
    ensures u.cmd.Some? <==> Truthy(inp.appId) && SteamCmdPath(inp.baseDir) in inp.before.files
    ensures u.cmd.Some? ==> u.cmd.value == UpdateCommand(name, inp)
    ensures u.ok ==> u.cmd.Some?
  {
    if !Truthy(inp.appId) then Update(false, "Keine App-ID konfiguriert", None)
    else
      var installDir := InstallDir(inp.paths, name, inp.baseDir, inp.appId);
      var steamcmd := SteamCmdPath(inp.baseDir);
      if steamcmd !in inp.before.files then Update(false, "SteamCMD nicht gefunden unter " + steamcmd, None)
      else
        var cmd := Some(UpdateCommand(name, inp));
        match run.outcome
        case TimedOut =>
          if good then Update(true, "Timeout nach " + MinutesText(timeout) + " Min., aber Dateien vorhanden – weiter.", cmd)
          else Update(false, "Timeout nach " + MinutesText(timeout) + " Minuten", cmd)
        case Exited(code, output) =>
          if code != 0 && good then Update(true, "Installation offenbar ok (Exit " + IntToStr(code) + ").", cmd)
          else if code != 0 then Update(false, ErrorReason(code, output) + "\nAusgabe: " + Prefix(output, 1000), cmd)
          else Update(true, "Erfolgreich in " + run.duration + "s installiert", cmd)
  }

  /** `run_update` */
  method RunUpdate(name: string, inp: UpdateInput, timeout: int, run: RunResult, folder: Folder) returns (u: Update)
    ensures u == RunUpdateSpec(name, inp, timeout, run,
                               LooksGood(folder.counts, InstallDir(inp.paths, name, inp.baseDir, inp.appId), folder.preferred, folder.after))
  {
    if !Truthy(inp.appId) {
      return Update(false, "Keine App-ID konfiguriert", None);
    }
    var installDir := InstallDir(inp.paths, name, inp.baseDir, inp.appId);
    var steamcmd := SteamCmdPath(inp.baseDir);
    if steamcmd !in inp.before.files {
      return Update(false, "SteamCMD nicht gefunden unter " + steamcmd, None);
    }
    var cmd := BuildCommand(steamcmd, installDir, inp.user, inp.password, ToStr(inp.appId));
    assert cmd == CommandFor(steamcmd, installDir, inp.user, inp.password, ToStr(inp.appId));
    match run.outcome {
      case TimedOut =>
        var good := InstallLooksGood(folder.counts, installDir, folder.preferred, folder.after);
        if good {
          return Update(true, "Timeout nach " + MinutesText(timeout) + " Min., aber Dateien vorhanden – weiter.", Some(cmd));
        }
        return Update(false, "Timeout nach " + MinutesText(timeout) + " Minuten", Some(cmd));
      case Exited(code, output) =>
        if code != 0 {
          var good := InstallLooksGood(folder.counts, installDir, folder.preferred, folder.after);
          if good {
            return Update(true, "Installation offenbar ok (Exit " + IntToStr(code) + ").", Some(cmd));
          }
          var errorMsg := ScanMappings(code, output);
          return Update(false, errorMsg + "\nAusgabe: " + Prefix(output, 1000), Some(cmd));
        }
        return Update(true, "Erfolgreich in " + run.duration + "s installiert", Some(cmd));
    }
  }

  /** Nothing is launched without an app id or without SteamCMD, and the
      missing path is named. */
  lemma UpdatePreconditionsFailEarly(name: string, inp: UpdateInput, timeout: int, run: RunResult, good: bool)
    ensures !Truthy(inp.appId) ==> RunUpdateSpec(name, inp, timeout, run, good) == Update(false, "Keine App-ID konfiguriert", None)
    ensures Truthy(inp.appId) && SteamCmdPath(inp.baseDir) !in inp.before.files ==>
              RunUpdateSpec(name, inp, timeout, run, good) == Update(false, "SteamCMD nicht gefunden unter " + SteamCmdPath(inp.baseDir), None)
    ensures RunUpdateSpec(name, inp, timeout, run, good).cmd.Some? <==> Truthy(inp.appId) && SteamCmdPath(inp.baseDir) in inp.before.files
    ensures RunUpdateSpec(name, inp, timeout, run, good).cmd.Some? ==> RunUpdateSpec(name, inp, timeout, run, good).cmd.value == UpdateCommand(name, inp)
  {
  }

  /** Once SteamCMD ran, the update counts as done iff it exited with 0 or
      the install folder looks good; a timeout with a good folder is a
      success too. */
  lemma UpdateOkIffExitZeroOrLooksGood(name: string, inp: UpdateInput, timeout: int, run: RunResult, good: bool)
    requires RunUpdateSpec(name, inp, timeout, run, good).cmd.Some?
    ensures RunUpdateSpec(name, inp, timeout, run, good).ok <==> (run.outcome.Exited? && run.outcome.code == 0) || good
  {
  }

  /** The launched command: install folder, account or anonymous login,
      the app id; the password is never passed without the user name. */
  lemma UpdateCommandShape(name: string, inp: UpdateInput)
    ensures var cmd := UpdateCommand(name, inp);
            cmd[0] == SteamCmdPath(inp.baseDir) && cmd[1] == "+force_install_dir"
            && cmd[2] == InstallDir(inp.paths, name, inp.baseDir, inp.appId) && cmd[3] == "+login"
            && (inp.user != [] && inp.password != [] <==> |cmd| == 10)
            && (|cmd| == 10 ==> cmd[4] == inp.user && cmd[5] == inp.password)
            && (|cmd| != 10 ==> |cmd| == 9 && cmd[4] == "anonymous")
            && cmd[|cmd| - 3] == ToStr(inp.appId)
  {
  }

  /** A failed run with a bad folder reports the reason and at most the
      first 1000 characters of the output. */
  lemma UpdateFailureMessage(name: string, inp: UpdateInput, timeout: int, run: RunResult, good: bool)
    requires RunUpdateSpec(name, inp, timeout, run, good).cmd.Some? && run.outcome.Exited?
    requires !RunUpdateSpec(name, inp, timeout, run, good).ok
    ensures var out := run.outcome.output;
            run.outcome.code != 0
            && RunUpdateSpec(name, inp, timeout, run, good).msg == ErrorReason(run.outcome.code, out) + "\nAusgabe: " + Prefix(out, 1000)
            && |Prefix(out, 1000)| <= 1000 && StartsWith(out, Prefix(out, 1000))
  {
  }

  /** The reason names the first table entry whose key occurs in the
      output, and falls back to the exit code alone. */
  lemma ErrorReasonPicksFirst(code: int, out: string, i: nat)
    requires i < |Mappings| && Contains(out, Mappings[i].0)
    requires forall j :: 0 <= j < i ==> !Contains(out, Mappings[j].0)
    ensures ErrorReason(code, out) == Mappings[i].1 + " | " + ExitText(code)
  {
  }

  /** Without any known key in the output the reason is the exit code. */
  lemma ErrorReasonFallsBack(code: int, out: string)
    requires forall j :: 0 <= j < |Mappings| ==> !Contains(out, Mappings[j].0)
    ensures ErrorReason(code, out) == ExitText(code)
  {
  }

  /** A timeout of whole minutes is reported as exactly that number of
      minutes; the default of 7200 seconds as 120. */
  lemma WholeMinutesText(k: nat)
    ensures MinutesText(60 * k) == NatToStr(k)
    ensures MinutesText(DefaultTimeout) == "120"
  {
    assert (60 * k) / 60 == k && (60 * k) % 60 == 0;
    assert RoundMinutes(7200) == 120;
    assert NatToStr(12) == "12";
  }

  /** The command line `run_update_with_credentials` launches. */
  function CredentialsCommand(name: string, inp: UpdateInput, username: string, password: string): seq<string> {
    [SteamCmdPath(inp.baseDir), "+force_install_dir", InstallDir(inp.paths, name, inp.baseDir, inp.appId),
     "+login", username, password, "+app_update", ToStr(inp.appId), "validate", "+quit"]
  }

  /** The install folder is the third word of the command. */
  lemma CredentialsCommandDir(name: string, inp: UpdateInput, username: string, password: string)
    ensures |CredentialsCommand(name, inp, username, password)| == 10
    ensures CredentialsCommand(name, inp, username, password)[2] == InstallDir(inp.paths, name, inp.baseDir, inp.appId)
  {
  }

  /** `run_update_with_credentials(name, username, password)`: always logs
      in with the given account, even an empty one; only "Steam Guard" in
      the output changes the reason, and the excerpt is shorter. */
  function RunUpdateWithCredentialsSpec(name: string, inp: UpdateInput, username: string, password: string, run: RunResult, good: bool): (u: Update)
    ensures u.cmd.Some? <==> Truthy(inp.appId)
    ensures u.cmd.Some? ==> u.cmd.value == CredentialsCommand(name, inp, username, password)
    ensures u.ok ==> u.cmd.Some?
  {
    if !Truthy(inp.appId) then Update(false, "Keine App-ID konfiguriert", None)
    else
      var cmd := CredentialsCommand(name, inp, username, password);
      match run.outcome
      case TimedOut =>
        if good then Update(true, "Timeout, aber Dateien vorhanden – weiter.", Some(cmd))
        else Update(false, "Timeout", Some(cmd))
      case Exited(code, output) =>
        if code != 0 && good then Update(true, "Installation offenbar ok (Exit " + IntToStr(code) + ").", Some(cmd))
        else if code != 0 then Update(false, CredentialsReason(code, output) + "\nAusgabe: " + Prefix(output, 500), Some(cmd))
        else Update(true, "Erfolgreich mit Login in " + run.duration + "s installiert", Some(cmd))
  }

  /** `run_update_with_credentials` as a whole call. It first reloads the
      path table from the config's `server_paths` entries, outside any
      `try`, so an entry without an `app_id` makes the call raise (`None`).
      Otherwise the update runs on the reloaded table. */
  function RunUpdateWithCredentials(name: string, entries: map<string, Value>, inp: UpdateInput, username: string, password: string,
                                    run: RunResult, good: bool): (r: Option<Update>)
    ensures r.None? <==> !Paths.EntriesWellFormed(entries)
    ensures r.Some? ==> (r.value.cmd.Some? <==> Truthy(inp.appId)) && (r.value.ok ==> r.value.cmd.Some?)
  {
    if !Paths.EntriesWellFormed(entries) then None
    else
      var u := RunUpdateWithCredentialsSpec(name, inp.(paths := Paths.PathsFromEntries(inp.baseDir, entries)), username, password, run, good);
      Some(u)
  }

  /** A reloaded table's folder is used whatever app id the config gives. */
  lemma InstallDirOfReloaded(baseDir: string, entries: map<string, Value>, name: string, appId: Value)
    requires Paths.EntriesWellFormed(entries) && name in entries
    ensures InstallDir(Paths.PathsFromEntries(baseDir, entries), name, baseDir, appId)
            == Paths.ServerFiles(baseDir, Paths.AppIdText(entries[name]))
  {
    var dir := Paths.ServerFiles(baseDir, Paths.AppIdText(entries[name]));
    assert Paths.PathsFromEntries(baseDir, entries)[name] == dir;
    assert dir != [] by {
      var root := Paths.ServerRoot(baseDir, Paths.AppIdText(entries[name]));
      assert |Paths.PathJoin(root, "serverfiles")| > 0;
    }
  }

  /** After the reload, a launch installs into the folder the reloaded
      table assigns to the server's own entry. */
  lemma CredentialsInstallAfterReload(name: string, entries: map<string, Value>, inp: UpdateInput, username: string, password: string,
                                      run: RunResult, good: bool)
    requires Paths.EntriesWellFormed(entries) && name in entries && Truthy(inp.appId)
    ensures var r := RunUpdateWithCredentials(name, entries, inp, username, password, run, good);
            r.Some? && r.value.cmd.Some? && r.value.cmd.value[2] == Paths.ServerFiles(inp.baseDir, Paths.AppIdText(entries[name]))
  {
    var reloaded := inp.(paths := Paths.PathsFromEntries(inp.baseDir, entries));
    var u := RunUpdateWithCredentialsSpec(name, reloaded, username, password, run, good);
    assert RunUpdateWithCredentials(name, entries, inp, username, password, run, good) == Some(u);
    assert u.cmd.value == CredentialsCommand(name, reloaded, username, password);
    CredentialsCommandDir(name, reloaded, username, password);
    assert reloaded.paths == Paths.PathsFromEntries(inp.baseDir, entries) && reloaded.baseDir == inp.baseDir;
    InstallDirOfReloaded(inp.baseDir, entries, name, reloaded.appId);
  }

  /** The reason given when the output mentions Steam Guard. */
  const SteamGuardHint := "2FA-Code ungültig oder abgelaufen"

  /** The reason `run_update_with_credentials` gives for a failed run. */
  function CredentialsReason(code: int, output: string): string {
    if Contains(output, "Steam Guard") then SteamGuardHint else ExitText(code)
  }

  /** With explicit credentials there is no SteamCMD presence check and no
      anonymous fallback: the given account is always passed. */
  lemma CredentialsUpdateCommand(name: string, inp: UpdateInput, username: string, password: string, run: RunResult, good: bool)
    ensures var u := RunUpdateWithCredentialsSpec(name, inp, username, password, run, good);
            (u.cmd.Some? <==> Truthy(inp.appId))
            && (u.cmd.Some? ==> u.cmd.value == CredentialsCommand(name, inp, username, password))
    ensures var c := CredentialsCommand(name, inp, username, password);
            |c| == 10 && c[0] == SteamCmdPath(inp.baseDir) && c[4] == username && c[5] == password && c[7] == ToStr(inp.appId)
  {
  }

  /** Success has the same meaning as in `run_update`. */
  lemma CredentialsUpdateOk(name: string, inp: UpdateInput, username: string, password: string, run: RunResult, good: bool)
    requires Truthy(inp.appId)
    ensures RunUpdateWithCredentialsSpec(name, inp, username, password, run, good).ok <==>
              (run.outcome.Exited? && run.outcome.code == 0) || good
  {
  }

  /** A failed run whose output mentions Steam Guard gets its own message,
      followed by at most 500 characters of the output. */
  lemma CredentialsSteamGuardMessage(name: string, inp: UpdateInput, username: string, password: string, run: RunResult, good: bool)
    requires Truthy(inp.appId) && run.outcome.Exited? && run.outcome.code != 0 && !good
    ensures var u := RunUpdateWithCredentialsSpec(name, inp, username, password, run, good);
            var out := run.outcome.output;
            u.msg == CredentialsReason(run.outcome.code, out) + "\nAusgabe: " + Prefix(out, 500)
            && (Contains(out, "Steam Guard") ==> StartsWith(u.msg, SteamGuardHint + "\nAusgabe: "))
  {
    var out := run.outcome.output;
    var head := CredentialsReason(run.outcome.code, out) + "\nAusgabe: ";
    assert (head + Prefix(out, 500))[..|head|] == head;
  }
}

=== FILE: Util.dfy ===
/** Strings and numbers as the Python code sees them: `str.split()`,
    `str.strip()`, `in` on strings, `startswith`, ASCII `lower()`, and the
    decimal rendering that f-strings and `str(int)` produce. */
module Util {

  datatype Option<+T> = None | Some(value: T)

  /** The characters Python's `str.split()` and `str.strip()` treat as
      whitespace (`str.isspace()`). */
  predicate IsSpace(c: char) {
    var k := c as int;
    (9 <= k <= 13) || (28 <= k <= 32) || k == 0x85 || k == 0xA0 || k == 0x1680 ||
    (0x2000 <= k <= 0x200A) || k == 0x2028 || k == 0x2029 || k == 0x202F ||
    k == 0x205F || k == 0x3000
  }

  predicate NoSpace(s: string) {
    forall i :: 0 <= i < |s| ==> !IsSpace(s[i])
  }

  /** `s.rstrip()` */
  function RStrip(s: string): string {
    if s == [] || !IsSpace(s[|s| - 1]) then s else RStrip(s[..|s| - 1])
  }

  /** `s.rstrip()` removes exactly the trailing whitespace. */
  lemma {:induction false} RStripSpec(s: string)
    ensures var r := RStrip(s);
            |r| <= |s| && r == s[..|r|]
            && (r == [] || !IsSpace(r[|r| - 1]))
            && forall i :: |r| <= i < |s| ==> IsSpace(s[i])
  {
    if s != [] && IsSpace(s[|s| - 1]) {
      RStripSpec(s[..|s| - 1]);
    }
  }

  /** `s.lstrip()` */
  function LStrip(s: string): string {
    if s == [] || !IsSpace(s[0]) then s else LStrip(s[1..])
  }

  /** `s.lstrip()` removes exactly the leading whitespace. */
  lemma {:induction false} LStripSpec(s: string)
    ensures var r := LStrip(s);
            |r| <= |s| && r == s[|s| - |r|..]
            && (r == [] || !IsSpace(r[0]))
            && forall i :: 0 <= i < |s| - |r| ==> IsSpace(s[i])
  {
    if s != [] && IsSpace(s[0]) {
      var t := s[1..];
      LStripSpec(t);
      var r := LStrip(t);
      assert LStrip(s) == r;
      assert t[|t| - |r|..] == s[|s| - |r|..];
      assert forall i :: 0 < i < |s| - |r| ==> s[i] == t[i - 1];
    }
  }

  /** `s.strip()` */
  function Strip(s: string): string {
    LStrip(RStrip(s))
  }

  /** A string without whitespace is its own strip. */
  lemma StripNoSpace(s: string)
    requires NoSpace(s)
    ensures Strip(s) == s
  {
  }

  /** Length of the run of non-whitespace characters that starts `s`. */
  function TokenLen(s: string): (n: nat)
    ensures n <= |s|
    ensures NoSpace(s[..n])
    ensures n == |s| || IsSpace(s[n])
  {
    if s == [] || IsSpace(s[0]) then 0 else 1 + TokenLen(s[1..])
  }

  /** `s.split()` with no separator: the maximal whitespace-free runs. */
  function Split(s: string): (ts: seq<string>)
    ensures forall i :: 0 <= i < |ts| ==> ts[i] != [] && NoSpace(ts[i])
    decreases |s|
  {
    if s == [] then []
    else if IsSpace(s[0]) then Split(s[1..])
    else
      var n := TokenLen(s);
      [s[..n]] + Split(s[n..])
  }

  lemma {:induction false} TokenLenOfJoin(a: string, b: string)
    requires NoSpace(a) && (b == [] || IsSpace(b[0]))
    ensures TokenLen(a + b) == |a|
    decreases |a|
  {
    if a != [] {
      assert (a + b)[1..] == a[1..] + b;
      TokenLenOfJoin(a[1..], b);
    }
  }

  /** Splitting a space-joined list of whitespace-free, non-empty tokens
      gives the tokens back. */
  lemma {:induction false} SplitJoinSpace(ts: seq<string>)
    requires forall i :: 0 <= i < |ts| ==> ts[i] != [] && NoSpace(ts[i])
    ensures Split(JoinSpace(ts)) == ts
  {
    if |ts| == 1 {
      TokenLenOfJoin(ts[0], []);
      assert ts[0] + [] == ts[0];
      assert ts[0][|ts[0]|..] == [];
    } else if |ts| > 1 {
      var rest := JoinSpace(ts[1..]);
      var s := ts[0] + " " + rest;
      TokenLenOfJoin(ts[0], " " + rest);
      assert s == ts[0] + (" " + rest);
      assert s[..|ts[0]|] == ts[0];
      assert s[|ts[0]|..] == " " + rest;
      assert (" " + rest)[1..] == rest;
      SplitJoinSpace(ts[1..]);
      assert ts == [ts[0]] + ts[1..];
    }
  }

  predicate AllSpace(g: string) {
    forall i :: 0 <= i < |g| ==> IsSpace(g[i])
  }

  /** The tokens `ts` laid out between the whitespace runs `gaps`:
      `gaps[0] + ts[0] + gaps[1] + ... + ts[n - 1] + gaps[n]`. */
  function Spaced(gaps: seq<string>, ts: seq<string>): string
    requires |gaps| == |ts| + 1
  {
    if ts == [] then gaps[0] else gaps[0] + ts[0] + Spaced(gaps[1..], ts[1..])
  }

  /** Leading whitespace does not change the split. */
  lemma {:induction false} SplitSkipsSpace(g: string, s: string)
    requires AllSpace(g)
    ensures Split(g + s) == Split(s)
  {
    if g == [] {
      assert g + s == s;
    } else {
      assert (g + s)[0] == g[0] && (g + s)[1..] == g[1..] + s;
      SplitSkipsSpace(g[1..], s);
    }
  }

  /** `s.split()` gives the whitespace-free tokens of `s` in order, whatever
      runs of whitespace precede, separate or follow them. */
  lemma {:induction false} SplitSpaced(gaps: seq<string>, ts: seq<string>)
    requires |gaps| == |ts| + 1
    requires forall i :: 0 <= i < |ts| ==> ts[i] != [] && NoSpace(ts[i])
    requires forall i :: 0 <= i < |gaps| ==> AllSpace(gaps[i])
    requires forall i :: 0 < i < |ts| ==> gaps[i] != []
    ensures Split(Spaced(gaps, ts)) == ts
  {
    if ts == [] {
      assert gaps[0] + [] == gaps[0];
      SplitSkipsSpace(gaps[0], []);
    } else {
      var rest := Spaced(gaps[1..], ts[1..]);
      assert rest == [] || IsSpace(rest[0]) by {
        if ts[1..] != [] {
          assert rest == gaps[1] + ts[1] + Spaced(gaps[2..], ts[2..]);
          assert rest[0] == gaps[1][0];
        }
      }
      var s := ts[0] + rest;
      assert Spaced(gaps, ts) == gaps[0] + s;
      SplitSkipsSpace(gaps[0], s);
      TokenLenOfJoin(ts[0], rest);
      assert s[..|ts[0]|] == ts[0];
      assert s[|ts[0]|..] == rest;
      SplitSpaced(gaps[1..], ts[1..]);
      assert ts == [ts[0]] + ts[1..];
    }
  }

  /** `" ".join(ts)` */
  function JoinSpace(ts: seq<string>): string
  {
    if ts == [] then [] else if |ts| == 1 then ts[0] else ts[0] + " " + JoinSpace(ts[1..])
  }

  /** A string in the form `" ".join(s.split())` leaves: whitespace occurs
      only as single spaces strictly inside the string. */
  predicate Collapsed(t: string) {
    forall i :: 0 <= i < |t| && IsSpace(t[i]) ==>
      t[i] == ' ' && 0 < i < |t| - 1 && !IsSpace(t[i + 1])
  }

  lemma {:induction false} JoinSpaceCollapsed(ts: seq<string>)
    requires forall i :: 0 <= i < |ts| ==> ts[i] != [] && NoSpace(ts[i])
    ensures Collapsed(JoinSpace(ts))
    ensures ts != [] ==> JoinSpace(ts) != [] && !IsSpace(JoinSpace(ts)[0])
  {
    if |ts| > 1 {
      JoinSpaceCollapsed(ts[1..]);
      var t := JoinSpace(ts);
      var rest := JoinSpace(ts[1..]);
      assert t == ts[0] + " " + rest;
      forall i | 0 <= i < |t| && IsSpace(t[i])
        ensures t[i] == ' ' && 0 < i < |t| - 1 && !IsSpace(t[i + 1])
      {
        if i == |ts[0]| {
          assert t[i + 1] == rest[0];
        } else if i > |ts[0]| {
          assert t[i] == rest[i - |ts[0]| - 1];
          assert i + 1 < |t| ==> t[i + 1] == rest[i - |ts[0]|];
        }
      }
      assert t[0] == ts[0][0];
    }
  }

  /** `" ".join(s.split())` */
  function Collapse(s: string): (t: string)
    ensures Collapsed(t)
  {
    JoinSpaceCollapsed(Split(s));
    JoinSpace(Split(s))
  }

  /** A prefix of a collapsed string, with trailing whitespace stripped, is
      collapsed again. */
  lemma CollapsedPrefixRStrip(t: string, n: nat)
    requires Collapsed(t) && n <= |t|
    ensures Collapsed(RStrip(t[..n]))
  {
    var p := RStrip(t[..n]);
    RStripSpec(t[..n]);
    forall i | 0 <= i < |p| && IsSpace(p[i])
      ensures p[i] == ' ' && 0 < i < |p| - 1 && !IsSpace(p[i + 1])
    {
      assert p[i] == t[i];
      assert i != |p| - 1;
      assert p[i + 1] == t[i + 1];
    }
  }

  /** Python's `sub in s` on strings. */
  predicate Contains(s: string, sub: string)
    decreases |s|
  {
    StartsWith(s, sub) || (s != [] && Contains(s[1..], sub))
  }

  /** `s.startswith(p)` */
  predicate StartsWith(s: string, p: string) {
    |p| <= |s| && s[..|p|] == p
  }

  /** `s.endswith(p)` */
  predicate EndsWith(s: string, p: string) {
    |p| <= |s| && s[|s| - |p|..] == p
  }

  function LowerChar(c: char): char {
    if 'A' <= c <= 'Z' then (c as int + 32) as char else c
  }

  /** `s.lower()`, for ASCII letters. */
  function Lower(s: string): (r: string)
    ensures |r| == |s|
    ensures forall i :: 0 <= i < |s| ==> r[i] == LowerChar(s[i])
  {
    if s == [] then [] else [LowerChar(s[0])] + Lower(s[1..])
  }

  lemma {:induction false} LowerAppend(a: string, b: string)
    ensures Lower(a + b) == Lower(a) + Lower(b)
  {
    if a == [] {
      assert a + b == b;
    } else {
      assert (a + b)[1..] == a[1..] + b;
      LowerAppend(a[1..], b);
    }
  }

  function DigitChar(d: nat): char
    requires d < 10
  {
    ('0' as int + d) as char
  }

  /** Decimal digits of `n`, as `str(n)` gives them. */
  function NatToStr(n: nat): (s: string)
    ensures s != []
    ensures forall i :: 0 <= i < |s| ==> '0' <= s[i] <= '9'
  {
    if n < 10 then [DigitChar(n)] else NatToStr(n / 10) + [DigitChar(n % 10)]
  }

  /** `str(i)` for any integer. */
  function IntToStr(i: int): string {
    if i < 0 then "-" + NatToStr(-i) else NatToStr(i)
  }

  /** Different numbers have different decimal renderings. */
  lemma {:induction false} NatToStrInjective(a: nat, b: nat)
    requires NatToStr(a) == NatToStr(b)
    ensures a == b
  {
    var sa, sb := NatToStr(a), NatToStr(b);
    if a < 10 && b < 10 {
      assert sa[0] == DigitChar(a) && sb[0] == DigitChar(b);
    } else if a >= 10 && b >= 10 {
      assert sa[|sa| - 1] == DigitChar(a % 10) && sb[|sb| - 1] == DigitChar(b % 10);
      assert sa[..|sa| - 1] == NatToStr(a / 10);
      assert sb[..|sb| - 1] == NatToStr(b / 10);
      NatToStrInjective(a / 10, b / 10);
    }
  }

  /** `f"{n:02d}"` for a non-negative number. */
  function Pad2(n: nat): (s: string)
    ensures |s| >= 2
  {
    if n < 10 then "0" + NatToStr(n) else NatToStr(n)
  }
}
